=== FILE: README.md ===
# EquiShift planning core in Dafny

A model of the shift-assignment engine of EquiShift, a volunteer planner for
multi-day events. Persons hold shifts of tasks; a task belongs to an event and
has a duty type; a shift has a date, a start and an end clock time and a
required head count. The model covers:

- time windows with the midnight rule (an end not after the start belongs to
  the next day), strict overlap and back-to-back contact (`time.dfy`);
- the tables as in-memory sequences and maps, with the joins the planner
  uses (`records.dfy`, `seqs.dfy`, `sorting.dfy`);
- the helper list `get_available_helpers_for_shift` (`eligibility.dfy`);
- the fairness score `calculate_scores` (`fairness.dfy`);
- the candidate score `calculate_candidate_score` (`ranking.dfy`);
- the two-pass greedy `generate_planning_proposal`, the staffing summary and
  `clear_assignments_for_event` (`proposal.dfy`);
- the plan check `validate_event_plan` and `check_team_leader_compliance`
  (`validation.dfy`);
- the guards `set_person_restrictions` and `update_assignment_status`
  (`guards.dfy`);
- the save step of the shift dialog, `ShiftDialog.accept` (`shift_dialog.dfy`).

Times are integer minutes, `day * 1440 + hour * 60 + minute`, with a date as
a day number; the dialog works in seconds and a lemma ties the two together.
Row ids are positive (SQLite AUTOINCREMENT), so Python's truth test on an id
is `Some?`. A lookup by id returns the first row with that id, which is the
row because ids are primary keys. `random.choice` over the top tier becomes a
nondeterministic choice (`:|`) whose postcondition only says the pick is in
the top tier.

Behaviour of the code worth noting:

- `calculate_scores` applies the limit with `if limit and count > limit`, so a
  limit of 0 means no limit and a negative limit drops every row
  (`Fairness.Counted`).
- The helper list is sorted on the whole key tuple with `reverse=True`, so
  among otherwise equal entries display names run from Z to A
  (`Eligibility.RanksFirst`).
- A 22:00-02:00 shift and a 00:00-04:00 shift with the same date do not
  overlap under the code: the second lies before the first on that date.
  The overlap exists only when the second is dated the next day
  (`Time.MidnightExamples`).
- The dialog compares a shift only with shifts of the same task and the same
  date, so a shift that crosses midnight is not compared with the next
  day's shifts (`ShiftDialog.Blocks`).
- `set_person_restrictions` with more than three ids returns without
  writing. A repeated id breaks the primary key and an unknown duty type
  breaks the foreign key, so the transaction rolls back and nothing changes
  (`Guards.RestrictionsAccepted`).
- The plan check's occupancy count is a raw `COUNT(*)` over assignment rows.
  The proposal counts the inner-joined rows of
  `get_assigned_persons_for_shift` instead (`Records.RawCount`,
  `Records.AssignedCount`).

## Model

| member | source | states |
|---|---|---|
| Time.Normalize | database_manager.py:464-466 | the start is kept; the end moves forward by exactly one day iff it is not after the start; the window is then proper, except when the start lies exactly one day after the end time |
| Time.ShiftWindow | database_manager.py:811-816 | a shift's window starts at its date and start time and ends strictly after the start and at most one day later; the end falls on the next day iff the end clock time is not after the start clock time |
| Time.OverlapsSymmetric | database_manager.py:945 | the overlap test gives the same answer with the two windows swapped |
| Time.OverlapsReflexive | database_manager.py:504 | a proper window overlaps itself |
| Time.TouchingIsNotOverlap | database_manager.py:504-508 | for proper windows, touching end points rule out overlap |
| Time.OverlapsScaled | widgets/shift_dialog.py:136-145 | scaling two windows by the same positive factor (minutes to seconds) does not change whether they overlap |
| Time.SameDayExamples | database_manager.py:503-508 | 10:00-14:00 and 14:00-18:00 only touch; 10:00-14:00 and 13:00-17:00 overlap |
| Time.MidnightExamples | database_manager.py:464-466 | 22:00-02:00 ends at 02:00 of the next day; it overlaps 00:00-04:00 of the next day and 20:00-23:00 of the same day, but not 00:00-04:00 of the same date |
| Records.FindShift | database_manager.py:459 | the lookup returns a row with the asked id, and returns nothing iff no row has that id |
| Records.Info | database_manager.py:459-460 | a shift resolves iff a row with that id exists and its task exists; the result is that row joined with its task |
| Records.EventAssignments | database_manager.py:478-484 | exactly the assignments whose shift and task resolve to the event |
| Records.EventShiftRows | database_manager.py:671-675 | exactly the shifts whose task exists and belongs to the event |
| Records.EventShifts | database_manager.py:808-809 | the event's shift rows, each exactly as often as in the table (a permutation of them), sorted by date, then start time |
| Records.AssignedOf | database_manager.py:438-453 | every entry is a row on the shift, carrying that row's person and whether the person leads the duty type |
| Records.AssignedOfComplete | database_manager.py:438-453 | every row on the shift whose person exists has its entry |
| Records.AssignedPersons | database_manager.py:438-453 | a shift that does not resolve has no assigned persons; for one that does, every entry is an assignment on the shift whose person exists, with the flag whether that person leads the duty type |
| Records.AssignedPersonsComplete | database_manager.py:438-453 | every assignment of a resolving shift whose person exists is listed, with that person's team-leader flag for the duty type |
| Guards.Elements | database_manager.py:349-351 | the inserted restriction set holds exactly the listed ids, and has as many elements as the list when no id repeats |
| Guards.SetPersonRestrictions | database_manager.py:343-354 | only the restrictions of the named person change, and they become exactly the listed ids; more than three ids, a repeated id or an unknown duty type changes nothing |
| Guards.SetPersonRestrictionsKeepsBound | database_manager.py:344-345 | if nobody had more than three restrictions before, nobody has after, on every path |
| Guards.ParseAttendance | database_manager.py:533-535 | an accepted text is the stored label of the status it yields |
| Guards.ParseLabelRoundTrip | database_manager.py:533-535 | each of the five stored labels is accepted as its own status |
| Guards.ParseAcceptsExactlyLabels | database_manager.py:533-535 | a text is accepted iff it is one of the five labels |
| Guards.UpdateAssignmentStatus | database_manager.py:532-537 | the call fails (`None`) iff the label is not one of the five, or an assignment with the id exists and the substitute is not a person (the foreign key rolls the UPDATE back); otherwise only the named assignment's status and substitute change, and an id that matches no row leaves the store as it was |
| Eligibility.Windows | database_manager.py:489-494 | one window per row, in order: the row's shift window |
| Eligibility.PersonEventRows | database_manager.py:478-495 | exactly the event's assignments held by the person |
| Eligibility.EligibleHasNoOverlap | database_manager.py:503-510 | an offered person holds no assignment of the event whose window overlaps the shift |
| Eligibility.Scan | database_manager.py:503-510 | the loop reports an overlap iff some scheduled window overlaps the shift; without an overlap, it reports a back-to-back contact iff some window touches the shift |
| Eligibility.MakeCandidate | database_manager.py:512-527 | the entry carries the person's id, name, status, competence and team-leader flag; it warns "Keine Pause" iff a shift touches this one, and "N Dienste" iff the person holds N >= 2 duties of the event |
| Eligibility.Collect | database_manager.py:498-527 | one entry per eligible person of the input (as many entries as eligible persons), each describing its person; persons with distinct ids give entries for distinct persons |
| Eligibility.CollectComplete | database_manager.py:498-510 | every eligible person of the input gets an entry |
| Eligibility.RanksFirstIsTotalPreorder | database_manager.py:529 | the picker order is total and transitive, so sorting by it is well defined |
| Eligibility.AvailableHelpers | database_manager.py:458-530 | a shift that does not resolve gives no helpers; otherwise there are exactly as many helpers as eligible persons, each active or passive, not restricted for the duty type, not already on the shift, and without an overlapping shift of the event; with primary-key person ids nobody is listed twice; the list is in picker order |
| Eligibility.AvailableHelpersComplete | database_manager.py:468-510 | every eligible person is offered, including one whose shifts only touch the new shift |
| Fairness.HistoryLog | database_manager.py:540-550 | one row per assignment, in table order, with that assignment's person, substitute and status; the event start date is present iff the shift, its task and its event all exist (the outer joins), and is then that event's date |
| Fairness.RecentFirstIsTotalPreorder | database_manager.py:549 | "newest event first, missing dates last" is a total preorder |
| Fairness.PersonRows | database_manager.py:544-549 | a person's rows are the log rows naming them as assignee or substitute, each as often as in the log (a permutation of the filtered log), newest event first |
| Fairness.PersonRowsCountDuties | database_manager.py:540-550 | a person has exactly as many history rows as assignments they held or substituted on, whether or not the shift, task or event still exists |
| Fairness.Delta | database_manager.py:569-576 | a duty counts +1 for the substitute; otherwise +1 for 'Erledigt', -2 for 'Nicht Erschienen' and 0 for any other status |
| Fairness.Counted | database_manager.py:564-567 | no limit or a limit of 0 counts every row; a positive limit L counts min(L, n) rows; a negative limit counts none |
| Fairness.WalkCountsPrefix | database_manager.py:558-577 | `Walk`, the per-row loop started after `count` duties, adds up exactly the changes of the rows before the limit is passed |
| Fairness.ScoreIsSumOfCountedRows | database_manager.py:558-577 | `Score`, a person's total, is the sum of the changes of their first `Counted` rows, newest first; rows beyond the limit contribute nothing |
| Fairness.ScoreBounds | database_manager.py:564-577 | a score lies between -2 and +1 times the number of counted duties |
| Fairness.Entries | database_manager.py:579-582 | exactly one entry per person kept by the status filter, in the persons' order: as many entries as kept persons, the i-th carrying the i-th kept person's name, status and score |
| Fairness.CalculateScores | database_manager.py:539-584 | as many entries as kept persons; every entry belongs to a kept person and carries that person's score; every kept person has an entry; without `include_inactive` only active and passive persons appear; totals are in descending order |
| Fairness.ScoreMap | database_manager.py:803 | a name is a key iff some entry has that name, and every key maps to the total of the last entry carrying that name |
| Ranking.Record | database_manager.py:862-864 | noting a pick raises that person's duty count by one and appends the window, leaving everybody else's counters alone |
| Ranking.BackToBackCount | database_manager.py:826-829 | the count is zero iff no earlier window of the run touches the shift |
| Ranking.LowerHistoryRanksHigher | database_manager.py:820-821 | everything else equal, a lower historical score gives a candidate score at least 10 points higher |
| Ranking.MoreDutiesRankLower | database_manager.py:822-825 | everything else equal, one more non-touching duty in the run lowers the candidate score by at least 25 |
| Ranking.RecordLowersScore | database_manager.py:818-838 | the candidate score after noting any pick for the candidate is at least 25 lower, and at least 10025 lower when it was their second duty of the run or the noted window touches the shift |
| Ranking.OtherPicksIrrelevant | database_manager.py:818-838 | noting a pick for somebody else leaves the candidate score unchanged |
| Ranking.FreshRunScore | database_manager.py:818-838 | before any pick, the score is -10 times the history plus 5 for an active person; outside the team-leader search competence adds 3 and a team-leader flag costs 500 |
| Ranking.BackToBackSnoc | database_manager.py:826-829 | recording one more window adds one to the back-to-back count iff that window touches the shift |
| Ranking.ScoreUpperBound | database_manager.py:818-838 | a candidate score never exceeds -10 times the history, minus 25 per run duty, plus the status and competence bonuses |
| Ranking.DisqualifiedIffHeavyPenalty | database_manager.py:822-829 | for historical scores in [-499, 447], a candidate falls below -5000 iff they already hold two duties of the run or would work back-to-back |
| Ranking.TeamLeaderWastePenalty | database_manager.py:831-836 | outside the team-leader search, a team leader scores exactly 500 less; inside it, competence and team-leader flags do not matter |
| Proposal.MaxOf | database_manager.py:855-857 | the best score bounds every score and is attained |
| Proposal.HelperIsEligible | database_manager.py:848 | each offered helper stands for an eligible person row with the same id |
| Proposal.PoolIsAdmissible | database_manager.py:848-849 | anybody in the pass-1 pool is an eligible team leader for the duty type; anybody in the pass-2 pool is eligible |
| Proposal.NextAssignmentId | database_manager.py:435-436 | the id of an inserted assignment exceeds every existing id |
| Proposal.Assign | database_manager.py:435-436 | an insert appends one planned assignment of that person on that shift, with a new id and no substitute, and changes nothing else |
| Proposal.PickTopTier | database_manager.py:855-860 | nobody is picked iff the pool is empty or the best score is below -5000; otherwise the pick is within `band` of the best score |
| Proposal.Step | database_manager.py:848-864 | a pick, if any, is an admissible pool member within the band of the best score; it adds one assignment and records it in the run counters; no pick changes nothing |
| Proposal.AssignKeepsNoDoubleBooking | database_manager.py:503-510 | adding an admissible person never creates two overlapping assignments of one person in an event |
| Proposal.AssignedOfSnoc | database_manager.py:438-453 | one appended row adds one assigned entry iff it is on the shift and its person exists |
| Proposal.AssignCount | database_manager.py:870 | an insert raises a shift's assigned count by one iff it is on that shift, the shift resolves and the person exists |
| Proposal.ExtendsTransitive | database_manager.py:840-889 | run steps compose: appended proposed rows, bounded counts and no new double booking are kept across steps |
| Proposal.AssignExtends | database_manager.py:862-864 | one admissible pick on a shift below its requirement keeps the run invariant |
| Proposal.FillStep | database_manager.py:873-889 | a pass-2 pick made while the shift is below its requirement keeps the run invariant and raises the count by exactly one |
| Proposal.FillTeamLeader | database_manager.py:840-864 | a shift that already has a team leader or is full is skipped; otherwise at most one row is added, on this shift, for a team leader of its duty type; the run invariant holds; the run context gains one duty and this shift's window for the person of each added row |
| Proposal.TeamLeaderStep | database_manager.py:858-864 | a pass-1 pick keeps the run invariant and its row is held by a team leader of the shift's duty type |
| Proposal.FillOpenSlots | database_manager.py:866-889 | a shift gets at most `required - assigned` new rows, all on that shift, and the run invariant holds; the run context gains one duty and this shift's window per added row, for that row's person |
| Proposal.TeamLeaderPass | database_manager.py:840-864 | pass 1 only adds rows on the listed shifts, each held by a team leader of that shift's duty type; each person's run duty count rises by their number of added rows and, with distinct shift ids, their run windows are extended by the windows of those rows' shifts, in order |
| Proposal.TeamLeaderRowsCarryOver | database_manager.py:840 | the pass-1 facts about added rows carry over from one shift to the next |
| Proposal.TalliesPick | database_manager.py:862-864 | one insert plus the matching context update extend the tally of the run by that row |
| Proposal.PassTallyStep | database_manager.py:840-889 | the rows one shift adds continue the pass's tally of duties and windows |
| Proposal.OpenSlotStep | database_manager.py:873-889 | one pass-2 pick keeps every loop invariant of the open-slot loop, including the tally |
| Proposal.OpenSlotsPass | database_manager.py:866-889 | pass 2 only adds rows on the listed shifts and keeps the run invariant; each person's run duty count rises by their number of added rows and, with distinct shift ids, their run windows are extended by the windows of those rows' shifts, in order |
| Proposal.GenerateProposal | database_manager.py:801-892 | the result only appends proposed rows on the event's shifts; no shift is pushed past its requirement; no double booking appears; the returned totals are the staffing summary of the new plan, and with unique shift ids the staffed total is the earlier one plus the inserted rows |
| Proposal.ClearAssignments | database_manager.py:689-691 | exactly the event's assignments are deleted; nothing else changes |
| Proposal.ClearedShiftIsEmpty | database_manager.py:689-691 | after clearing, no shift of the event has anyone assigned |
| Proposal.NoRowsNoneAssigned | database_manager.py:438-453 | a shift without assignment rows has no assigned persons |
| Proposal.ClearThenProposeWithinRequired | database_manager.py:866-872 | clearing an event and then proposing leaves every shift of the event at most at its required count and nobody double-booked |
| Proposal.ClearResetsStaffing | database_manager.py:660-669 | `StaffingSummary` after clearing the event: the same required total and nobody staffed |
| Proposal.ProposalStaffing | database_manager.py:660-669 | `StaffingSummary` after a run that adds rows only on the event's shifts (unique shift ids): the same required total, and the staffed count raised by exactly the number of added rows |
| Validation.OccupancyOf | database_manager.py:907-911 | a shift gives at most one occupancy line |
| Validation.OccupancyWarnings | database_manager.py:896-911 | a shift is reported empty iff its count is 0, and understaffed iff 0 < count < required; no other kind of line comes from this part |
| Validation.EmptyAndUnderstaffedExclusive | database_manager.py:908-911 | no shift is reported both empty and understaffed |
| Validation.RowOf | database_manager.py:913-923 | an assignment yields a row iff its shift belongs to the event and its person exists; the row carries that person and shift |
| Validation.RowsOf | database_manager.py:913-926 | every row comes from an assignment that yields it |
| Validation.RowsOfComplete | database_manager.py:913-926 | every assignment that yields a row is represented |
| Validation.RowOrderIsTotalPreorder | database_manager.py:924 | the order by display name, date and start time is a total preorder |
| Validation.EventRows | database_manager.py:913-926 | the event's rows as a permutation of the joined rows, sorted by name, date and start |
| Validation.RestrictionWarnings | database_manager.py:928-936 | an assignment is reported iff its person is restricted for the task's duty type |
| Validation.PersonOrder | database_manager.py:933-938 | every person with a row is listed, once, and no one else |
| Validation.SlotsOf | database_manager.py:929-933 | a person's slots are exactly the shift windows of their rows |
| Validation.SlotsOfCount | database_manager.py:929-933 | a person has one slot per row of theirs |
| Validation.SlotCountIsDutyCount | database_manager.py:913-933 | a person's slot count in the check is their number of assignments in the event, as the helper list counts them, or 0 if the person row is missing |
| Validation.PersonSlots | database_manager.py:940 | a person's slots sorted by start, as a permutation of their rows' slots |
| Validation.PairsWith | database_manager.py:943-948 | against each later slot, a double-booked line iff the windows overlap and a back-to-back line iff the earlier ends where the later starts |
| Validation.Pairs | database_manager.py:941-948 | the pair loop only yields overlap and back-to-back lines for that person |
| Validation.PairsReportOverlaps | database_manager.py:941-946 | a pair is reported double-booked iff an earlier slot overlaps a later one in the list |
| Validation.PairsReportBackToBack | database_manager.py:941-948 | a pair is reported back-to-back iff an earlier slot ends where a later one starts |
| Validation.PairCountByEarlier | database_manager.py:941-944 | counting the pairs i < j by their earlier index gives the same number as counting them by the later one |
| Validation.PairsWithCount | database_manager.py:943-948 | against the later slots, one double-booked line per overlapping slot and one back-to-back line per slot starting where the current one ends |
| Validation.PairsCount | database_manager.py:941-948 | the pair loop yields exactly one double-booked line per overlapping pair i < j and one back-to-back line per touching pair |
| Validation.PersonLines | database_manager.py:938-950 | a person's lines are about that person; the shift-count line appears iff they hold more than two shifts, with that number |
| Validation.PersonWarnings | database_manager.py:938-950 | the person part consists of the lines of the listed persons |
| Validation.PersonLinesCount | database_manager.py:938-950 | a person's lines count their overlapping and touching pairs exactly |
| Validation.PersonWarningsCount | database_manager.py:938-950 | with each person listed once, the person part holds a person's pair lines once if listed and none otherwise |
| Validation.LackingOf | database_manager.py:671-687 | a shift id is listed iff a listed shift has assignments and no assignment held by a team leader of its duty type |
| Validation.CheckTeamLeaderCompliance | database_manager.py:671-687 | a shift id is listed iff some shift of the event with that id is staffed without a team leader |
| Validation.AssignedOfHasLeader | database_manager.py:843 | the assigned-person view shows a team leader iff some assignment on the shift is held by a person who leads the duty type |
| Validation.ComplianceAgreesWithAssignedPersons | database_manager.py:676-684 | with unique shift ids, the compliance check lists a shift iff it has assignments and the proposal's `has_tl` test is false |
| Validation.TeamLeaderWarnings | database_manager.py:952-955 | one missing-team-leader line per listed shift, and no other kind of line |
| Validation.OnPlanIsListed | database_manager.py:927-938 | a person appears in the per-person part iff they hold an assignment of the event |
| Validation.PersonLinesOfPlan | database_manager.py:938-950 | double-booked, back-to-back and shift-count lines come only from the per-person part |
| Validation.PersonPart | database_manager.py:938-950 | a line about a person is in the per-person part iff that person is on the plan and the line is among their lines |
| Validation.ReportsEmptyShifts | database_manager.py:907-909 | the check reports a shift as empty iff it is a shift of the event with no assignment rows |
| Validation.ReportsUnderstaffedShifts | database_manager.py:910-911 | the check reports (count, required) for a shift iff 0 < count < required |
| Validation.ReportsRestrictions | database_manager.py:934-936 | the check reports a person on a shift iff they hold it in the event while restricted for its duty type |
| Validation.RestrictionLinesOfPlan | database_manager.py:934-936 | restriction lines come only from the restriction part |
| Validation.ReportsDoubleBooking | database_manager.py:941-946 | the check reports a person double-booked on two shifts iff in their start-ordered list the earlier overlaps the later; it has exactly one such line per overlapping pair i < j of the person's shifts, none for a person not on the plan |
| Validation.ReportsBackToBack | database_manager.py:941-948 | the check reports a person working back-to-back iff in their start-ordered list one shift ends where a later one starts; it has exactly one such line per such pair i < j |
| Validation.ReportsEachPair | database_manager.py:939-948 | per person, the number of double-booked lines equals the number of overlapping pairs i < j of their start-ordered shifts, and the number of back-to-back lines the number of touching pairs; zero for a person not on the plan |
| Validation.ReportsOverload | database_manager.py:949-950 | the check reports N shifts for a person iff they are on the plan, N is their number of assignments in the event, and N > 2 |
| Validation.ReportsMissingTeamLeader | database_manager.py:952-955 | the check reports a missing team leader iff the compliance check lists the shift |
| Validation.ValidatePlanInSectionOrder | database_manager.py:894-957 | `ValidatePlan` lists occupancy lines first, then restriction lines, then the per-person lines, then missing team leaders |
| Validation.SlotComesFromAssignment | database_manager.py:927-933 | every slot comes from an assignment of the event held by that person, with its shift and window |
| Validation.DoubleBookedLineIsGenuine | database_manager.py:941-946 | a double-booked line names two assignments of that person in the event, on the named shifts, whose windows overlap |
| Validation.DistinctShiftsDoNotOverlap | database_manager.py:941-946 | without double bookings, two assignments of one person on different shifts of the event do not overlap |
| Validation.NoDoubleBookingPassesCheck | database_manager.py:941-946 | a plan without double bookings, such as one the proposal extends, gets no double-booked line for two different shifts |
| ShiftDialog.TaskShifts | database_manager.py:394-403 | a permutation of the task's shift rows (each listed once per table row), by date and start time |
| ShiftDialog.SecondsWindowScalesMinutes | widgets/shift_dialog.py:136-142 | the dialog's seconds window is the minute window scaled by 60, with the end moved by a day iff it is not after the start |
| ShiftDialog.FirstBlocking | widgets/shift_dialog.py:124-148 | nothing is found iff no listed shift blocks the form; otherwise the first blocking shift is found |
| ShiftDialog.AcceptSavesIffClear | widgets/shift_dialog.py:104-155 | `Accept` saves iff start and end differ and no shift of the task blocks the form; it adds iff it saves with no shift being edited, and an update carries the edited id and the form |
| ShiftDialog.BlocksIsOverlap | widgets/shift_dialog.py:136-148 | on one date, the dialog's seconds test agrees with the planner's minute overlap, except that the edited shift never blocks |
| ShiftDialog.IdenticalTimesRejected | widgets/shift_dialog.py:112-114 | the form is rejected for identical times iff start equals end |
| ShiftDialog.ConflictIsGenuine | widgets/shift_dialog.py:124-148 | a reported conflict is a shift of the same task and date, not the edited one, that overlaps the form |
| ShiftDialog.SavedHasNoConflict | widgets/shift_dialog.py:124-155 | a saved shift overlaps no other shift of its task on its date |
| ShiftDialog.UpdateRow | database_manager.py:427-430 | the row with the edited id takes the form's date, times and count and keeps its id and task; other rows stay |
| ShiftDialog.UpdateRowIdempotent | database_manager.py:427-430 | saving the same edit twice gives the same row as saving it once, and saving a row's own values leaves it unchanged |
| ShiftDialog.Apply | widgets/shift_dialog.py:151-155 | a rejection changes nothing; an add appends exactly one row; an update rewrites exactly the rows with the edited id |
| ShiftDialog.AddKeepsSameDayDisjoint | widgets/shift_dialog.py:124-155 | if no two shifts of a task overlap on a date, adding through the dialog keeps it so |
| ShiftDialog.UpdateKeepsSameDayDisjoint | widgets/shift_dialog.py:124-155 | with unique shift ids, editing a shift of the task through the dialog keeps the shifts of each task disjoint per date |
| ShiftDialog.MidnightEndTouches | widgets/shift_dialog.py:136-148 | 21:00-00:00 does not conflict with 18:00-21:00 on the same date |
| ShiftDialog.OverlapBlocksUnlessEdited | widgets/shift_dialog.py:125-148 | 20:00-22:00 conflicts with 18:00-21:00 on the same date, unless 18:00-21:00 is the shift being edited |

## Left out

- SQLite plumbing (connections, schema creation, migrations, `execute_query`, transactions): the tables are sequences and maps, and a rolled-back transaction is a store that is unchanged.
- Hour totals (`calculate_worked_hours`, `get_detailed_member_summary`, `get_hours_and_duties_summary`): they are computed in SQL with floating-point division.
- `import_members` and `copy_event`: spreadsheet parsing and date arithmetic inside a transaction, mostly library calls.
- All Qt widgets, exporters, settings files, the entry points and demo seeding: user interface and I/O.
- Warning and message texts: each line of the plan check is a datatype value naming its kind, person and shifts rather than a formatted German sentence. The detail query for a missing team leader (database_manager.py:954) is assumed to find its row.
- The pseudo-random generator: the pick is any member of the top tier.
- The sort of scored candidates before the pick (database_manager.py:855, 880): only the best score and the top tier matter, and neither depends on the order.
- The helper sort in the manual assignment dialog: it reads a `score` key that the helper list never contains.
- Proposal.GenerateProposal: does not state which person is chosen or how many slots end up filled, only the bounds above; the choice is random in the source.
- Proposal.FillOpenSlots: bounds the number of new rows by the open slots and does not state that the loop runs until the pool is empty or the best score is disqualified.
- Validation.NoDoubleBookingPassesCheck: covers two different shifts only; a person holding the same shift twice is not covered.
- Validation.ComplianceAgreesWithAssignedPersons: assumes unique shift ids (a primary key in the schema).
- ShiftDialog.UpdateKeepsSameDayDisjoint: assumes unique shift ids and that the edited shift belongs to the dialog's task, as the dialog is only opened from that task.
- Fairness.PersonRows: the history query orders by person id and event start date only (database_manager.py:549). SQLite leaves the order of a person's rows with equal dates open; the model keeps them in table order (a stable sort). With a positive limit this order decides which rows are counted, so the score can differ from what SQLite returns.
- Records.AssignedOf: keeps the rows in table order, whereas `get_assigned_persons_for_shift` orders them by display name (database_manager.py:451). The planning core only uses the length of that list and whether some entry is a team leader, and both are independent of order.
- Records.EventShifts: the proposal's shift query orders by date and start time only (database_manager.py:808). Shifts with equal keys come in table order in the model, whereas SQLite leaves their order open; that order decides which shift the proposal fills first.
- Validation.EventRows: rows with equal name, date and start time come in table order in the model; SQLite leaves their order open, which can change the order of lines but not which lines appear.
- Proposal.TeamLeaderPass, Proposal.OpenSlotsPass: the run windows are stated only for shift lists with distinct ids; the duty counts hold for every list.
- Guards.UpdateAssignmentStatus: returns the new store or `None`; the source instead returns the cursor's `lastrowid` on success and `None` on failure (database_manager.py:173-186), a value the model has no counterpart for. The foreign-key refusal relies on the connection turning enforcement on (database_manager.py:40).
- Eligibility.AvailableHelpers: the order among helpers with equal picker keys (same flags and display name) is not pinned down, because Python's sort keeps the query's row order for them and the query has no ORDER BY. That the list holds each person at most once is stated for a person table whose ids are distinct, as its primary key guarantees.
- Ranking.DisqualifiedIffHeavyPenalty: holds only for historical scores in [-499, 447]; outside that range the -5000 threshold does not separate penalised from unpenalised candidates.

=== FILE: eligibility.dfy ===
/**
 The eligibility filter `get_available_helpers_for_shift`: who may be put on a
 shift, with soft warnings for back-to-back shifts and for persons who already
 hold two or more duties in the event.
 */
module Eligibility {
  import opened Time
  import opened Seqs
  import opened Sorting
  import opened Records

  /** "Keine Pause" and "N Dienste". */
  datatype HelperWarning = NoBreak | Duties(count: nat)

  /** One entry of the helper list. */
  datatype Candidate = Candidate(
    person: PersonId,
    name: string,
    status: PersonStatus,
    hasCompetence: bool,
    isTeamLeader: bool,
    warnings: seq<HelperWarning>)

  /** The windows of the shifts of `rows`, in order. */
  function Windows(db: Db, rows: seq<Assignment>): (r: seq<Time.Window>)
    requires forall a :: a in rows ==> Info(db, a.shift).Some?
    ensures |r| == |rows|
    ensures forall i :: 0 <= i < |r| ==> r[i] == AssignmentWindow(db, rows[i])
  {
    if |rows| == 0 then [] else [AssignmentWindow(db, rows[0])] + Windows(db, rows[1..])
  }

  /** The assignments person `p` holds in event `e`. */
  function PersonEventRows(db: Db, e: EventId, p: PersonId): (r: seq<Assignment>)
    ensures forall a :: a in r <==> a in db.assignments && InEvent(db, e, a) && a.person == p
  {
    Filter(EventAssignments(db, e), (a: Assignment) => a.person == p)
  }

  /** The windows of the shifts person `p` holds in event `e`. */
  function Schedule(db: Db, e: EventId, p: PersonId): seq<Time.Window> {
    Windows(db, PersonEventRows(db, e, p))
  }

  /** How many duties `p` holds in event `e`. */
  function DutyCount(db: Db, e: EventId, p: PersonId): nat {
    |PersonEventRows(db, e, p)|
  }

  /** Some shift `p` holds in event `e` overlaps `w`. */
  predicate HardConflict(db: Db, e: EventId, p: PersonId, w: Time.Window) {
    exists i :: 0 <= i < |Schedule(db, e, p)| && Overlaps(w, Schedule(db, e, p)[i])
  }

  /** Some shift `p` holds in event `e` ends where `w` starts or starts where it ends. */
  predicate BackToBack(db: Db, e: EventId, p: PersonId, w: Time.Window) {
    exists i :: 0 <= i < |Schedule(db, e, p)| && Touches(w, Schedule(db, e, p)[i])
  }

  /** `p` already holds an assignment on shift `id`. */
  predicate OnShift(db: Db, id: ShiftId, p: PersonId) {
    exists k :: 0 <= k < |db.assignments| && db.assignments[k].person == p && db.assignments[k].shift == id
  }

  /** Who may be proposed for a shift: active or passive, not restricted for
      its duty type, not already on it, and without an overlapping shift in
      the same event. */
  predicate Eligible(db: Db, info: ShiftInfo, p: Person) {
    && p.Plannable()
    && info.task.dutyType !in p.restrictions
    && !OnShift(db, info.shift.id, p.id)
    && !HardConflict(db, info.task.event, p.id, info.shift.Window())
  }

  /** What a helper entry says about person `p`. */
  ghost predicate Describes(db: Db, info: ShiftInfo, p: Person, c: Candidate) {
    var e := info.task.event;
    var n := DutyCount(db, e, p.id);
    && c.person == p.id
    && c.name == p.name
    && c.status == p.status
    && c.hasCompetence == p.HasCompetence(info.task.dutyType)
    && c.isTeamLeader == p.IsTeamLeaderFor(info.task.dutyType)
    && (NoBreak in c.warnings <==> BackToBack(db, e, p.id, info.shift.Window()))
    && (forall k :: Duties(k) in c.warnings <==> k == n && n >= 2)
  }

  /** An eligible person holds no shift of the event that overlaps the
      shift offered. */
  lemma EligibleHasNoOverlap(db: Db, info: ShiftInfo, p: Person, a: Assignment)
    requires Eligible(db, info, p)
    requires a in db.assignments && a.person == p.id && InEvent(db, info.task.event, a)
    ensures !Overlaps(info.shift.Window(), AssignmentWindow(db, a))
  {
    var rows := PersonEventRows(db, info.task.event, p.id);
    assert a in rows;
    var k :| 0 <= k < |rows| && rows[k] == a;
    assert Schedule(db, info.task.event, p.id)[k] == AssignmentWindow(db, a);
  }

  datatype ScanResult = ScanResult(overlap: bool, consecutive: bool)

  /** The loop over a person's schedule: it stops at the first overlapping
      shift and otherwise notes whether any shift touches `w`. */
  function Scan(sched: seq<Time.Window>, w: Time.Window, consecutive: bool): (r: ScanResult)
    ensures r.overlap <==> exists i :: 0 <= i < |sched| && Overlaps(w, sched[i])
    ensures !r.overlap ==> (r.consecutive <==> consecutive || exists i :: 0 <= i < |sched| && Touches(w, sched[i]))
  {
    if |sched| == 0 then ScanResult(false, consecutive)
    else if Overlaps(w, sched[0]) then ScanResult(true, consecutive)
    else
      var r := Scan(sched[1..], w, consecutive || Touches(w, sched[0]));
      assert forall i :: 1 <= i < |sched| ==> sched[i] == sched[1..][i - 1];
      r
  }

  /** The entry built for an eligible person. */
  function MakeCandidate(db: Db, info: ShiftInfo, p: Person): (c: Candidate)
    requires Eligible(db, info, p)
    ensures Describes(db, info, p, c)
  {
    var e := info.task.event;
    var scan := Scan(Schedule(db, e, p.id), info.shift.Window(), false);
    var n := DutyCount(db, e, p.id);
    var warnings := (if scan.consecutive then [NoBreak] else []) + (if n >= 2 then [Duties(n)] else []);
    Candidate(p.id, p.name, p.status, p.HasCompetence(info.task.dutyType), p.IsTeamLeaderFor(info.task.dutyType), warnings)
  }

  /** The eligible persons of `ps`, in order, as helper entries. */
  function Collect(db: Db, info: ShiftInfo, ps: seq<Person>): (r: seq<Candidate>)
    ensures |r| == |Filter(ps, (p: Person) => Eligible(db, info, p))|
    ensures forall c :: c in r ==> exists p :: p in ps && Eligible(db, info, p) && Describes(db, info, p, c)
    ensures DistinctKeys(ps, PersonKey) ==> DistinctKeys(r, CandidateKey)
  {
    if |ps| == 0 then []
    else
      var rest := Collect(db, info, ps[1..]);
      assert forall p :: p in ps[1..] ==> p in ps;
      if Eligible(db, info, ps[0]) then
        var r := [MakeCandidate(db, info, ps[0])] + rest;
        assert DistinctKeys(ps, PersonKey) ==> DistinctKeys(r, CandidateKey) by {
          if DistinctKeys(ps, PersonKey) {
            DistinctKeysTail(ps, PersonKey);
            CollectDistinctStep(db, info, ps, rest, r);
          }
        }
        r
      else
        assert DistinctKeys(ps, PersonKey) ==> DistinctKeys(ps[1..], PersonKey) by {
          if DistinctKeys(ps, PersonKey) {
            DistinctKeysTail(ps, PersonKey);
          }
        }
        rest
  }

  function PersonKey(p: Person): PersonId { p.id }

  function CandidateKey(c: Candidate): PersonId { c.person }

  /** Prepending the entry of the first person to the entries of the tail
      keeps the entries distinct when the persons' ids are. */
  lemma CollectDistinctStep(db: Db, info: ShiftInfo, ps: seq<Person>, rest: seq<Candidate>, r: seq<Candidate>)
    requires |ps| > 0 && DistinctKeys(ps, PersonKey) && DistinctKeys(rest, CandidateKey)
    requires forall c :: c in rest ==> exists p :: p in ps[1..] && Describes(db, info, p, c)
    requires |r| == |rest| + 1 && r[0].person == ps[0].id && r[1..] == rest
    ensures DistinctKeys(r, CandidateKey)
  {
    assert forall i :: 0 <= i < |ps[1..]| ==> ps[1..][i] == ps[i + 1];
    forall j | 0 < j < |r|
      ensures r[j].person != r[0].person
    {
      assert r[j] == rest[j - 1] && rest[j - 1] in rest;
      var p :| p in ps[1..] && Describes(db, info, p, r[j]);
      var i :| 0 <= i < |ps[1..]| && ps[1..][i] == p;
      assert ps[i + 1] == p;
    }
    forall i, j | 0 <= i < j < |r|
      ensures r[i].person != r[j].person
    {
      if i > 0 {
        assert r[i] == rest[i - 1] && r[j] == rest[j - 1];
      }
    }
  }

  /** Every eligible person of `ps` has an entry. */
  lemma {:induction false} CollectComplete(db: Db, info: ShiftInfo, ps: seq<Person>, p: Person)
    requires p in ps && Eligible(db, info, p)
    ensures MakeCandidate(db, info, p) in Collect(db, info, ps)
  {
    if ps[0] != p {
      CollectComplete(db, info, ps[1..], p);
    }
  }

  /** The display order of the manual picker: team leaders first, then
      competent persons, then those without warnings, then by display name
      from Z to A (the source sorts the whole key tuple in reverse). */
  predicate RanksFirst(a: Candidate, b: Candidate) {
    if a.isTeamLeader != b.isTeamLeader then a.isTeamLeader
    else if a.hasCompetence != b.hasCompetence then a.hasCompetence
    else if (|a.warnings| == 0) != (|b.warnings| == 0) then |a.warnings| == 0
    else LexLe(b.name, a.name)
  }

  lemma RanksFirstIsTotalPreorder()
    ensures TotalPreorder(RanksFirst)
  {
    LexLeIsTotalPreorder();
  }

  /** `get_available_helpers_for_shift(shift_id)`: every entry describes an
      eligible person, in picker order. */
  function AvailableHelpers(db: Db, id: ShiftId): (r: seq<Candidate>)
    ensures Info(db, id).None? ==> r == []
    ensures Info(db, id).Some? ==>
              forall c :: c in r ==> exists p :: p in db.persons && Eligible(db, Info(db, id).value, p)
                                                && Describes(db, Info(db, id).value, p, c)
    ensures SortedBy(r, RanksFirst)
    ensures Info(db, id).Some? ==> |r| == |Filter(db.persons, (p: Person) => Eligible(db, Info(db, id).value, p))|
    ensures DistinctKeys(db.persons, PersonKey) ==> DistinctKeys(r, CandidateKey)
  {
    match Info(db, id)
    case None => []
    case Some(info) =>
      RanksFirstIsTotalPreorder();
      var r := Sort(Collect(db, info, db.persons), RanksFirst);
      assert DistinctKeys(db.persons, PersonKey) ==> DistinctKeys(r, CandidateKey) by {
        if DistinctKeys(db.persons, PersonKey) {
          PermutationKeepsDistinctKeys(r, Collect(db, info, db.persons), CandidateKey);
        }
      }
      r
  }

  /** Conversely, every eligible person is offered. */
  lemma AvailableHelpersComplete(db: Db, id: ShiftId, p: Person)
    requires Info(db, id).Some?
    requires p in db.persons && Eligible(db, Info(db, id).value, p)
    ensures MakeCandidate(db, Info(db, id).value, p) in AvailableHelpers(db, id)
  {
    CollectComplete(db, Info(db, id).value, db.persons, p);
  }
}

=== FILE: fairness.dfy ===
/**
 The fairness score `calculate_scores`: a signed integer per person built from
 the attendance outcomes of their past duties, most recent event first,
 optionally limited to the most recent `limit` duties.
 */
module Fairness {
  import opened Seqs
  import opened Sorting
  import opened Records

  /** One assignment joined with the start date of its event (`NULL` when the
      shift, task or event row is missing). */
  datatype HistoryRow = HistoryRow(person: PersonId, substitute: Option<PersonId>, status: Attendance, eventStart: Option<int>)

  function EventStart(db: Db, id: ShiftId): Option<int> {
    match Info(db, id)
    case None => None
    case Some(info) => if info.task.event in db.events then Some(db.events[info.task.event]) else None
  }

  /** The assignment table joined with shifts, tasks and events: one row per
      assignment, in table order, whose event start is missing exactly when
      the assignment's shift, task or event row is. */
  function HistoryLog(db: Db): (r: seq<HistoryRow>)
    ensures |r| == |db.assignments|
    ensures forall i :: 0 <= i < |r| ==>
              && r[i].person == db.assignments[i].person
              && r[i].substitute == db.assignments[i].substitute
              && r[i].status == db.assignments[i].status
              && (r[i].eventStart.Some? <==>
                    Info(db, db.assignments[i].shift).Some? && Info(db, db.assignments[i].shift).value.task.event in db.events)
              && (r[i].eventStart.Some? ==>
                    r[i].eventStart.value == db.events[Info(db, db.assignments[i].shift).value.task.event])
  {
    seq(|db.assignments|, i requires 0 <= i < |db.assignments| =>
      HistoryRow(db.assignments[i].person, db.assignments[i].substitute,
                 db.assignments[i].status, EventStart(db, db.assignments[i].shift)))
  }

  /** `ORDER BY e.start_date DESC`; SQLite places `NULL` last in a descending order. */
  predicate RecentFirst(a: HistoryRow, b: HistoryRow) {
    match (a.eventStart, b.eventStart)
    case (Some(x), Some(y)) => x >= y
    case (Some(_), None) => true
    case (None, Some(_)) => false
    case (None, None) => true
  }

  lemma RecentFirstIsTotalPreorder()
    ensures TotalPreorder(RecentFirst)
  {
  }

  /** Row `h` is about person `pid`: they held the duty or substituted. */
  predicate Involves(h: HistoryRow, pid: PersonId) {
    h.person == pid || h.substitute == Some(pid)
  }

  /** The rows the join produces for person `pid`: every duty they held, as
      the assignee or as the recorded substitute, most recent event first. */
  function PersonRows(log: seq<HistoryRow>, pid: PersonId): (r: seq<HistoryRow>)
    ensures forall h :: h in r <==> h in log && Involves(h, pid)
    ensures forall h :: multiset(r)[h] == if Involves(h, pid) then multiset(log)[h] else 0
    ensures SortedBy(r, RecentFirst)
  {
    RecentFirstIsTotalPreorder();
    FilterMultiplicity(log, (h: HistoryRow) => Involves(h, pid));
    Sort(Filter(log, (h: HistoryRow) => Involves(h, pid)), RecentFirst)
  }

  /** The assignments person `pid` held or substituted on. */
  function HeldOrSubstituted(rows: seq<Assignment>, pid: PersonId): seq<Assignment> {
    Filter(rows, (a: Assignment) => a.person == pid || a.substitute == Some(pid))
  }

  function InvolvedRows(log: seq<HistoryRow>, pid: PersonId): seq<HistoryRow> {
    Filter(log, (h: HistoryRow) => Involves(h, pid))
  }

  lemma {:induction false} InvolvedRowsMatch(log: seq<HistoryRow>, rows: seq<Assignment>, pid: PersonId)
    requires |log| == |rows|
    requires forall i :: 0 <= i < |log| ==> log[i].person == rows[i].person && log[i].substitute == rows[i].substitute
    ensures |InvolvedRows(log, pid)| == |HeldOrSubstituted(rows, pid)|
  {
    if |log| != 0 {
      assert forall i :: 0 <= i < |log| - 1 ==> log[1..][i] == log[i + 1] && rows[1..][i] == rows[i + 1];
      InvolvedRowsMatch(log[1..], rows[1..], pid);
    }
  }

  /** A person has one history row for every assignment they held or
      substituted on, whether or not its shift, task or event still exists. */
  lemma PersonRowsCountDuties(db: Db, pid: PersonId)
    ensures |PersonRows(HistoryLog(db), pid)| == |HeldOrSubstituted(db.assignments, pid)|
  {
    var log := HistoryLog(db);
    InvolvedRowsMatch(log, db.assignments, pid);
    assert |PersonRows(log, pid)| == |InvolvedRows(log, pid)|;
  }

  /** The score change one row gives person `pid`: +1 as the substitute,
      otherwise +1 for 'Erledigt', -2 for 'Nicht Erschienen', 0 for the rest. */
  function Delta(h: HistoryRow, pid: PersonId): (d: int)
    ensures -2 <= d <= 1
    ensures h.substitute == Some(pid) ==> d == 1
    ensures h.substitute != Some(pid) ==> (d == 1 <==> h.status == Done) && (d == -2 <==> h.status == NoShow)
  {
    if h.substitute == Some(pid) then 1
    else match h.status
      case Done => 1
      case NoShow => -2
      case _ => 0
  }

  /** Python's `if limit and count > limit`: a limit of 0 or none means no limit. */
  predicate LimitActive(limit: Option<int>) {
    limit.Some? && limit.value != 0
  }

  /** The per-row walk of the source: `count` duties were seen before `rows`;
      each row raises the count and contributes only while the count does not
      exceed an active limit. */
  function Walk(rows: seq<HistoryRow>, pid: PersonId, limit: Option<int>, count: int): int {
    if |rows| == 0 then 0
    else
      var count' := count + 1;
      var rest := Walk(rows[1..], pid, limit, count');
      if LimitActive(limit) && count' > limit.value then rest else Delta(rows[0], pid) + rest
  }

  /** The score of person `pid` over their rows. */
  function Score(rows: seq<HistoryRow>, pid: PersonId, limit: Option<int>): int {
    Walk(rows, pid, limit, 0)
  }

  /** Sum of the score changes of `rows`. */
  function SumDeltas(rows: seq<HistoryRow>, pid: PersonId): int {
    if |rows| == 0 then 0 else Delta(rows[0], pid) + SumDeltas(rows[1..], pid)
  }

  /** `x` clamped into `[0, n]`. */
  function Clamp(x: int, n: nat): (k: nat)
    ensures k <= n
  {
    if x < 0 then 0 else if x < n then x else n
  }

  /** How many of `n` rows contribute under `limit`. */
  function Counted(limit: Option<int>, n: nat): (k: nat)
    ensures k <= n
    ensures !LimitActive(limit) ==> k == n
    ensures LimitActive(limit) && limit.value < 0 ==> k == 0
    ensures LimitActive(limit) && 0 < limit.value ==> k == if limit.value < n then limit.value else n
  {
    if LimitActive(limit) then Clamp(limit.value, n) else n
  }

  lemma {:induction false} WalkCountsPrefix(rows: seq<HistoryRow>, pid: PersonId, limit: Option<int>, count: int)
    ensures Walk(rows, pid, limit, count)
         == SumDeltas(rows[..if LimitActive(limit) then Clamp(limit.value - count, |rows|) else |rows|], pid)
  {
    if |rows| == 0 {
    } else {
      var k := if LimitActive(limit) then Clamp(limit.value - count, |rows|) else |rows|;
      if LimitActive(limit) && count + 1 > limit.value {
        WalkSkipsAll(rows[1..], pid, limit, count + 1);
        assert k == 0;
      } else {
        WalkCountsPrefix(rows[1..], pid, limit, count + 1);
        var k' := if LimitActive(limit) then Clamp(limit.value - (count + 1), |rows[1..]|) else |rows[1..]|;
        assert k == k' + 1;
        assert rows[..k][1..] == rows[1..][..k'];
      }
    }
  }

  lemma {:induction false} WalkSkipsAll(rows: seq<HistoryRow>, pid: PersonId, limit: Option<int>, count: int)
    requires LimitActive(limit) && count > limit.value
    ensures Walk(rows, pid, limit, count) == 0
  {
    if |rows| != 0 {
      WalkSkipsAll(rows[1..], pid, limit, count + 1);
    }
  }

  /** The score is the plain sum over the first `Counted(limit, n)` rows: a
      limit of `L > 0` keeps the `L` most recent duties, a limit of 0 keeps
      all, a negative limit keeps none. */
  lemma ScoreIsSumOfCountedRows(rows: seq<HistoryRow>, pid: PersonId, limit: Option<int>)
    ensures Score(rows, pid, limit) == SumDeltas(rows[..Counted(limit, |rows|)], pid)
  {
    WalkCountsPrefix(rows, pid, limit, 0);
  }

  lemma {:induction false} SumDeltasBounds(rows: seq<HistoryRow>, pid: PersonId)
    ensures -2 * |rows| <= SumDeltas(rows, pid) <= |rows|
  {
    if |rows| != 0 {
      SumDeltasBounds(rows[1..], pid);
    }
  }

  /** Each counted duty moves the score by at most +1 or -2. */
  lemma ScoreBounds(rows: seq<HistoryRow>, pid: PersonId, limit: Option<int>)
    ensures -2 * Counted(limit, |rows|) <= Score(rows, pid, limit) <= Counted(limit, |rows|)
  {
    ScoreIsSumOfCountedRows(rows, pid, limit);
    SumDeltasBounds(rows[..Counted(limit, |rows|)], pid);
  }

  /** One line of the ranking: `{name, status, total_score}`. */
  datatype ScoreEntry = ScoreEntry(name: string, status: PersonStatus, total: int)

  function EntryFor(p: Person, log: seq<HistoryRow>, limit: Option<int>): ScoreEntry {
    ScoreEntry(p.name, p.status, Score(PersonRows(log, p.id), p.id, limit))
  }

  predicate ById(a: Person, b: Person) {
    a.id <= b.id
  }

  predicate HigherTotal(a: ScoreEntry, b: ScoreEntry) {
    a.total >= b.total
  }

  /** `include_inactive or status in ('Aktiv', 'Passiv')`. */
  predicate Kept(p: Person, includeInactive: bool) {
    includeInactive || p.Plannable()
  }

  /** The persons the status filter keeps, in order. */
  function KeptPersons(ps: seq<Person>, includeInactive: bool): seq<Person> {
    Filter(ps, (p: Person) => Kept(p, includeInactive))
  }

  /** One entry per kept person, in the persons' order. */
  function Entries(ps: seq<Person>, log: seq<HistoryRow>, includeInactive: bool, limit: Option<int>): (r: seq<ScoreEntry>)
    ensures |r| == |KeptPersons(ps, includeInactive)|
    ensures forall i :: 0 <= i < |r| ==> r[i] == EntryFor(KeptPersons(ps, includeInactive)[i], log, limit)
    ensures forall e :: e in r <==> exists p :: p in ps && Kept(p, includeInactive) && e == EntryFor(p, log, limit)
  {
    var kept := KeptPersons(ps, includeInactive);
    var r := seq(|kept|, i requires 0 <= i < |kept| => EntryFor(kept[i], log, limit));
    EntriesMembers(ps, kept, r, log, includeInactive, limit);
    r
  }

  lemma EntriesMembers(ps: seq<Person>, kept: seq<Person>, r: seq<ScoreEntry>, log: seq<HistoryRow>,
                       includeInactive: bool, limit: Option<int>)
    requires forall p :: p in kept <==> p in ps && Kept(p, includeInactive)
    requires |r| == |kept|
    requires forall i :: 0 <= i < |r| ==> r[i] == EntryFor(kept[i], log, limit)
    ensures forall e :: e in r <==> exists p :: p in ps && Kept(p, includeInactive) && e == EntryFor(p, log, limit)
  {
    forall e | e in r
      ensures exists p :: p in ps && Kept(p, includeInactive) && e == EntryFor(p, log, limit)
    {
      var i :| 0 <= i < |r| && r[i] == e;
      assert kept[i] in kept;
    }
    forall p | p in ps && Kept(p, includeInactive)
      ensures EntryFor(p, log, limit) in r
    {
      var i :| 0 <= i < |kept| && kept[i] == p;
      assert r[i] == EntryFor(p, log, limit);
    }
  }

  /** `calculate_scores(include_inactive, limit)`: one entry per person (only
      active and passive persons unless `includeInactive`), highest total first. */
  function CalculateScores(persons: seq<Person>, log: seq<HistoryRow>, includeInactive: bool, limit: Option<int>): (r: seq<ScoreEntry>)
    ensures SortedBy(r, HigherTotal)
    ensures forall i, j :: 0 <= i < j < |r| ==> r[i].total >= r[j].total
    ensures |r| == |KeptPersons(persons, includeInactive)|
    ensures forall e :: e in r ==> exists p :: p in persons && Kept(p, includeInactive)
                                             && e.name == p.name && e.status == p.status
                                             && e.total == Score(PersonRows(log, p.id), p.id, limit)
    ensures forall p :: p in persons && Kept(p, includeInactive) ==> EntryFor(p, log, limit) in r
    ensures !includeInactive ==> forall e :: e in r ==> e.status == Active || e.status == Passive
  {
    assert TotalPreorder(ById);
    assert TotalPreorder(HigherTotal);
    var ordered := Sort(persons, ById);
    FilterPermutation(ordered, persons, (p: Person) => Kept(p, includeInactive));
    assert |KeptPersons(ordered, includeInactive)| == |KeptPersons(persons, includeInactive)|;
    Sort(Entries(ordered, log, includeInactive, limit), HigherTotal)
  }

  /** `entries[i]` is the last entry named `k`. */
  predicate LastEntryFor(entries: seq<ScoreEntry>, k: string, i: int) {
    0 <= i < |entries| && entries[i].name == k && forall j :: i < j < |entries| ==> entries[j].name != k
  }

  /** The last entry named `k` stays the last one when an entry with another
      name is appended. */
  lemma LastEntrySnoc(entries: seq<ScoreEntry>, e: ScoreEntry, k: string, i: int)
    requires LastEntryFor(entries, k, i)
    requires e.name != k
    ensures LastEntryFor(entries + [e], k, i)
  {
    var xs := entries + [e];
    forall j | i < j < |xs|
      ensures xs[j].name != k
    {
      if j < |entries| {
        assert xs[j] == entries[j];
      }
    }
  }

  /** `{name: total_score}` over the entries; a later entry replaces an
      earlier one with the same name. */
  function ScoreMap(entries: seq<ScoreEntry>): (m: map<string, int>)
    ensures forall k :: k in m <==> exists e :: e in entries && e.name == k
    ensures |entries| > 0 ==> m[entries[|entries| - 1].name] == entries[|entries| - 1].total
    ensures forall k :: k in m ==> exists i :: LastEntryFor(entries, k, i) && m[k] == entries[i].total
  {
    if |entries| == 0 then map[]
    else
      var init := entries[..|entries| - 1];
      var last := entries[|entries| - 1];
      assert entries == init + [last];
      assert forall e :: e in entries <==> e in init || e == last;
      var m0 := ScoreMap(init);
      var m := m0[last.name := last.total];
      assert forall k :: k in m ==> exists i :: LastEntryFor(entries, k, i) && m[k] == entries[i].total by {
        forall k | k in m
          ensures exists i :: LastEntryFor(entries, k, i) && m[k] == entries[i].total
        {
          if k == last.name {
            assert LastEntryFor(entries, k, |entries| - 1);
          } else {
            var i :| LastEntryFor(init, k, i) && m0[k] == init[i].total;
            LastEntrySnoc(init, last, k, i);
            assert entries[i] == init[i];
          }
        }
      }
      m
  }
}

=== FILE: guards.dfy ===
/**
 The two small write guards of the planning store: replacing a person's
 restrictions (at most three) and recording an attendance outcome (one of five
 labels). A write the database refuses (a primary-key or foreign-key
 violation) is rolled back, leaving the store unchanged.
 */
module Guards {
  import opened Records

  const MaxRestrictions: int := 3

  predicate Distinct<T(==)>(xs: seq<T>) {
    forall i, j :: 0 <= i < j < |xs| ==> xs[i] != xs[j]
  }

  /** The set of elements of `xs`; as large as `xs` exactly when no element repeats. */
  function Elements<T(!new,==)>(xs: seq<T>): (r: set<T>)
    ensures forall x :: x in r <==> x in xs
    ensures |r| <= |xs|
    ensures Distinct(xs) ==> |r| == |xs|
  {
    if |xs| == 0 then {}
    else
      var rest := Elements(xs[1..]);
      assert forall x :: x in xs <==> x == xs[0] || x in xs[1..];
      if xs[0] in rest then rest else {xs[0]} + rest
  }

  /** Every person has at most three restricted duty types. */
  predicate RestrictionsBounded(db: Db) {
    forall i :: 0 <= i < |db.persons| ==> |db.persons[i].restrictions| <= MaxRestrictions
  }

  /** Would the transaction of `set_person_restrictions` commit? More than
      three ids are refused up front; a repeated id breaks the primary key and
      an unknown duty type breaks the foreign key, and both roll back. */
  predicate RestrictionsAccepted(db: Db, ids: seq<DutyTypeId>) {
    && |ids| <= MaxRestrictions
    && Distinct(ids)
    && forall k :: 0 <= k < |ids| ==> ids[k] in db.dutyTypes
  }

  function WithRestrictions(p: Person, pid: PersonId, rs: set<DutyTypeId>): Person {
    if p.id == pid then p.(restrictions := rs) else p
  }

  /** `set_person_restrictions(person_id, duty_type_ids)`: replaces the
      person's restriction set with `ids`, or changes nothing. */
  function SetPersonRestrictions(db: Db, pid: PersonId, ids: seq<DutyTypeId>): (r: Db)
    ensures r.(persons := db.persons) == db
    ensures |r.persons| == |db.persons|
    ensures !RestrictionsAccepted(db, ids) ==> r == db
    ensures forall i :: 0 <= i < |r.persons| ==>
              && r.persons[i].(restrictions := db.persons[i].restrictions) == db.persons[i]
              && (r.persons[i].restrictions
                    == if RestrictionsAccepted(db, ids) && db.persons[i].id == pid
                       then Elements(ids) else db.persons[i].restrictions)
  {
    if !RestrictionsAccepted(db, ids) then db
    else
      var rs := Elements(ids);
      db.(persons := seq(|db.persons|, i requires 0 <= i < |db.persons| => WithRestrictions(db.persons[i], pid, rs)))
  }

  /** No path through `set_person_restrictions` leaves a person with more than
      three restrictions. */
  lemma SetPersonRestrictionsKeepsBound(db: Db, pid: PersonId, ids: seq<DutyTypeId>)
    requires RestrictionsBounded(db)
    ensures RestrictionsBounded(SetPersonRestrictions(db, pid, ids))
  {
    var r := SetPersonRestrictions(db, pid, ids);
    if RestrictionsAccepted(db, ids) {
      assert |Elements(ids)| == |ids| <= MaxRestrictions;
      forall i | 0 <= i < |r.persons|
        ensures |r.persons[i].restrictions| <= MaxRestrictions
      {
      }
    }
  }

  /** The attendance labels stored in the database. */
  function Label(a: Attendance): string {
    match a
    case Planned => "Geplant"
    case Done => "Erledigt"
    case DoneBySubstitute => "Erledigt (durch Vertreter)"
    case NoShow => "Nicht Erschienen"
    case Excused => "Entschuldigt"
  }

  /** The `status not in valid_stati` check: a label is accepted iff it is one
      of the five stored labels. */
  function ParseAttendance(s: string): (r: Option<Attendance>)
    ensures r.Some? ==> Label(r.value) == s
  {
    if s == "Geplant" then Some(Planned)
    else if s == "Erledigt" then Some(Done)
    else if s == "Erledigt (durch Vertreter)" then Some(DoneBySubstitute)
    else if s == "Nicht Erschienen" then Some(NoShow)
    else if s == "Entschuldigt" then Some(Excused)
    else None
  }

  lemma ParseLabelRoundTrip(a: Attendance)
    ensures ParseAttendance(Label(a)) == Some(a)
  {
    match a
    case Planned =>
    case Done =>
      assert Label(a) != "Geplant" by { assert Label(a)[0] != "Geplant"[0] || |Label(a)| != |"Geplant"|; }
    case DoneBySubstitute =>
      assert |Label(a)| != |"Erledigt"|;
      assert Label(a)[0] != "Geplant"[0];
    case NoShow =>
      assert Label(a)[0] != "Geplant"[0] && Label(a)[0] != "Erledigt"[0];
    case Excused =>
      assert Label(a)[0] != "Geplant"[0] && Label(a)[1] != "Erledigt"[1] && Label(a)[0] != "Nicht Erschienen"[0];
  }

  /** The accepted texts are exactly the five labels. */
  lemma ParseAcceptsExactlyLabels(s: string)
    ensures ParseAttendance(s).Some? <==> exists a :: Label(a) == s
  {
    if exists a :: Label(a) == s {
      var a :| Label(a) == s;
      ParseLabelRoundTrip(a);
    }
  }

  /** The foreign key on `substitute_person_id`. */
  predicate SubstituteKnown(db: Db, sub: Option<PersonId>) {
    sub.None? || PersonExists(db, sub.value)
  }

  function SetStatus(a: Assignment, aid: AssignmentId, st: Attendance, sub: Option<PersonId>): Assignment {
    if a.id == aid then a.(status := st, substitute := sub) else a
  }

  /** Some assignment row has id `aid`. */
  predicate HasAssignment(db: Db, aid: AssignmentId) {
    exists i :: 0 <= i < |db.assignments| && db.assignments[i].id == aid
  }

  /** `update_assignment_status(assignment_id, status, substitute_id)`:
      `None` when the label is not one of the five, or when the UPDATE would
      write a row whose substitute is not a person (the foreign key fails and
      the statement is rolled back); otherwise the store with that
      assignment's status and substitute replaced. An UPDATE that matches no
      row writes nothing, so SQLite checks no foreign key and it succeeds. */
  function UpdateAssignmentStatus(db: Db, aid: AssignmentId, text: string, sub: Option<PersonId>): (r: Option<Db>)
    ensures r.Some? <==> ParseAttendance(text).Some? && (SubstituteKnown(db, sub) || !HasAssignment(db, aid))
    ensures r.Some? && !HasAssignment(db, aid) ==> r.value == db
    ensures r.Some? ==>
              && r.value.(assignments := db.assignments) == db
              && |r.value.assignments| == |db.assignments|
              && forall i :: 0 <= i < |db.assignments| ==>
                   r.value.assignments[i]
                     == if db.assignments[i].id == aid
                        then db.assignments[i].(status := ParseAttendance(text).value, substitute := sub)
                        else db.assignments[i]
  {
    match ParseAttendance(text)
    case None => None
    case Some(st) =>
      if !SubstituteKnown(db, sub) && HasAssignment(db, aid) then None
      else
        var rows := seq(|db.assignments|, i requires 0 <= i < |db.assignments| => SetStatus(db.assignments[i], aid, st, sub));
        assert !HasAssignment(db, aid) ==> rows == db.assignments;
        Some(db.(assignments := rows))
  }
}

=== FILE: proposal.dfy ===
/**
 The proposal generator `generate_planning_proposal`: a two-pass greedy fill
 of all shifts of an event. Pass 1 gives every shift that lacks one a team
 leader; pass 2 fills the open slots. Each pick is some candidate of the top
 tier (within 5 points of the best score in pass 1, within 8 in pass 2);
 nobody is picked when the best score is below -5000. The random choice of the
 source is a nondeterministic choice here.
 */
module Proposal {
  import opened Time
  import opened Seqs
  import opened Sorting
  import opened Records
  import opened Eligibility
  import opened Fairness
  import opened Ranking

  const TeamLeaderBand: int := 5
  const FillBand: int := 8

  /** `get_shift_by_id(id)['required_people']`. */
  function RequiredOf(db: Db, id: ShiftId): int {
    match FindShift(db.shifts, id)
    case Some(s) => s.required
    case None => 0
  }

  function MaxOf(xs: seq<int>): (m: int)
    requires |xs| > 0
    ensures forall i :: 0 <= i < |xs| ==> xs[i] <= m
    ensures exists i :: 0 <= i < |xs| && xs[i] == m
  {
    if |xs| == 1 then xs[0]
    else
      var rest := MaxOf(xs[1..]);
      assert forall i :: 1 <= i < |xs| ==> xs[i] == xs[1..][i - 1];
      if xs[0] >= rest then xs[0] else rest
  }

  /** The candidate score of every candidate, in order. */
  function ScoresOf(cands: seq<Candidate>, scores: map<string, int>, ctx: RunContext, w: Time.Window, tl: bool): (r: seq<int>)
    ensures |r| == |cands|
    ensures forall i :: 0 <= i < |r| ==> r[i] == CandidateScore(cands[i], scores, ctx, w, tl)
  {
    seq(|cands|, i requires 0 <= i < |cands| => CandidateScore(cands[i], scores, ctx, w, tl))
  }

  /** Who competes for a slot: all available helpers, or only the team leaders among them. */
  function Pool(db: Db, id: ShiftId, tlOnly: bool): seq<Candidate> {
    var helpers := AvailableHelpers(db, id);
    if tlOnly then Filter(helpers, (c: Candidate) => c.isTeamLeader) else helpers
  }

  /** Person `pid` may be put on shift `id`: the shift resolves and some
      person row with that id is eligible for it (and leads its duty type
      when a team leader is sought). */
  ghost predicate Admissible(db: Db, id: ShiftId, tlOnly: bool, pid: PersonId) {
    && Info(db, id).Some?
    && exists p :: p in db.persons && p.id == pid && Eligible(db, Info(db, id).value, p)
                   && (tlOnly ==> p.IsTeamLeaderFor(Info(db, id).value.task.dutyType))
  }

  /** A helper entry stands for an eligible person row with the same id and
      the same team-leader flag. */
  lemma HelperIsEligible(db: Db, id: ShiftId, c: Candidate)
    requires c in AvailableHelpers(db, id)
    ensures Info(db, id).Some?
    ensures exists p :: p in db.persons && p.id == c.person && Eligible(db, Info(db, id).value, p)
                        && (c.isTeamLeader ==> p.IsTeamLeaderFor(Info(db, id).value.task.dutyType))
  {
    var info := Info(db, id).value;
    var p :| p in db.persons && Eligible(db, info, p) && Describes(db, info, p, c);
    assert p.id == c.person && c.isTeamLeader == p.IsTeamLeaderFor(info.task.dutyType);
  }

  lemma PoolIsAdmissible(db: Db, id: ShiftId, tlOnly: bool, c: Candidate)
    requires c in Pool(db, id, tlOnly)
    ensures Admissible(db, id, tlOnly, c.person)
  {
    var helpers := AvailableHelpers(db, id);
    assert c in helpers;
    assert tlOnly ==> c.isTeamLeader;
    HelperIsEligible(db, id, c);
  }

  /** An id larger than every id in `rows`: the key SQLite gives the next
      inserted assignment. */
  function NextAssignmentId(rows: seq<Assignment>): (id: AssignmentId)
    ensures forall a :: a in rows ==> a.id < id
  {
    if |rows| == 0 then 1
    else
      var rest := NextAssignmentId(rows[1..]);
      assert forall a :: a in rows ==> a == rows[0] || a in rows[1..];
      if rows[0].id < rest then rest else rows[0].id + 1
  }

  /** `assign_person_to_shift(person_id, shift_id)`. The model does not check
      that the person or the shift exists (the database's foreign keys would);
      the proposal only ever passes a person taken from the shift's available
      helpers, so the pick is an existing, eligible person. */
  function Assign(db: Db, p: PersonId, id: ShiftId): (r: Db)
    ensures r.(assignments := db.assignments) == db
    ensures |r.assignments| == |db.assignments| + 1
    ensures r.assignments[..|db.assignments|] == db.assignments
    ensures var a := r.assignments[|db.assignments|];
            a.shift == id && a.person == p && a.substitute == None && a.status == Planned
            && forall b :: b in db.assignments ==> b.id < a.id
  {
    var a := Assignment(NextAssignmentId(db.assignments), id, p, None, Planned);
    assert (db.assignments + [a])[..|db.assignments|] == db.assignments;
    db.(assignments := db.assignments + [a])
  }

  /** `random.choice(top_tier)`: the index of some candidate whose score is
      within `band` of the best, or `None` when there is no candidate or the
      best score is below -5000. */
  method PickTopTier(cands: seq<Candidate>, scored: seq<int>, band: int) returns (pick: Option<nat>)
    requires |scored| == |cands|
    requires 0 <= band
    ensures pick.None? <==> |cands| == 0 || MaxOf(scored) < DisqualifiedBelow
    ensures pick.Some? ==> pick.value < |cands| && scored[pick.value] >= MaxOf(scored) - band
                           && MaxOf(scored) >= DisqualifiedBelow
  {
    if |cands| == 0 {
      return None;
    }
    var best := scored[0];
    var i := 1;
    while i < |scored|
      invariant 1 <= i <= |scored|
      invariant forall k :: 0 <= k < i ==> scored[k] <= best
      invariant exists k :: 0 <= k < i && scored[k] == best
    {
      if scored[i] > best {
        best := scored[i];
      }
      i := i + 1;
    }
    assert best == MaxOf(scored);
    if best < DisqualifiedBelow {
      return None;
    }
    var k :| 0 <= k < |cands| && scored[k] >= best - band;
    return Some(k);
  }

  /** One pick for shift `s`: score the pool, take some top-tier candidate
      and assign them, updating the run context. */
  method Step(db: Db, ctx: RunContext, scores: map<string, int>, s: Shift, tlOnly: bool, band: int)
    returns (db': Db, ctx': RunContext, chosen: Option<PersonId>)
    requires 0 <= band
    ensures var pool := Pool(db, s.id, tlOnly);
            var scored := ScoresOf(pool, scores, ctx, s.Window(), tlOnly);
            && (chosen.None? <==> |pool| == 0 || MaxOf(scored) < DisqualifiedBelow)
            && (chosen.None? ==> db' == db && ctx' == ctx)
            && (chosen.Some? ==>
                  && db' == Assign(db, chosen.value, s.id)
                  && ctx' == Record(ctx, chosen.value, s.Window())
                  && Admissible(db, s.id, tlOnly, chosen.value)
                  && MaxOf(scored) >= DisqualifiedBelow
                  && exists i :: 0 <= i < |pool| && pool[i].person == chosen.value && scored[i] >= MaxOf(scored) - band)
  {
    var pool := Pool(db, s.id, tlOnly);
    var scored := ScoresOf(pool, scores, ctx, s.Window(), tlOnly);
    var pick := PickTopTier(pool, scored, band);
    if pick.None? {
      return db, ctx, None;
    }
    var c := pool[pick.value];
    assert Admissible(db, s.id, tlOnly, c.person) by {
      PoolIsAdmissible(db, s.id, tlOnly, c);
    }
    db' := Assign(db, c.person, s.id);
    ctx' := Record(ctx, c.person, s.Window());
    chosen := Some(c.person);
  }

  /** Adding an admissible person never creates a double booking. */
  lemma AssignKeepsNoDoubleBooking(db: Db, p: PersonId, id: ShiftId, tlOnly: bool, e: EventId)
    requires NoDoubleBooking(db, e)
    requires Admissible(db, id, tlOnly, p)
    ensures NoDoubleBooking(Assign(db, p, id), e)
  {
    var db' := Assign(db, p, id);
    var n := |db.assignments|;
    var info := Info(db, id).value;
    assert forall x: ShiftId :: Info(db', x) == Info(db, x);
    var q :| q in db.persons && q.id == p && Eligible(db, info, q);
    forall i, j |
      0 <= i < |db'.assignments| && 0 <= j < |db'.assignments| && i != j
      && db'.assignments[i].person == db'.assignments[j].person
      && InEvent(db', e, db'.assignments[i]) && InEvent(db', e, db'.assignments[j])
      ensures !Overlaps(AssignmentWindow(db', db'.assignments[i]), AssignmentWindow(db', db'.assignments[j]))
    {
      if i < n && j < n {
        assert db'.assignments[i] == db.assignments[i] && db'.assignments[j] == db.assignments[j];
      } else {
        var a := db.assignments[if i < n then i else j];
        EligibleHasNoOverlap(db, info, q, a);
      }
    }
  }

  /** `AssignedOf` grows by one row exactly when the new row is on the shift
      and names an existing person. */
  lemma AssignedOfSnoc(persons: seq<Person>, rows: seq<Assignment>, a: Assignment, id: ShiftId, d: DutyTypeId)
    ensures |AssignedOf(persons, rows + [a], id, d)|
            == |AssignedOf(persons, rows, id, d)| + (if a.shift == id && FindPerson(persons, a.person).Some? then 1 else 0)
  {
    assert (rows + [a])[..|rows|] == rows;
  }

  lemma AssignCount(db: Db, p: PersonId, sid: ShiftId, id: ShiftId)
    ensures AssignedCount(Assign(db, p, sid), id)
            == AssignedCount(db, id) + (if id == sid && Info(db, sid).Some? && FindPerson(db.persons, p).Some? then 1 else 0)
  {
    var db' := Assign(db, p, sid);
    assert Info(db', id) == Info(db, id);
    if Info(db, id).Some? {
      AssignedOfSnoc(db.persons, db.assignments, db'.assignments[|db.assignments|], id, Info(db, id).value.task.dutyType);
      assert db'.assignments == db.assignments + [db'.assignments[|db.assignments|]];
    }
  }

  /** Every shift ends no fuller than it started or than it requires. */
  ghost predicate WithinBound(db0: Db, db: Db) {
    forall id: ShiftId :: AssignedCount(db, id) <= AssignedCount(db0, id) || AssignedCount(db, id) <= RequiredOf(db0, id)
  }

  /** What a proposal inserts: a planned assignment without substitute of an
      active or passive person who is not restricted for the shift's duty type. */
  ghost predicate Proposed(db: Db, a: Assignment) {
    && a.status == Planned
    && a.substitute == None
    && Info(db, a.shift).Some?
    && exists q :: q in db.persons && q.id == a.person && q.Plannable()
                   && Info(db, a.shift).value.task.dutyType !in q.restrictions
  }

  /** `db` is `db0` with proposed assignments appended, no shift pushed past
      its requirement, and no double booking introduced. */
  ghost predicate Extends(db0: Db, db: Db) {
    && db.(assignments := db0.assignments) == db0
    && |db0.assignments| <= |db.assignments|
    && db.assignments[..|db0.assignments|] == db0.assignments
    && (forall k :: |db0.assignments| <= k < |db.assignments| ==> Proposed(db0, db.assignments[k]))
    && WithinBound(db0, db)
    && (forall e :: NoDoubleBooking(db0, e) ==> NoDoubleBooking(db, e))
  }

  lemma ExtendsReflexive(db: Db)
    ensures Extends(db, db)
  {
  }

  lemma ExtendsTransitive(db0: Db, db1: Db, db2: Db)
    requires Extends(db0, db1) && Extends(db1, db2)
    ensures Extends(db0, db2)
  {
    var n0, n1 := |db0.assignments|, |db1.assignments|;
    assert db2.assignments[..n0] == db2.assignments[..n1][..n0];
    assert forall x: ShiftId :: Info(db1, x) == Info(db0, x) && RequiredOf(db1, x) == RequiredOf(db0, x);
    forall k | n0 <= k < |db2.assignments|
      ensures Proposed(db0, db2.assignments[k])
    {
      if k < n1 {
        assert db2.assignments[k] == db1.assignments[k];
      } else {
        assert Proposed(db1, db2.assignments[k]);
      }
    }
  }

  /** One admissible assignment on a shift that is not yet full keeps `Extends`. */
  lemma AssignExtends(db0: Db, db: Db, p: PersonId, id: ShiftId, tlOnly: bool)
    requires Extends(db0, db)
    requires Admissible(db, id, tlOnly, p)
    requires AssignedCount(db, id) < RequiredOf(db, id)
    ensures Extends(db0, Assign(db, p, id))
  {
    var db' := Assign(db, p, id);
    assert forall x: ShiftId :: Info(db', x) == Info(db, x) && Info(db, x) == Info(db0, x);
    assert forall x: ShiftId :: RequiredOf(db, x) == RequiredOf(db0, x);
    forall x: ShiftId
      ensures AssignedCount(db', x) <= AssignedCount(db0, x) || AssignedCount(db', x) <= RequiredOf(db0, x)
    {
      AssignCount(db, p, id, x);
    }
    forall e | NoDoubleBooking(db0, e)
      ensures NoDoubleBooking(db', e)
    {
      AssignKeepsNoDoubleBooking(db, p, id, tlOnly, e);
    }
    var n0 := |db0.assignments|;
    assert db'.assignments[..n0] == db.assignments[..n0];
    forall k | n0 <= k < |db'.assignments|
      ensures Proposed(db0, db'.assignments[k])
    {
      if k < |db.assignments| {
        assert db'.assignments[k] == db.assignments[k];
      } else {
        var q :| q in db.persons && q.id == p && Eligible(db, Info(db, id).value, q)
                 && (tlOnly ==> q.IsTeamLeaderFor(Info(db, id).value.task.dutyType));
      }
    }
  }

  /** One pass-2 pick on shift `id` of a run that started from `db0`. */
  lemma FillStep(db0: Db, db: Db, p: PersonId, id: ShiftId, k: nat)
    requires Extends(db0, db)
    requires Admissible(db, id, false, p)
    requires AssignedCount(db, id) == AssignedCount(db0, id) + k
    requires k < RequiredOf(db0, id) - AssignedCount(db0, id)
    ensures Extends(db0, Assign(db, p, id))
    ensures AssignedCount(Assign(db, p, id), id) == AssignedCount(db0, id) + k + 1
  {
    assert RequiredOf(db, id) == RequiredOf(db0, id);
    AssignCount(db, p, id, id);
    AssignExtends(db0, db, p, id, false);
  }

  // ---------------------------------------------------------------------
  // What the run context remembers

  /** How many of `rows` name person `p`. */
  function PickCount(rows: seq<Assignment>, p: PersonId): nat {
    if |rows| == 0 then 0
    else PickCount(rows[..|rows| - 1], p) + (if rows[|rows| - 1].person == p then 1 else 0)
  }

  function Repeat(w: Time.Window, n: nat): (r: seq<Time.Window>)
    ensures |r| == n
    ensures forall i :: 0 <= i < n ==> r[i] == w
  {
    if n == 0 then [] else Repeat(w, n - 1) + [w]
  }

  /** The windows, in row order, of the rows of `rows` that name `p`, each
      taken from the first shift of `shifts` with the row's shift id. */
  function PickWindows(shifts: seq<Shift>, rows: seq<Assignment>, p: PersonId): seq<Time.Window> {
    if |rows| == 0 then []
    else
      var a := rows[|rows| - 1];
      PickWindows(shifts, rows[..|rows| - 1], p)
      + (if a.person == p && FindShift(shifts, a.shift).Some? then [FindShift(shifts, a.shift).value.Window()] else [])
  }

  predicate DistinctShiftIds(shifts: seq<Shift>) {
    forall i, j :: 0 <= i < j < |shifts| ==> shifts[i].id != shifts[j].id
  }

  /** `ctx` is `ctx0` with one more duty and one more window `w` per row of
      `added`, for the row's person. */
  ghost predicate TalliesPicks(ctx0: RunContext, ctx: RunContext, added: seq<Assignment>, w: Time.Window) {
    forall p :: DutiesOf(ctx, p) == DutiesOf(ctx0, p) + PickCount(added, p)
                && TimesOf(ctx, p) == TimesOf(ctx0, p) + Repeat(w, PickCount(added, p))
  }

  lemma TalliesNothing(db: Db, ctx: RunContext, w: Time.Window)
    ensures TalliesPicks(ctx, ctx, db.assignments[|db.assignments|..], w)
  {
    assert db.assignments[|db.assignments|..] == [];
    forall p ensures TimesOf(ctx, p) + Repeat(w, 0) == TimesOf(ctx, p) {
    }
  }

  /** Noting one more row `a` with window `w` keeps the tally. */
  lemma TalliesSnoc(ctx0: RunContext, ctx: RunContext, added: seq<Assignment>, a: Assignment, w: Time.Window)
    requires TalliesPicks(ctx0, ctx, added, w)
    ensures TalliesPicks(ctx0, Record(ctx, a.person, w), added + [a], w)
  {
    var ctx' := Record(ctx, a.person, w);
    assert (added + [a])[..|added|] == added;
    forall p
      ensures DutiesOf(ctx', p) == DutiesOf(ctx0, p) + PickCount(added + [a], p)
      ensures TimesOf(ctx', p) == TimesOf(ctx0, p) + Repeat(w, PickCount(added + [a], p))
    {
    }
  }

  /** Assigning `c` to shift `s` and noting it in the context keeps the tally. */
  lemma TalliesPick(db0: Db, db: Db, ctx0: RunContext, ctx: RunContext, c: PersonId, s: Shift)
    requires |db0.assignments| <= |db.assignments|
    requires TalliesPicks(ctx0, ctx, db.assignments[|db0.assignments|..], s.Window())
    ensures |db0.assignments| <= |Assign(db, c, s.id).assignments|
    ensures TalliesPicks(ctx0, Record(ctx, c, s.Window()), Assign(db, c, s.id).assignments[|db0.assignments|..], s.Window())
  {
    var db' := Assign(db, c, s.id);
    var added := db.assignments[|db0.assignments|..];
    var a := db'.assignments[|db.assignments|];
    assert db'.assignments == db.assignments + [a];
    assert db'.assignments[|db0.assignments|..] == added + [a];
    TalliesSnoc(ctx0, ctx, added, a, s.Window());
  }

  lemma {:induction false} PickCountAppend(xs: seq<Assignment>, ys: seq<Assignment>, p: PersonId)
    ensures PickCount(xs + ys, p) == PickCount(xs, p) + PickCount(ys, p)
  {
    if |ys| == 0 {
      assert xs + ys == xs;
    } else {
      var n := |ys| - 1;
      assert (xs + ys)[..|xs + ys| - 1] == xs + ys[..n];
      assert (xs + ys)[|xs + ys| - 1] == ys[n];
      PickCountAppend(xs, ys[..n], p);
    }
  }

  lemma {:induction false} PickWindowsAppend(shifts: seq<Shift>, xs: seq<Assignment>, ys: seq<Assignment>, p: PersonId)
    ensures PickWindows(shifts, xs + ys, p) == PickWindows(shifts, xs, p) + PickWindows(shifts, ys, p)
  {
    if |ys| == 0 {
      assert xs + ys == xs;
    } else {
      var n := |ys| - 1;
      assert (xs + ys)[..|xs + ys| - 1] == xs + ys[..n];
      assert (xs + ys)[|xs + ys| - 1] == ys[n];
      PickWindowsAppend(shifts, xs, ys[..n], p);
    }
  }

  /** Rows all on the shift `t` found for their id get `t`'s window each. */
  lemma {:induction false} PickWindowsUniform(shifts: seq<Shift>, rows: seq<Assignment>, p: PersonId, t: Shift)
    requires FindShift(shifts, t.id) == Some(t)
    requires forall a :: a in rows ==> a.shift == t.id
    ensures PickWindows(shifts, rows, p) == Repeat(t.Window(), PickCount(rows, p))
  {
    if |rows| != 0 {
      var n := |rows| - 1;
      assert forall a :: a in rows[..n] ==> a in rows;
      PickWindowsUniform(shifts, rows[..n], p, t);
    }
  }

  lemma FindListedShift(shifts: seq<Shift>, i: nat)
    requires DistinctShiftIds(shifts)
    requires i < |shifts|
    ensures FindShift(shifts, shifts[i].id) == Some(shifts[i])
  {
    var r := FindShift(shifts, shifts[i].id);
    var j :| 0 <= j < |shifts| && shifts[j] == r.value;
    assert !(i < j) && !(j < i);
  }

  /** The tally of a pass so far, `added0`, followed by the tally of the
      rows `added1` of one shift. */
  lemma DutiesCarryOver(ctx0: RunContext, ctx1: RunContext, ctx2: RunContext, w: Time.Window,
                        added0: seq<Assignment>, added1: seq<Assignment>)
    requires forall p :: DutiesOf(ctx1, p) == DutiesOf(ctx0, p) + PickCount(added0, p)
    requires TalliesPicks(ctx1, ctx2, added1, w)
    ensures forall p :: DutiesOf(ctx2, p) == DutiesOf(ctx0, p) + PickCount(added0 + added1, p)
  {
    forall p ensures DutiesOf(ctx2, p) == DutiesOf(ctx0, p) + PickCount(added0 + added1, p) {
      PickCountAppend(added0, added1, p);
    }
  }

  lemma TimesCarryOver(ctx0: RunContext, ctx1: RunContext, ctx2: RunContext, shifts: seq<Shift>, i: nat,
                       added0: seq<Assignment>, added1: seq<Assignment>)
    requires i < |shifts|
    requires DistinctShiftIds(shifts)
    requires forall p :: TimesOf(ctx1, p) == TimesOf(ctx0, p) + PickWindows(shifts, added0, p)
    requires TalliesPicks(ctx1, ctx2, added1, shifts[i].Window())
    requires forall a :: a in added1 ==> a.shift == shifts[i].id
    ensures forall p :: TimesOf(ctx2, p) == TimesOf(ctx0, p) + PickWindows(shifts, added0 + added1, p)
  {
    FindListedShift(shifts, i);
    forall p ensures TimesOf(ctx2, p) == TimesOf(ctx0, p) + PickWindows(shifts, added0 + added1, p) {
      PickWindowsAppend(shifts, added0, added1, p);
      PickWindowsUniform(shifts, added1, p, shifts[i]);
    }
  }

  /** The new row was inserted for a team leader of its shift's duty type. */
  ghost predicate LedByTeamLeader(db: Db, a: Assignment) {
    && Info(db, a.shift).Some?
    && exists q :: q in db.persons && q.id == a.person && q.IsTeamLeaderFor(Info(db, a.shift).value.task.dutyType)
  }

  /** Pass 1 for one shift: a shift with a team leader or with all slots
      taken is skipped; otherwise at most one team leader is added. */
  method FillTeamLeader(db: Db, ctx: RunContext, scores: map<string, int>, s: Shift)
    returns (db': Db, ctx': RunContext)
    ensures HasTeamLeader(db, s.id) || AssignedCount(db, s.id) >= RequiredOf(db, s.id) ==> db' == db && ctx' == ctx
    ensures Extends(db, db')
    ensures |db'.assignments| <= |db.assignments| + 1
    ensures forall k :: |db.assignments| <= k < |db'.assignments| ==>
              db'.assignments[k].shift == s.id && LedByTeamLeader(db, db'.assignments[k])
    ensures TalliesPicks(ctx, ctx', db'.assignments[|db.assignments|..], s.Window())
  {
    if HasTeamLeader(db, s.id) || AssignedCount(db, s.id) >= RequiredOf(db, s.id) {
      NoPick(db, ctx, s);
      return db, ctx;
    }
    var chosen;
    db', ctx', chosen := Step(db, ctx, scores, s, true, TeamLeaderBand);
    if chosen.Some? {
      TeamLeaderPick(db, ctx, chosen.value, s);
    } else {
      NoPick(db, ctx, s);
    }
  }

  /** Pass 1 leaving shift `s` alone adds no row and notes nothing. */
  lemma NoPick(db: Db, ctx: RunContext, s: Shift)
    ensures Extends(db, db)
    ensures TalliesPicks(ctx, ctx, db.assignments[|db.assignments|..], s.Window())
  {
    ExtendsReflexive(db);
    TalliesNothing(db, ctx, s.Window());
  }

  /** Pass 1 picking team leader `p` for shift `s`. */
  lemma TeamLeaderPick(db: Db, ctx: RunContext, p: PersonId, s: Shift)
    requires Admissible(db, s.id, true, p)
    requires AssignedCount(db, s.id) < RequiredOf(db, s.id)
    ensures Extends(db, Assign(db, p, s.id))
    ensures forall k :: |db.assignments| <= k < |Assign(db, p, s.id).assignments| ==>
              Assign(db, p, s.id).assignments[k].shift == s.id && LedByTeamLeader(db, Assign(db, p, s.id).assignments[k])
    ensures TalliesPicks(ctx, Record(ctx, p, s.Window()), Assign(db, p, s.id).assignments[|db.assignments|..], s.Window())
  {
    TeamLeaderStep(db, p, s.id);
    TalliesNothing(db, ctx, s.Window());
    TalliesPick(db, db, ctx, ctx, p, s);
  }

  lemma TeamLeaderStep(db: Db, p: PersonId, id: ShiftId)
    requires Admissible(db, id, true, p)
    requires AssignedCount(db, id) < RequiredOf(db, id)
    ensures Extends(db, Assign(db, p, id))
    ensures forall k :: |db.assignments| <= k < |Assign(db, p, id).assignments| ==>
              Assign(db, p, id).assignments[k].shift == id && LedByTeamLeader(db, Assign(db, p, id).assignments[k])
  {
    ExtendsReflexive(db);
    AssignExtends(db, db, p, id, true);
  }

  /** Pass 2 for one shift: up to `required - assigned` picks, stopping early
      when no candidate is left or the best score is disqualifying. */
  method FillOpenSlots(db: Db, ctx: RunContext, scores: map<string, int>, s: Shift)
    returns (db': Db, ctx': RunContext)
    ensures Extends(db, db')
    ensures |db'.assignments| - |db.assignments| <= if RequiredOf(db, s.id) > AssignedCount(db, s.id)
                                                     then RequiredOf(db, s.id) - AssignedCount(db, s.id) else 0
    ensures forall k :: |db.assignments| <= k < |db'.assignments| ==> db'.assignments[k].shift == s.id
    ensures TalliesPicks(ctx, ctx', db'.assignments[|db.assignments|..], s.Window())
  {
    db', ctx' := db, ctx;
    ExtendsReflexive(db);
    TalliesNothing(db, ctx, s.Window());
    var numOpen := RequiredOf(db, s.id) - AssignedCount(db, s.id);
    if numOpen <= 0 {
      return;
    }
    var k := 0;
    while k < numOpen
      invariant 0 <= k <= numOpen
      invariant Extends(db, db')
      invariant |db'.assignments| == |db.assignments| + k
      invariant AssignedCount(db', s.id) == AssignedCount(db, s.id) + k
      invariant forall j :: |db.assignments| <= j < |db'.assignments| ==> db'.assignments[j].shift == s.id
      invariant TalliesPicks(ctx, ctx', db'.assignments[|db.assignments|..], s.Window())
    {
      var db2, ctx2, chosen := Step(db', ctx', scores, s, false, FillBand);
      if chosen.None? {
        break;
      }
      OpenSlotStep(db, db', ctx, ctx', chosen.value, s, k);
      db', ctx' := db2, ctx2;
      k := k + 1;
    }
  }

  /** One pass-2 pick keeps every loop invariant of `FillOpenSlots`. */
  lemma OpenSlotStep(db0: Db, db: Db, ctx0: RunContext, ctx: RunContext, p: PersonId, s: Shift, k: nat)
    requires Extends(db0, db)
    requires Admissible(db, s.id, false, p)
    requires |db.assignments| == |db0.assignments| + k
    requires AssignedCount(db, s.id) == AssignedCount(db0, s.id) + k
    requires k < RequiredOf(db0, s.id) - AssignedCount(db0, s.id)
    requires forall j :: |db0.assignments| <= j < |db.assignments| ==> db.assignments[j].shift == s.id
    requires TalliesPicks(ctx0, ctx, db.assignments[|db0.assignments|..], s.Window())
    ensures var db' := Assign(db, p, s.id);
            && Extends(db0, db')
            && |db'.assignments| == |db0.assignments| + k + 1
            && AssignedCount(db', s.id) == AssignedCount(db0, s.id) + k + 1
            && (forall j :: |db0.assignments| <= j < |db'.assignments| ==> db'.assignments[j].shift == s.id)
            && TalliesPicks(ctx0, Record(ctx, p, s.Window()), db'.assignments[|db0.assignments|..], s.Window())
  {
    FillStep(db0, db, p, s.id, k);
    TalliesPick(db0, db, ctx0, ctx, p, s);
    AssignKeepsShift(|db0.assignments|, db, p, s.id);
  }

  lemma AssignKeepsShift(n0: nat, db: Db, p: PersonId, id: ShiftId)
    requires forall j :: n0 <= j < |db.assignments| ==> db.assignments[j].shift == id
    ensures forall j :: n0 <= j < |Assign(db, p, id).assignments| ==> Assign(db, p, id).assignments[j].shift == id
  {
    var db' := Assign(db, p, id);
    assert forall j :: 0 <= j < |db.assignments| ==> db'.assignments[j] == db.assignments[j];
  }

  /** Row `a` is on one of the first `n` shifts of `shifts`. */
  predicate OnListedShift(a: Assignment, shifts: seq<Shift>, n: nat) {
    exists j :: 0 <= j < n && j < |shifts| && shifts[j].id == a.shift
  }

  /** Pass 1 over the shifts of the event, in order. */
  method TeamLeaderPass(db: Db, ctx: RunContext, scores: map<string, int>, shifts: seq<Shift>)
    returns (db': Db, ctx': RunContext)
    ensures Extends(db, db')
    ensures forall k :: |db.assignments| <= k < |db'.assignments| ==>
              LedByTeamLeader(db, db'.assignments[k]) && OnListedShift(db'.assignments[k], shifts, |shifts|)
    ensures forall p :: DutiesOf(ctx', p) == DutiesOf(ctx, p) + PickCount(db'.assignments[|db.assignments|..], p)
    ensures DistinctShiftIds(shifts) ==>
              forall p :: TimesOf(ctx', p) == TimesOf(ctx, p) + PickWindows(shifts, db'.assignments[|db.assignments|..], p)
  {
    db', ctx' := db, ctx;
    ExtendsReflexive(db);
    TalliesNothing(db, ctx, Time.Window(0, 0));
    for i := 0 to |shifts|
      invariant Extends(db, db')
      invariant forall k :: |db.assignments| <= k < |db'.assignments| ==>
                  LedByTeamLeader(db, db'.assignments[k]) && OnListedShift(db'.assignments[k], shifts, i)
      invariant forall p :: DutiesOf(ctx', p) == DutiesOf(ctx, p) + PickCount(db'.assignments[|db.assignments|..], p)
      invariant DistinctShiftIds(shifts) ==>
                  forall p :: TimesOf(ctx', p) == TimesOf(ctx, p) + PickWindows(shifts, db'.assignments[|db.assignments|..], p)
    {
      var db2, ctx2 := FillTeamLeader(db', ctx', scores, shifts[i]);
      TeamLeaderRowsCarryOver(db, db', db2, shifts, i);
      PassTallyStep(db, db', db2, ctx, ctx', ctx2, shifts, i);
      db', ctx' := db2, ctx2;
    }
  }

  /** The rows added since position `n0` are those added before `xs` ended
      followed by those added after. */
  lemma SuffixSplits(xs: seq<Assignment>, ys: seq<Assignment>, n0: nat, id: ShiftId)
    requires n0 <= |xs| <= |ys|
    requires ys[..|xs|] == xs
    requires forall k :: |xs| <= k < |ys| ==> ys[k].shift == id
    ensures ys[n0..] == xs[n0..] + ys[|xs|..]
    ensures forall a :: a in ys[|xs|..] ==> a.shift == id
  {
    assert ys == xs + ys[|xs|..];
  }

  /** One shift of a pass: the rows it adds continue the pass's tally. */
  lemma PassTallyStep(db: Db, db1: Db, db2: Db, ctx: RunContext, ctx1: RunContext, ctx2: RunContext,
                      shifts: seq<Shift>, i: nat)
    requires i < |shifts|
    requires |db.assignments| <= |db1.assignments| <= |db2.assignments|
    requires db2.assignments[..|db1.assignments|] == db1.assignments
    requires forall p :: DutiesOf(ctx1, p) == DutiesOf(ctx, p) + PickCount(db1.assignments[|db.assignments|..], p)
    requires DistinctShiftIds(shifts) ==>
               forall p :: TimesOf(ctx1, p) == TimesOf(ctx, p) + PickWindows(shifts, db1.assignments[|db.assignments|..], p)
    requires TalliesPicks(ctx1, ctx2, db2.assignments[|db1.assignments|..], shifts[i].Window())
    requires forall k :: |db1.assignments| <= k < |db2.assignments| ==> db2.assignments[k].shift == shifts[i].id
    ensures forall p :: DutiesOf(ctx2, p) == DutiesOf(ctx, p) + PickCount(db2.assignments[|db.assignments|..], p)
    ensures DistinctShiftIds(shifts) ==>
              forall p :: TimesOf(ctx2, p) == TimesOf(ctx, p) + PickWindows(shifts, db2.assignments[|db.assignments|..], p)
  {
    var added0 := db1.assignments[|db.assignments|..];
    var added1 := db2.assignments[|db1.assignments|..];
    SuffixSplits(db1.assignments, db2.assignments, |db.assignments|, shifts[i].id);
    DutiesCarryOver(ctx, ctx1, ctx2, shifts[i].Window(), added0, added1);
    if DistinctShiftIds(shifts) {
      TimesCarryOver(ctx, ctx1, ctx2, shifts, i, added0, added1);
    }
  }

  lemma TeamLeaderRowsCarryOver(db: Db, db1: Db, db2: Db, shifts: seq<Shift>, i: nat)
    requires i < |shifts|
    requires Extends(db, db1) && Extends(db1, db2)
    requires forall k :: |db.assignments| <= k < |db1.assignments| ==>
               LedByTeamLeader(db, db1.assignments[k]) && OnListedShift(db1.assignments[k], shifts, i)
    requires forall k :: |db1.assignments| <= k < |db2.assignments| ==>
               db2.assignments[k].shift == shifts[i].id && LedByTeamLeader(db1, db2.assignments[k])
    ensures Extends(db, db2)
    ensures forall k :: |db.assignments| <= k < |db2.assignments| ==>
              LedByTeamLeader(db, db2.assignments[k]) && OnListedShift(db2.assignments[k], shifts, i + 1)
  {
    ExtendsTransitive(db, db1, db2);
    assert forall x: ShiftId :: Info(db1, x) == Info(db, x);
    forall k | |db.assignments| <= k < |db2.assignments|
      ensures LedByTeamLeader(db, db2.assignments[k]) && OnListedShift(db2.assignments[k], shifts, i + 1)
    {
      if k < |db1.assignments| {
        assert db2.assignments[k] == db1.assignments[k];
      }
    }
  }

  /** Pass 2 over the shifts of the event, in order. */
  method OpenSlotsPass(db: Db, ctx: RunContext, scores: map<string, int>, shifts: seq<Shift>)
    returns (db': Db, ctx': RunContext)
    ensures Extends(db, db')
    ensures forall k :: |db.assignments| <= k < |db'.assignments| ==> OnListedShift(db'.assignments[k], shifts, |shifts|)
    ensures forall p :: DutiesOf(ctx', p) == DutiesOf(ctx, p) + PickCount(db'.assignments[|db.assignments|..], p)
    ensures DistinctShiftIds(shifts) ==>
              forall p :: TimesOf(ctx', p) == TimesOf(ctx, p) + PickWindows(shifts, db'.assignments[|db.assignments|..], p)
  {
    db', ctx' := db, ctx;
    ExtendsReflexive(db);
    TalliesNothing(db, ctx, Time.Window(0, 0));
    for i := 0 to |shifts|
      invariant Extends(db, db')
      invariant forall k :: |db.assignments| <= k < |db'.assignments| ==> OnListedShift(db'.assignments[k], shifts, i)
      invariant forall p :: DutiesOf(ctx', p) == DutiesOf(ctx, p) + PickCount(db'.assignments[|db.assignments|..], p)
      invariant DistinctShiftIds(shifts) ==>
                  forall p :: TimesOf(ctx', p) == TimesOf(ctx, p) + PickWindows(shifts, db'.assignments[|db.assignments|..], p)
    {
      var db2, ctx2 := FillOpenSlots(db', ctx', scores, shifts[i]);
      ExtendsTransitive(db, db', db2);
      PassTallyStep(db, db', db2, ctx, ctx', ctx2, shifts, i);
      forall k | |db.assignments| <= k < |db2.assignments|
        ensures OnListedShift(db2.assignments[k], shifts, i + 1)
      {
        if k < |db'.assignments| {
          assert db2.assignments[k] == db'.assignments[k];
        }
      }
      db', ctx' := db2, ctx2;
    }
  }

  /** Sum of `required_people` over `shifts`. */
  function SumRequired(shifts: seq<Shift>): int {
    if |shifts| == 0 then 0 else shifts[0].required + SumRequired(shifts[1..])
  }

  /** `get_event_staffing_summary(event_id)`: the required total over the
      event's shifts and the number of the event's assignment rows. */
  function StaffingSummary(db: Db, e: EventId): (r: (int, nat)) {
    (SumRequired(EventShiftRows(db, e)), |EventAssignments(db, e)|)
  }

  /** Shift ids are the key of the shift table. */
  predicate ShiftKeysUnique(db: Db) {
    forall s, t :: s in db.shifts && t in db.shifts && s.id == t.id ==> s == t
  }

  /** Clearing the event keeps its required total and drops its staffed
      count to zero. */
  lemma ClearResetsStaffing(db: Db, e: EventId)
    ensures StaffingSummary(ClearAssignments(db, e), e) == (StaffingSummary(db, e).0, 0)
  {
    var c := ClearAssignments(db, e);
    FilterCongruent(db.shifts, (s: Shift) => s.task in c.tasks && c.tasks[s.task].event == e,
                               (s: Shift) => s.task in db.tasks && db.tasks[s.task].event == e);
    assert forall x: ShiftId :: Info(c, x) == Info(db, x);
    FilterDropsAll(c.assignments, (a: Assignment) => InEvent(c, e, a));
  }

  /** Rows on a shift of the event's shift list belong to the event. */
  lemma ListedRowInEvent(db: Db, e: EventId, a: Assignment)
    requires ShiftKeysUnique(db)
    requires OnListedShift(a, EventShifts(db, e), |EventShifts(db, e)|)
    ensures InEvent(db, e, a)
  {
    var shifts := EventShifts(db, e);
    var j :| 0 <= j < |shifts| && shifts[j].id == a.shift;
    assert shifts[j] in shifts;
    var t := FindShift(db.shifts, a.shift).value;
  }

  /** A run that only adds rows on the event's shifts leaves the required
      total alone and raises the staffed count by the number of added rows. */
  lemma ProposalStaffing(db: Db, db': Db, e: EventId)
    requires Extends(db, db')
    requires forall k :: |db.assignments| <= k < |db'.assignments| ==>
               OnListedShift(db'.assignments[k], EventShifts(db, e), |EventShifts(db, e)|)
    requires ShiftKeysUnique(db)
    ensures StaffingSummary(db', e).0 == StaffingSummary(db, e).0
    ensures StaffingSummary(db', e).1 == StaffingSummary(db, e).1 + (|db'.assignments| - |db.assignments|)
  {
    var added := db'.assignments[|db.assignments|..];
    assert db'.assignments == db.assignments + added;
    assert forall k :: 0 <= k < |added| ==> added[k] == db'.assignments[|db.assignments| + k];
    AddedRowsInEvent(db, e, added);
    SameTablesStaffing(db, db', e, added);
  }

  lemma AddedRowsInEvent(db: Db, e: EventId, added: seq<Assignment>)
    requires ShiftKeysUnique(db)
    requires forall k :: 0 <= k < |added| ==> OnListedShift(added[k], EventShifts(db, e), |EventShifts(db, e)|)
    ensures forall a :: a in added ==> InEvent(db, e, a)
  {
    forall a | a in added
      ensures InEvent(db, e, a)
    {
      var k :| 0 <= k < |added| && added[k] == a;
      ListedRowInEvent(db, e, a);
    }
  }

  /** Appending rows of event `e` to the assignment table adds them to the
      event's rows; the shift rows stay as they are. */
  lemma SameTablesStaffing(db: Db, db': Db, e: EventId, added: seq<Assignment>)
    requires db' == db.(assignments := db.assignments + added)
    requires forall a :: a in added ==> InEvent(db, e, a)
    ensures EventShiftRows(db', e) == EventShiftRows(db, e)
    ensures EventAssignments(db', e) == EventAssignments(db, e) + added
  {
    FilterCongruent(db.shifts, (s: Shift) => s.task in db'.tasks && db'.tasks[s.task].event == e,
                               (s: Shift) => s.task in db.tasks && db.tasks[s.task].event == e);
    assert forall x: ShiftId :: Info(db', x) == Info(db, x);
    var keep' := (a: Assignment) => InEvent(db', e, a);
    FilterAppend(db.assignments, added, keep');
    FilterCongruent(db.assignments, keep', (a: Assignment) => InEvent(db, e, a));
    FilterKeepsAll(added, keep');
  }

  /** `generate_planning_proposal(event_id, limit)`: runs both passes with the
      historical scores of all persons and returns the assigned and the required totals. */
  method GenerateProposal(db: Db, e: EventId, limit: Option<int>) returns (db': Db, staffed: nat, required: int)
    ensures Extends(db, db')
    ensures forall k :: |db.assignments| <= k < |db'.assignments| ==> OnListedShift(db'.assignments[k], EventShifts(db, e), |EventShifts(db, e)|)
    ensures (required, staffed) == StaffingSummary(db', e)
    ensures required == SumRequired(EventShiftRows(db, e))
    ensures ShiftKeysUnique(db) ==> staffed == |EventAssignments(db, e)| + (|db'.assignments| - |db.assignments|)
  {
    var scores := ScoreMap(CalculateScores(db.persons, HistoryLog(db), true, limit));
    var shifts := EventShifts(db, e);
    var db1, ctx1 := TeamLeaderPass(db, EmptyContext(), scores, shifts);
    var ctx2;
    db', ctx2 := OpenSlotsPass(db1, ctx1, scores, shifts);
    ExtendsTransitive(db, db1, db');
    forall k | |db.assignments| <= k < |db'.assignments|
      ensures OnListedShift(db'.assignments[k], shifts, |shifts|)
    {
      if k < |db1.assignments| {
        assert db'.assignments[k] == db1.assignments[k];
      }
    }
    if ShiftKeysUnique(db) {
      ProposalStaffing(db, db', e);
    }
    required, staffed := StaffingSummary(db', e).0, StaffingSummary(db', e).1;
  }

  /** `clear_assignments_for_event(event_id)`: deletes the assignments of the
      event's shifts and nothing else. */
  function ClearAssignments(db: Db, e: EventId): (r: Db)
    ensures r.(assignments := db.assignments) == db
    ensures forall a :: a in r.assignments <==> a in db.assignments && !InEvent(db, e, a)
  {
    db.(assignments := Filter(db.assignments, (a: Assignment) => !InEvent(db, e, a)))
  }

  /** After clearing, no shift of the event has anybody assigned. */
  lemma ClearedShiftIsEmpty(db: Db, e: EventId, id: ShiftId)
    requires Info(db, id).Some? && Info(db, id).value.task.event == e
    ensures AssignedCount(ClearAssignments(db, e), id) == 0
  {
    var c := ClearAssignments(db, e);
    assert Info(c, id) == Info(db, id);
    var d := Info(db, id).value.task.dutyType;
    assert AssignedPersons(c, id) == AssignedOf(c.persons, c.assignments, id, d);
    NoRowsNoneAssigned(c.persons, c.assignments, id, d);
  }

  lemma {:induction false} NoRowsNoneAssigned(persons: seq<Person>, rows: seq<Assignment>, id: ShiftId, d: DutyTypeId)
    requires forall a :: a in rows ==> a.shift != id
    ensures AssignedOf(persons, rows, id, d) == []
  {
    if |rows| != 0 {
      NoRowsNoneAssigned(persons, rows[..|rows| - 1], id, d);
    }
  }

  /** Clearing an event and then running the proposal on it leaves every
      shift of the event at most at its required count (or empty) and no
      person double-booked in the event. */
  lemma ClearThenProposeWithinRequired(db: Db, e: EventId, db': Db, id: ShiftId)
    requires Extends(ClearAssignments(db, e), db')
    requires Info(db, id).Some? && Info(db, id).value.task.event == e
    ensures AssignedCount(db', id) <= if RequiredOf(db, id) > 0 then RequiredOf(db, id) else 0
    ensures NoDoubleBooking(db', e)
  {
    var c := ClearAssignments(db, e);
    ClearedShiftIsEmpty(db, e, id);
    assert RequiredOf(c, id) == RequiredOf(db, id);
    assert forall x: ShiftId :: Info(c, x) == Info(db, x);
    assert NoDoubleBooking(c, e);
  }
}

=== FILE: ranking.dfy ===
/**
 The candidate score `calculate_candidate_score` used by the proposal
 generator, and the run context it reads: the duties and shift windows that
 the current proposal run has handed out so far.
 */
module Ranking {
  import opened Time
  import opened Records
  import opened Eligibility

  /** The near-exclusion penalty for a third duty and for each back-to-back shift. */
  const HeavyPenalty: int := 10000
  const PerDutyPenalty: int := 25
  const ActiveBonus: int := 5
  const CompetenceBonus: int := 3
  const TeamLeaderWaste: int := 500
  /** A best score below this means nobody is assigned. */
  const DisqualifiedBelow: int := -5000

  /** The proposal run context: per person, how many duties and which shift
      windows this run has assigned (the `defaultdict`s of the source). */
  datatype RunContext = RunContext(duties: map<PersonId, nat>, times: map<PersonId, seq<Time.Window>>)

  function EmptyContext(): RunContext {
    RunContext(map[], map[])
  }

  function DutiesOf(ctx: RunContext, p: PersonId): nat {
    if p in ctx.duties then ctx.duties[p] else 0
  }

  function TimesOf(ctx: RunContext, p: PersonId): seq<Time.Window> {
    if p in ctx.times then ctx.times[p] else []
  }

  /** Notes that person `p` got a shift with window `w`. */
  function Record(ctx: RunContext, p: PersonId, w: Time.Window): (r: RunContext)
    ensures DutiesOf(r, p) == DutiesOf(ctx, p) + 1
    ensures TimesOf(r, p) == TimesOf(ctx, p) + [w]
    ensures forall q :: q != p ==> DutiesOf(r, q) == DutiesOf(ctx, q) && TimesOf(r, q) == TimesOf(ctx, q)
  {
    RunContext(ctx.duties[p := DutiesOf(ctx, p) + 1], ctx.times[p := TimesOf(ctx, p) + [w]])
  }

  /** `score_map.get(display_name, 0)`. */
  function Historical(scores: map<string, int>, name: string): int {
    if name in scores then scores[name] else 0
  }

  /** How many windows of `prev` are back-to-back with `w`. */
  function BackToBackCount(prev: seq<Time.Window>, w: Time.Window): (n: nat)
    ensures n <= |prev|
    ensures n == 0 <==> forall i :: 0 <= i < |prev| ==> !Touches(w, prev[i])
  {
    if |prev| == 0 then 0
    else
      var rest := BackToBackCount(prev[1..], w);
      assert forall i :: 1 <= i < |prev| ==> prev[i] == prev[1..][i - 1];
      (if Touches(w, prev[0]) then 1 else 0) + rest
  }

  /** `calculate_candidate_score(candidate, current_start, current_end, is_tl_search)`. */
  function CandidateScore(c: Candidate, scores: map<string, int>, ctx: RunContext, w: Time.Window, tlSearch: bool): int {
    var base := Historical(scores, c.name) * -1 * 10;
    var duties := DutiesOf(ctx, c.person);
    var fairness := duties * PerDutyPenalty + (if duties >= 2 then HeavyPenalty else 0);
    var consecutive := HeavyPenalty * BackToBackCount(TimesOf(ctx, c.person), w);
    var status := if c.status == Active then ActiveBonus else 0;
    var competence := if !tlSearch && c.hasCompetence then CompetenceBonus else 0;
    var waste := if !tlSearch && c.isTeamLeader then TeamLeaderWaste else 0;
    base - fairness - consecutive + status + competence - waste
  }

  /** Everything else equal, a lower historical score gives a candidate
      score at least 10 points higher. */
  lemma LowerHistoryRanksHigher(c: Candidate, s1: map<string, int>, s2: map<string, int>, ctx: RunContext, w: Time.Window, tl: bool)
    requires Historical(s1, c.name) < Historical(s2, c.name)
    ensures CandidateScore(c, s1, ctx, w, tl) >= CandidateScore(c, s2, ctx, w, tl) + 10
  {
  }

  /** Everything else equal, one more duty in this run lowers the score. */
  lemma MoreDutiesRankLower(c: Candidate, scores: map<string, int>, ctx: RunContext, w: Time.Window, tl: bool, p: PersonId, w': Time.Window)
    requires p == c.person
    requires !Touches(w, w')
    ensures CandidateScore(c, scores, Record(ctx, p, w'), w, tl) <= CandidateScore(c, scores, ctx, w, tl) - PerDutyPenalty
  {
    var ctx' := Record(ctx, p, w');
    BackToBackSnoc(TimesOf(ctx, p), w', w);
  }

  /** Whatever window is noted for the candidate, their next score drops by
      at least the per-duty penalty: by 25, by 10025 when it is their second
      duty of the run, and by 10000 more if the noted window touches the shift. */
  lemma RecordLowersScore(c: Candidate, scores: map<string, int>, ctx: RunContext, w: Time.Window, tl: bool, w': Time.Window)
    ensures var before := CandidateScore(c, scores, ctx, w, tl);
            var after := CandidateScore(c, scores, Record(ctx, c.person, w'), w, tl);
            && after <= before - PerDutyPenalty
            && (DutiesOf(ctx, c.person) == 1 ==> after <= before - PerDutyPenalty - HeavyPenalty)
            && (Touches(w, w') ==> after <= before - PerDutyPenalty - HeavyPenalty)
  {
    BackToBackSnoc(TimesOf(ctx, c.person), w', w);
  }

  /** A pick of somebody else leaves the candidate's score unchanged. */
  lemma OtherPicksIrrelevant(c: Candidate, scores: map<string, int>, ctx: RunContext, w: Time.Window, tl: bool,
                             q: PersonId, w': Time.Window)
    ensures q != c.person ==> CandidateScore(c, scores, Record(ctx, q, w'), w, tl) == CandidateScore(c, scores, ctx, w, tl)
  {
  }

  /** With nothing picked yet in the run, only the history and the flags
      count: ten points per history point, +5 for an active person, +3 for
      competence and -500 for a team leader outside the team-leader search. */
  lemma FreshRunScore(c: Candidate, scores: map<string, int>, w: Time.Window)
    ensures CandidateScore(c, scores, EmptyContext(), w, true)
            == -10 * Historical(scores, c.name) + (if c.status == Active then ActiveBonus else 0)
    ensures CandidateScore(c, scores, EmptyContext(), w, false)
            == CandidateScore(c, scores, EmptyContext(), w, true)
               + (if c.hasCompetence then CompetenceBonus else 0) - (if c.isTeamLeader then TeamLeaderWaste else 0)
  {
  }

  lemma {:induction false} BackToBackSnoc(prev: seq<Time.Window>, x: Time.Window, w: Time.Window)
    ensures BackToBackCount(prev + [x], w) == BackToBackCount(prev, w) + (if Touches(w, x) then 1 else 0)
  {
    if |prev| == 0 {
      assert prev + [x] == [x];
    } else {
      assert (prev + [x])[1..] == prev[1..] + [x];
      BackToBackSnoc(prev[1..], x, w);
    }
  }

  /** The score never exceeds the fairness base plus the largest bonus. */
  lemma ScoreUpperBound(c: Candidate, scores: map<string, int>, ctx: RunContext, w: Time.Window, tl: bool)
    ensures CandidateScore(c, scores, ctx, w, tl)
            <= -10 * Historical(scores, c.name) - PerDutyPenalty * DutiesOf(ctx, c.person) + ActiveBonus + CompetenceBonus
  {
  }

  /** For historical scores in [-499, 447] the threshold of -5000 separates
      exactly: a candidate is disqualified iff they already hold two duties of
      this run or would work back-to-back with one of them. */
  lemma DisqualifiedIffHeavyPenalty(c: Candidate, scores: map<string, int>, ctx: RunContext, w: Time.Window, tl: bool)
    requires -499 <= Historical(scores, c.name) <= 447
    ensures CandidateScore(c, scores, ctx, w, tl) < DisqualifiedBelow
            <==> DutiesOf(ctx, c.person) >= 2 || BackToBackCount(TimesOf(ctx, c.person), w) > 0
  {
    var duties := DutiesOf(ctx, c.person);
    var b := BackToBackCount(TimesOf(ctx, c.person), w);
    if duties >= 2 || b > 0 {
      assert HeavyPenalty * b >= 0;
      if b > 0 {
        assert HeavyPenalty * b >= HeavyPenalty;
      }
    } else {
      assert b == 0 && duties <= 1;
    }
  }

  /** When no team leader is sought, a team leader scores exactly 500 less than
      the same person without the team-leader flag; when one is sought, the
      competence and team-leader flags do not matter. */
  lemma TeamLeaderWastePenalty(c: Candidate, scores: map<string, int>, ctx: RunContext, w: Time.Window)
    ensures CandidateScore(c.(isTeamLeader := true), scores, ctx, w, false)
            == CandidateScore(c.(isTeamLeader := false), scores, ctx, w, false) - TeamLeaderWaste
    ensures CandidateScore(c.(isTeamLeader := true, hasCompetence := true), scores, ctx, w, true)
            == CandidateScore(c.(isTeamLeader := false, hasCompetence := false), scores, ctx, w, true)
  {
  }
}

=== FILE: records.dfy ===
/**
 The planning data: persons, tasks, shifts and assignments of the relational
 store, held as in-memory tables, with the joins the planning logic performs.

 Row ids are SQLite AUTOINCREMENT primary keys and therefore start at 1. A
 lookup by id returns the first row carrying that id, which is the row.
 */
module Records {
  import opened Time
  import opened Seqs
  import opened Sorting

  type RowId = x: int | 1 <= x witness 1
  type PersonId = RowId
  type DutyTypeId = RowId
  type EventId = RowId
  type TaskId = RowId
  type ShiftId = RowId
  type AssignmentId = RowId

  datatype Option<T> = None | Some(value: T)

  /** 'Aktiv', 'Passiv', 'Ruht', 'Austritt'. */
  datatype PersonStatus = Active | Passive | Resting | Exited

  /** 'Geplant', 'Erledigt', 'Erledigt (durch Vertreter)', 'Nicht Erschienen',
      'Entschuldigt'. */
  datatype Attendance = Planned | Done | DoneBySubstitute | NoShow | Excused

  /** A member. `competencies` maps a duty type to its team-leader flag. */
  datatype Person = Person(
    id: PersonId,
    name: string,
    status: PersonStatus,
    restrictions: set<DutyTypeId>,
    competencies: map<DutyTypeId, bool>)
  {
    /** Only active and passive members are planned or ranked. */
    predicate Plannable() {
      status == Active || status == Passive
    }

    predicate HasCompetence(d: DutyTypeId) {
      d in competencies
    }

    predicate IsTeamLeaderFor(d: DutyTypeId) {
      d in competencies && competencies[d]
    }
  }

  datatype Task = Task(event: EventId, dutyType: DutyTypeId, name: string)

  /** A shift on calendar day `date` (a day number). */
  datatype Shift = Shift(id: ShiftId, task: TaskId, date: int, start: ClockTime, end: ClockTime, required: int) {
    function Window(): (w: Time.Window)
      ensures Proper(w)
    {
      ShiftWindow(date, start, end)
    }
  }

  datatype Assignment = Assignment(
    id: AssignmentId,
    shift: ShiftId,
    person: PersonId,
    substitute: Option<PersonId>,
    status: Attendance)

  /** The store. `events` maps an event to its start day. */
  datatype Db = Db(
    persons: seq<Person>,
    dutyTypes: set<DutyTypeId>,
    events: map<EventId, int>,
    tasks: map<TaskId, Task>,
    shifts: seq<Shift>,
    assignments: seq<Assignment>)

  /** The joined view of a shift with its task (SQL `shifts JOIN tasks`). */
  datatype ShiftInfo = ShiftInfo(shift: Shift, task: Task)

  function FindPerson(persons: seq<Person>, id: PersonId): (r: Option<Person>)
    ensures r.Some? ==> r.value in persons && r.value.id == id
    ensures r.None? <==> forall p :: p in persons ==> p.id != id
  {
    if |persons| == 0 then None
    else if persons[0].id == id then Some(persons[0])
    else FindPerson(persons[1..], id)
  }

  function FindShift(shifts: seq<Shift>, id: ShiftId): (r: Option<Shift>)
    ensures r.Some? ==> r.value in shifts && r.value.id == id
    ensures r.None? <==> forall s :: s in shifts ==> s.id != id
  {
    if |shifts| == 0 then None
    else if shifts[0].id == id then Some(shifts[0])
    else FindShift(shifts[1..], id)
  }

  /** A shift together with its task; `None` when either row is missing. */
  function Info(db: Db, id: ShiftId): (r: Option<ShiftInfo>)
    ensures r.Some? <==> FindShift(db.shifts, id).Some? && FindShift(db.shifts, id).value.task in db.tasks
    ensures r.Some? ==> r.value.shift.id == id && r.value.shift in db.shifts
                        && r.value.shift.task in db.tasks && r.value.task == db.tasks[r.value.shift.task]
  {
    match FindShift(db.shifts, id)
    case None => None
    case Some(s) => if s.task in db.tasks then Some(ShiftInfo(s, db.tasks[s.task])) else None
  }

  /** Does assignment `a` belong to a shift of event `e`? */
  predicate InEvent(db: Db, e: EventId, a: Assignment) {
    Info(db, a.shift).Some? && Info(db, a.shift).value.task.event == e
  }

  /** The window of the shift an assignment refers to. */
  function AssignmentWindow(db: Db, a: Assignment): Time.Window
    requires Info(db, a.shift).Some?
  {
    Info(db, a.shift).value.shift.Window()
  }

  /** Assignments of event `e` (`assignments JOIN shifts JOIN tasks WHERE
      event_id = e`), in table order. */
  function EventAssignments(db: Db, e: EventId): (r: seq<Assignment>)
    ensures forall a :: a in r <==> a in db.assignments && InEvent(db, e, a)
  {
    Filter(db.assignments, (a: Assignment) => InEvent(db, e, a))
  }

  /** Shifts of event `e` in table order. */
  function EventShiftRows(db: Db, e: EventId): (r: seq<Shift>)
    ensures forall s :: s in r <==> s in db.shifts && s.task in db.tasks && db.tasks[s.task].event == e
  {
    Filter(db.shifts, (s: Shift) => s.task in db.tasks && db.tasks[s.task].event == e)
  }

  /** `ORDER BY s.shift_date, s.start_time`. */
  predicate EarlierShift(a: Shift, b: Shift) {
    a.date < b.date || (a.date == b.date && a.start.Minutes() <= b.start.Minutes())
  }

  /** The shifts of event `e` in date and start-time order. */
  function EventShifts(db: Db, e: EventId): (r: seq<Shift>)
    ensures SortedBy(r, EarlierShift)
    ensures forall s :: s in r <==> s in db.shifts && s.task in db.tasks && db.tasks[s.task].event == e
    ensures multiset(r) == multiset(EventShiftRows(db, e))
  {
    assert TotalPreorder(EarlierShift);
    Sort(EventShiftRows(db, e), EarlierShift)
  }

  /** `COUNT(*) FROM assignments WHERE shift_id = id`. */
  function RawCount(db: Db, id: ShiftId): nat {
    |Filter(db.assignments, (a: Assignment) => a.shift == id)|
  }

  /** One row of `get_assigned_persons_for_shift`: a person on the shift and
      whether they lead the shift's duty type. */
  datatype Assigned = Assigned(person: PersonId, isTeamLeader: bool)

  predicate PersonExists(db: Db, id: PersonId) {
    FindPerson(db.persons, id).Some?
  }

  /** Whether person `id` holds a team-leader competency for duty type `d`
      (`COALESCE(pc.is_team_leader, 0)`). */
  predicate LeadsDuty(persons: seq<Person>, id: PersonId, d: DutyTypeId) {
    match FindPerson(persons, id)
    case None => false
    case Some(p) => p.IsTeamLeaderFor(d)
  }

  /** The rows of `rows` on shift `id` whose person exists, as `Assigned`
      entries for duty type `d`. */
  function AssignedOf(persons: seq<Person>, rows: seq<Assignment>, id: ShiftId, d: DutyTypeId): (r: seq<Assigned>)
    ensures |r| <= |rows|
    ensures forall x :: x in r ==> exists a :: a in rows && a.shift == id && FindPerson(persons, a.person).Some?
                                              && x == Assigned(a.person, LeadsDuty(persons, a.person, d))
  {
    if |rows| == 0 then []
    else
      var a := rows[|rows| - 1];
      var init := AssignedOf(persons, rows[..|rows| - 1], id, d);
      assert forall b :: b in rows[..|rows| - 1] ==> b in rows;
      if a.shift == id && FindPerson(persons, a.person).Some? then init + [Assigned(a.person, LeadsDuty(persons, a.person, d))]
      else init
  }

  /** Every row of `rows` on shift `id` whose person exists has its entry. */
  lemma {:induction false} AssignedOfComplete(persons: seq<Person>, rows: seq<Assignment>, id: ShiftId, d: DutyTypeId, a: Assignment)
    requires a in rows && a.shift == id && FindPerson(persons, a.person).Some?
    ensures Assigned(a.person, LeadsDuty(persons, a.person, d)) in AssignedOf(persons, rows, id, d)
  {
    var n := |rows| - 1;
    if rows[n] != a {
      assert a in rows[..n] by {
        var k :| 0 <= k < |rows| && rows[k] == a;
        assert rows[..n][k] == a;
      }
      AssignedOfComplete(persons, rows[..n], id, d, a);
    }
  }

  /** `get_assigned_persons_for_shift(id)`: the assignments of shift `id`
      joined with their person, shift and task rows (inner joins). */
  function AssignedPersons(db: Db, id: ShiftId): (r: seq<Assigned>)
    ensures Info(db, id).None? ==> r == []
    ensures Info(db, id).Some? ==>
              forall x :: x in r ==> exists a :: a in db.assignments && a.shift == id && PersonExists(db, a.person)
                                                 && x == Assigned(a.person, LeadsDuty(db.persons, a.person, Info(db, id).value.task.dutyType))
  {
    match Info(db, id)
    case None => []
    case Some(info) => AssignedOf(db.persons, db.assignments, id, info.task.dutyType)
  }

  /** Each assignment of a resolving shift whose person exists is listed,
      with the person's team-leader flag for the shift's duty type. */
  lemma AssignedPersonsComplete(db: Db, id: ShiftId, a: Assignment)
    requires Info(db, id).Some?
    requires a in db.assignments && a.shift == id && PersonExists(db, a.person)
    ensures Assigned(a.person, LeadsDuty(db.persons, a.person, Info(db, id).value.task.dutyType)) in AssignedPersons(db, id)
  {
    AssignedOfComplete(db.persons, db.assignments, id, Info(db, id).value.task.dutyType, a);
  }

  /** `len(get_assigned_persons_for_shift(id))`. */
  function AssignedCount(db: Db, id: ShiftId): nat {
    |AssignedPersons(db, id)|
  }

  /** Some assigned person leads the shift's duty type. */
  predicate HasTeamLeader(db: Db, id: ShiftId) {
    ListsLeader(AssignedPersons(db, id))
  }

  /** Some entry of `xs` is flagged as a team leader. */
  predicate ListsLeader(xs: seq<Assigned>) {
    exists i :: 0 <= i < |xs| && xs[i].isTeamLeader
  }

  /** No person holds two assignments of event `e` whose windows overlap. */
  ghost predicate NoDoubleBooking(db: Db, e: EventId) {
    forall i, j ::
      0 <= i < |db.assignments| && 0 <= j < |db.assignments| && i != j
      && db.assignments[i].person == db.assignments[j].person
      && InEvent(db, e, db.assignments[i]) && InEvent(db, e, db.assignments[j])
      ==> !Overlaps(AssignmentWindow(db, db.assignments[i]), AssignmentWindow(db, db.assignments[j]))
  }
}

=== FILE: seqs.dfy ===
/** Order-preserving filtering of sequences, the model of a SQL `WHERE` or a
    Python list comprehension with a condition. */
module Seqs {

  function Filter<T(!new)>(xs: seq<T>, keep: T -> bool): (r: seq<T>)
    ensures |r| <= |xs|
    ensures forall x :: x in r <==> x in xs && keep(x)
    ensures forall i :: 0 <= i < |r| ==> keep(r[i])
  {
    if |xs| == 0 then []
    else
      var rest := Filter(xs[1..], keep);
      assert forall x :: x in xs <==> x == xs[0] || x in xs[1..];
      if keep(xs[0]) then [xs[0]] + rest else rest
  }

  /** Filtering keeps every kept element as often as it occurs and drops
      the others. */
  lemma {:induction false} FilterMultiplicity<T(!new)>(xs: seq<T>, keep: T -> bool)
    ensures forall x :: multiset(Filter(xs, keep))[x] == if keep(x) then multiset(xs)[x] else 0
  {
    if |xs| != 0 {
      FilterMultiplicity(xs[1..], keep);
      assert xs == [xs[0]] + xs[1..];
    }
  }

  /** Filters of two permutations of each other are permutations of each
      other, and so have the same length. */
  lemma FilterPermutation<T(!new)>(xs: seq<T>, ys: seq<T>, keep: T -> bool)
    requires multiset(xs) == multiset(ys)
    ensures multiset(Filter(xs, keep)) == multiset(Filter(ys, keep))
    ensures |Filter(xs, keep)| == |Filter(ys, keep)|
  {
    FilterMultiplicity(xs, keep);
    FilterMultiplicity(ys, keep);
    assert multiset(Filter(xs, keep)) == multiset(Filter(ys, keep));
    assert |multiset(Filter(xs, keep))| == |Filter(xs, keep)|;
    assert |multiset(Filter(ys, keep))| == |Filter(ys, keep)|;
  }

  /** Filtering distributes over concatenation. */
  lemma {:induction false} FilterAppend<T(!new)>(xs: seq<T>, ys: seq<T>, keep: T -> bool)
    ensures Filter(xs + ys, keep) == Filter(xs, keep) + Filter(ys, keep)
  {
    if |xs| != 0 {
      assert (xs + ys)[1..] == xs[1..] + ys;
      FilterAppend(xs[1..], ys, keep);
    } else {
      assert xs + ys == ys;
    }
  }

  /** Filtering distributes over appending one element at the end. */
  lemma {:induction false} FilterSnoc<T(!new)>(xs: seq<T>, x: T, keep: T -> bool)
    ensures Filter(xs + [x], keep) == Filter(xs, keep) + (if keep(x) then [x] else [])
  {
    if |xs| == 0 {
      assert xs + [x] == [x];
    } else {
      assert (xs + [x])[1..] == xs[1..] + [x];
      FilterSnoc(xs[1..], x, keep);
    }
  }

  /** Two conditions that agree on the elements of `xs` filter it alike. */
  lemma {:induction false} FilterCongruent<T(!new)>(xs: seq<T>, keep1: T -> bool, keep2: T -> bool)
    requires forall x :: x in xs ==> keep1(x) == keep2(x)
    ensures Filter(xs, keep1) == Filter(xs, keep2)
  {
    if |xs| != 0 {
      assert forall x :: x in xs[1..] ==> x in xs;
      FilterCongruent(xs[1..], keep1, keep2);
    }
  }

  /** A condition every element meets keeps the whole sequence. */
  lemma {:induction false} FilterKeepsAll<T(!new)>(xs: seq<T>, keep: T -> bool)
    requires forall x :: x in xs ==> keep(x)
    ensures Filter(xs, keep) == xs
  {
    if |xs| != 0 {
      assert forall x :: x in xs[1..] ==> x in xs;
      FilterKeepsAll(xs[1..], keep);
    }
  }

  /** A condition no element meets keeps nothing. */
  lemma {:induction false} FilterDropsAll<T(!new)>(xs: seq<T>, keep: T -> bool)
    requires forall x :: x in xs ==> !keep(x)
    ensures Filter(xs, keep) == []
  {
    if |xs| != 0 {
      assert forall x :: x in xs[1..] ==> x in xs;
      FilterDropsAll(xs[1..], keep);
    }
  }

  /** No two elements of `xs` share a key. */
  predicate DistinctKeys<T, K(==)>(xs: seq<T>, key: T -> K) {
    forall i, j :: 0 <= i < j < |xs| ==> key(xs[i]) != key(xs[j])
  }

  lemma DistinctKeysTail<T, K>(xs: seq<T>, key: T -> K)
    requires |xs| > 0 && DistinctKeys(xs, key)
    ensures DistinctKeys(xs[1..], key)
  {
    assert forall i :: 0 <= i < |xs[1..]| ==> xs[1..][i] == xs[i + 1];
  }

  /** Dropping the first element of `a` and a matching element of `b` keeps
      the two multisets equal. */
  lemma MultisetRemove<T>(a: seq<T>, b: seq<T>, k: int)
    requires |a| > 0 && 0 <= k < |b| && b[k] == a[0]
    requires multiset(a) == multiset(b)
    ensures multiset(a[1..]) == multiset(b[..k] + b[k + 1..])
  {
    assert b == b[..k] + [b[k]] + b[k + 1..];
    assert multiset(b) == multiset(b[..k]) + multiset{b[k]} + multiset(b[k + 1..]);
    assert multiset(b[..k] + b[k + 1..]) == multiset(b[..k]) + multiset(b[k + 1..]);
    assert a == [a[0]] + a[1..];
    assert multiset(a) == multiset{a[0]} + multiset(a[1..]);
    assert multiset(a[1..]) == multiset(a) - multiset{a[0]};
    assert multiset(b[..k] + b[k + 1..]) == multiset(b) - multiset{b[k]};
  }

  /** Removing one element keeps the keys distinct, and the removed key no
      longer occurs. */
  lemma DistinctKeysRemove<T, K>(b: seq<T>, k: int, key: T -> K)
    requires 0 <= k < |b| && DistinctKeys(b, key)
    ensures DistinctKeys(b[..k] + b[k + 1..], key)
    ensures forall y :: y in b[..k] + b[k + 1..] ==> key(y) != key(b[k])
  {
    var b' := b[..k] + b[k + 1..];
    assert forall i :: 0 <= i < |b'| ==> b'[i] == b[if i < k then i else i + 1];
  }

  /** A reordering keeps the keys distinct. */
  lemma {:induction false} PermutationKeepsDistinctKeys<T, K>(a: seq<T>, b: seq<T>, key: T -> K)
    requires multiset(a) == multiset(b)
    requires DistinctKeys(b, key)
    ensures DistinctKeys(a, key)
    decreases |a|
  {
    if |a| > 0 {
      assert a[0] in multiset(b);
      var k :| 0 <= k < |b| && b[k] == a[0];
      var b' := b[..k] + b[k + 1..];
      MultisetRemove(a, b, k);
      DistinctKeysRemove(b, k, key);
      PermutationKeepsDistinctKeys(a[1..], b', key);
      forall i, j | 0 <= i < j < |a|
        ensures key(a[i]) != key(a[j])
      {
        assert a[j] == a[1..][j - 1];
        assert a[j] in multiset(b');
        if i > 0 {
          assert a[i] == a[1..][i - 1];
        }
      }
    }
  }
}

=== FILE: shift_dialog.dfy ===
/**
 The save step of the shift dialog (`ShiftDialog.accept`): a new or edited
 shift of a task is refused when its start and end times are identical or
 when, measured in seconds with midnight normalisation, it overlaps another
 shift of the same task on the same date; otherwise it is inserted or the
 edited row is updated.
 */
module ShiftDialog {
  import opened Time
  import opened Seqs
  import opened Sorting
  import opened Records

  /** The dialog's input fields. */
  datatype ShiftForm = ShiftForm(date: int, start: ClockTime, end: ClockTime, required: int)

  /** What pressing "OK" does. */
  datatype Outcome =
    | RejectedIdentical
    | RejectedConflict(existing: Shift)
    | Added(form: ShiftForm)
    | Updated(id: ShiftId, form: ShiftForm)
  {
    predicate Saved() {
      Added? || Updated?
    }
  }

  /** `get_shifts_for_task(task_id)`: the task's shifts by date and start time. */
  function TaskShifts(db: Db, task: TaskId): (r: seq<Shift>)
    ensures SortedBy(r, EarlierShift)
    ensures forall s :: s in r <==> s in db.shifts && s.task == task
    ensures multiset(r) == multiset(Filter(db.shifts, (s: Shift) => s.task == task))
  {
    assert TotalPreorder(EarlierShift);
    Sort(Filter(db.shifts, (s: Shift) => s.task == task), EarlierShift)
  }

  /** The dialog's window in seconds since midnight of the shift date, with an
      end that is not after the start moved to the next day. */
  function SecondsWindow(start: ClockTime, end: ClockTime): Window {
    Normalize(start.Seconds(), end.Seconds(), SecondsPerDay)
  }

  /** The dialog's seconds window is the minute window of the shift, taken
      relative to its own date and scaled by 60. */
  lemma SecondsWindowScalesMinutes(start: ClockTime, end: ClockTime)
    ensures SecondsWindow(start, end)
         == Window(ShiftWindow(0, start, end).start * 60, ShiftWindow(0, start, end).end * 60)
  {
  }

  /** Existing shift `s` blocks the form: it is not the shift being edited,
      lies on the same date and overlaps in seconds. */
  predicate Blocks(form: ShiftForm, editing: Option<ShiftId>, s: Shift) {
    editing != Some(s.id)
    && s.date == form.date
    && Overlaps(SecondsWindow(form.start, form.end), SecondsWindow(s.start, s.end))
  }

  /** The index of the first blocking shift, as the dialog's loop finds it. */
  function FirstBlocking(form: ShiftForm, editing: Option<ShiftId>, shifts: seq<Shift>): (r: Option<nat>)
    ensures r.None? <==> forall k :: 0 <= k < |shifts| ==> !Blocks(form, editing, shifts[k])
    ensures r.Some? ==> r.value < |shifts| && Blocks(form, editing, shifts[r.value])
                        && forall k :: 0 <= k < r.value ==> !Blocks(form, editing, shifts[k])
  {
    if |shifts| == 0 then None
    else if Blocks(form, editing, shifts[0]) then Some(0)
    else
      var rest := FirstBlocking(form, editing, shifts[1..]);
      assert forall k :: 1 <= k < |shifts| ==> shifts[k] == shifts[1..][k - 1];
      match rest
      case None => None
      case Some(k) => Some(k + 1)
  }

  /** `ShiftDialog.accept` for task `task`; `editing` is the id of the shift
      being edited, `None` for a new shift. */
  function Accept(db: Db, task: TaskId, editing: Option<ShiftId>, form: ShiftForm): Outcome {
    if form.start == form.end then RejectedIdentical
    else
      var shifts := TaskShifts(db, task);
      match FirstBlocking(form, editing, shifts)
      case Some(k) => RejectedConflict(shifts[k])
      case None => if editing.None? then Added(form) else Updated(editing.value, form)
  }

  /** The dialog saves exactly when start and end differ and no shift of the
      task blocks the form; it adds when no shift is being edited and
      updates the edited shift otherwise. */
  lemma AcceptSavesIffClear(db: Db, task: TaskId, editing: Option<ShiftId>, form: ShiftForm)
    ensures Accept(db, task, editing, form).Saved()
        <==> form.start != form.end && forall s :: s in db.shifts && s.task == task ==> !Blocks(form, editing, s)
    ensures Accept(db, task, editing, form).Added? <==> Accept(db, task, editing, form).Saved() && editing.None?
    ensures Accept(db, task, editing, form).Updated? ==> Accept(db, task, editing, form) == Updated(editing.value, form)
  {
    NothingBlocks(db, task, editing, form);
  }

  lemma NothingBlocks(db: Db, task: TaskId, editing: Option<ShiftId>, form: ShiftForm)
    ensures FirstBlocking(form, editing, TaskShifts(db, task)).None?
        <==> forall s :: s in db.shifts && s.task == task ==> !Blocks(form, editing, s)
  {
    var shifts := TaskShifts(db, task);
    if FirstBlocking(form, editing, shifts).Some? {
      var k := FirstBlocking(form, editing, shifts).value;
      assert shifts[k] in db.shifts && shifts[k].task == task;
    } else {
      forall s | s in db.shifts && s.task == task
        ensures !Blocks(form, editing, s)
      {
        var k :| 0 <= k < |shifts| && shifts[k] == s;
      }
    }
  }

  /** The form as a shift row of task `task` with id `id`. */
  function FormShift(id: ShiftId, task: TaskId, form: ShiftForm): Shift {
    Shift(id, task, form.date, form.start, form.end, form.required)
  }

  /** Two shifts of the same date that overlap in the dialog's seconds
      overlap in the minute windows the planner uses, and conversely. */
  lemma BlocksIsOverlap(form: ShiftForm, editing: Option<ShiftId>, s: Shift, id: ShiftId, task: TaskId)
    requires s.date == form.date
    ensures Blocks(form, editing, s) <==> editing != Some(s.id) && Overlaps(FormShift(id, task, form).Window(), s.Window())
  {
    var a := ShiftWindow(0, form.start, form.end);
    var b := ShiftWindow(0, s.start, s.end);
    SecondsWindowScalesMinutes(form.start, form.end);
    SecondsWindowScalesMinutes(s.start, s.end);
    OverlapsScaled(a, b, 60);
    var off := form.date * MinutesPerDay;
    assert FormShift(id, task, form).Window() == Window(a.start + off, a.end + off);
    assert s.Window() == Window(b.start + off, b.end + off);
  }

  /** The dialog refuses a shift whose start and end time coincide, and only
      such a shift, before looking at other shifts. */
  lemma IdenticalTimesRejected(db: Db, task: TaskId, editing: Option<ShiftId>, form: ShiftForm)
    ensures Accept(db, task, editing, form) == RejectedIdentical <==> form.start == form.end
  {
  }

  /** A reported conflict names a shift of the same task and date, other than
      the edited one, that overlaps the form. */
  lemma ConflictIsGenuine(db: Db, task: TaskId, editing: Option<ShiftId>, form: ShiftForm, id: ShiftId)
    ensures Accept(db, task, editing, form).RejectedConflict? ==>
            var s := Accept(db, task, editing, form).existing;
            s in db.shifts && s.task == task && s.date == form.date && editing != Some(s.id)
            && Overlaps(FormShift(id, task, form).Window(), s.Window())
  {
    if Accept(db, task, editing, form).RejectedConflict? {
      var s := Accept(db, task, editing, form).existing;
      BlocksIsOverlap(form, editing, s, id, task);
    }
  }

  /** A saved shift overlaps no other shift of its task on its date: every
      such overlap is caught. */
  lemma SavedHasNoConflict(db: Db, task: TaskId, editing: Option<ShiftId>, form: ShiftForm, id: ShiftId, s: Shift)
    requires s in db.shifts && s.task == task && s.date == form.date && editing != Some(s.id)
    ensures Accept(db, task, editing, form).Saved() ==> !Overlaps(FormShift(id, task, form).Window(), s.Window())
  {
    if Accept(db, task, editing, form).Saved() {
      var shifts := TaskShifts(db, task);
      var k :| 0 <= k < |shifts| && shifts[k] == s;
      BlocksIsOverlap(form, editing, s, id, task);
    }
  }

  /** The edit with id `id` applied to row `s`: `update_shift` rewrites date,
      times and required count of the row with that id. */
  function UpdateRow(s: Shift, id: ShiftId, form: ShiftForm): (r: Shift)
    ensures r.id == s.id && r.task == s.task
    ensures s.id != id ==> r == s
    ensures s.id == id ==> r.date == form.date && r.start == form.start && r.end == form.end
                           && r.required == form.required
  {
    if s.id == id then FormShift(id, s.task, form) else s
  }

  /** Saving the same edit twice changes nothing more, and saving a row's
      own values leaves it as it is. */
  lemma UpdateRowIdempotent(s: Shift, id: ShiftId, form: ShiftForm)
    ensures UpdateRow(UpdateRow(s, id, form), id, form) == UpdateRow(s, id, form)
    ensures UpdateRow(s, id, ShiftForm(s.date, s.start, s.end, s.required)) == s
  {
  }

  /** The store after the dialog's outcome; `newId` is the id the database
      hands out to an inserted row. */
  function Apply(db: Db, task: TaskId, o: Outcome, newId: ShiftId): (r: Db)
    ensures r.persons == db.persons && r.tasks == db.tasks && r.assignments == db.assignments
    ensures !o.Saved() ==> r == db
    ensures o.Added? ==> r.shifts == db.shifts + [FormShift(newId, task, o.form)]
    ensures o.Updated? ==> |r.shifts| == |db.shifts|
                           && forall k :: 0 <= k < |db.shifts| ==>
                                (db.shifts[k].id != o.id ==> r.shifts[k] == db.shifts[k])
                                && (db.shifts[k].id == o.id ==> r.shifts[k] == FormShift(o.id, db.shifts[k].task, o.form))
  {
    match o
    case Added(form) => db.(shifts := db.shifts + [FormShift(newId, task, form)])
    case Updated(id, form) =>
      db.(shifts := seq(|db.shifts|, k requires 0 <= k < |db.shifts| => UpdateRow(db.shifts[k], id, form)))
    case _ => db
  }

  /** No two shifts of the same task and date overlap. */
  ghost predicate SameDayDisjoint(shifts: seq<Shift>) {
    forall i, j :: 0 <= i < |shifts| && 0 <= j < |shifts| && i != j
                   && shifts[i].task == shifts[j].task && shifts[i].date == shifts[j].date
                   ==> !Overlaps(shifts[i].Window(), shifts[j].Window())
  }

  /** Adding a shift through the dialog keeps the shifts of every task
      disjoint per day. */
  lemma AddKeepsSameDayDisjoint(db: Db, task: TaskId, form: ShiftForm, newId: ShiftId)
    requires SameDayDisjoint(db.shifts)
    requires Accept(db, task, None, form).Added?
    ensures SameDayDisjoint(Apply(db, task, Accept(db, task, None, form), newId).shifts)
  {
    var o := Accept(db, task, None, form);
    var shifts := Apply(db, task, o, newId).shifts;
    var n := |db.shifts|;
    forall i, j | 0 <= i < |shifts| && 0 <= j < |shifts| && i != j
                  && shifts[i].task == shifts[j].task && shifts[i].date == shifts[j].date
      ensures !Overlaps(shifts[i].Window(), shifts[j].Window())
    {
      if i == n {
        SavedHasNoConflict(db, task, None, form, newId, shifts[j]);
      } else if j == n {
        SavedHasNoConflict(db, task, None, form, newId, shifts[i]);
        OverlapsSymmetric(shifts[i].Window(), shifts[j].Window());
      } else {
        assert shifts[i] == db.shifts[i] && shifts[j] == db.shifts[j];
      }
    }
  }

  /** Editing a shift through the dialog keeps the shifts of every task
      disjoint per day, when shift ids are unique and the edited shift
      belongs to the dialog's task. */
  lemma UpdateKeepsSameDayDisjoint(db: Db, task: TaskId, id: ShiftId, form: ShiftForm, newId: ShiftId)
    requires SameDayDisjoint(db.shifts)
    requires forall i, j :: 0 <= i < j < |db.shifts| ==> db.shifts[i].id != db.shifts[j].id
    requires forall s :: s in db.shifts && s.id == id ==> s.task == task
    requires Accept(db, task, Some(id), form).Updated?
    ensures SameDayDisjoint(Apply(db, task, Accept(db, task, Some(id), form), newId).shifts)
  {
    var o := Accept(db, task, Some(id), form);
    var shifts := Apply(db, task, o, newId).shifts;
    forall i, j | 0 <= i < |shifts| && 0 <= j < |shifts| && i != j
                  && shifts[i].task == shifts[j].task && shifts[i].date == shifts[j].date
      ensures !Overlaps(shifts[i].Window(), shifts[j].Window())
    {
      var a, b := db.shifts[i], db.shifts[j];
      if a.id == id {
        assert shifts[i] == FormShift(id, task, form) && shifts[j] == b;
        SavedHasNoConflict(db, task, Some(id), form, id, b);
      } else if b.id == id {
        assert shifts[j] == FormShift(id, task, form) && shifts[i] == a;
        SavedHasNoConflict(db, task, Some(id), form, id, a);
        OverlapsSymmetric(shifts[i].Window(), shifts[j].Window());
      } else {
        assert shifts[i] == a && shifts[j] == b;
      }
    }
  }

  /** 18:00-21:00 and 21:00-00:00 on one date only touch: the second ends at
      midnight, which the normalisation moves to the next day. */
  lemma MidnightEndTouches(date: int, task: TaskId, id: ShiftId)
    ensures !Blocks(ShiftForm(date, ClockTime(21, 0), ClockTime(0, 0), 1), None,
                    Shift(id, task, date, ClockTime(18, 0), ClockTime(21, 0), 1))
  {
    var form := ShiftForm(date, ClockTime(21, 0), ClockTime(0, 0), 1);
    var s := Shift(id, task, date, ClockTime(18, 0), ClockTime(21, 0), 1);
    assert SecondsWindow(s.start, s.end) == Window(64800, 75600) by {
      assert s.start.Seconds() == 64800 && s.end.Seconds() == 75600;
    }
    assert SecondsWindow(form.start, form.end) == Window(75600, 86400) by {
      assert form.start.Seconds() == 75600 && form.end.Seconds() == 0;
    }
  }

  /** 20:00-22:00 conflicts with 18:00-21:00 on the same date, unless it is
      that very shift being edited. */
  lemma OverlapBlocksUnlessEdited(date: int, task: TaskId, id: ShiftId)
    ensures var first := Shift(id, task, date, ClockTime(18, 0), ClockTime(21, 0), 1);
            Blocks(ShiftForm(date, ClockTime(20, 0), ClockTime(22, 0), 1), None, first)
            && !Blocks(ShiftForm(date, ClockTime(20, 0), ClockTime(22, 0), 1), Some(id), first)
  {
    assert SecondsWindow(ClockTime(18, 0), ClockTime(21, 0)) == Window(64800, 75600);
    assert SecondsWindow(ClockTime(20, 0), ClockTime(22, 0)) == Window(72000, 79200);
  }
}

=== FILE: sorting.dfy ===
/**
 Stable insertion sort over an arbitrary total preorder.

 The source sorts with Python's `list.sort(key=..., reverse=...)` and SQL
 `ORDER BY`; each of those is modelled as `Sort` with the matching order.
 */
module Sorting {

  /** `le` is total and transitive: it ranks any two elements. */
  ghost predicate TotalPreorder<T(!new)>(le: (T, T) -> bool) {
    && (forall a, b :: le(a, b) || le(b, a))
    && (forall a, b, c :: le(a, b) && le(b, c) ==> le(a, c))
  }

  predicate SortedBy<T>(xs: seq<T>, le: (T, T) -> bool) {
    forall i, j :: 0 <= i < j < |xs| ==> le(xs[i], xs[j])
  }

  /** Inserts `x` before the first element it ranks no lower than. */
  function Insert<T(!new)>(x: T, ys: seq<T>, le: (T, T) -> bool): (r: seq<T>)
    requires TotalPreorder(le)
    requires SortedBy(ys, le)
    ensures SortedBy(r, le)
    ensures multiset(r) == multiset(ys) + multiset{x}
  {
    if |ys| == 0 then [x]
    else if le(x, ys[0]) then
      assert forall k :: 1 <= k < |[x] + ys| ==> ([x] + ys)[k] == ys[k - 1];
      [x] + ys
    else
      var rest := Insert(x, ys[1..], le);
      assert forall k :: 0 <= k < |rest| ==> le(ys[0], rest[k]) by {
        forall k | 0 <= k < |rest|
          ensures le(ys[0], rest[k])
        {
          assert rest[k] in multiset(rest);
          if rest[k] != x {
            assert rest[k] in multiset(ys[1..]);
            assert rest[k] in ys[1..];
            var m :| 0 <= m < |ys[1..]| && ys[1..][m] == rest[k];
            assert ys[m + 1] == rest[k];
          }
        }
      }
      assert ys == [ys[0]] + ys[1..];
      [ys[0]] + rest
  }

  /** Sorts `xs` by `le`, keeping equal elements in their original order. */
  function Sort<T(!new)>(xs: seq<T>, le: (T, T) -> bool): (r: seq<T>)
    requires TotalPreorder(le)
    ensures SortedBy(r, le)
    ensures multiset(r) == multiset(xs)
    ensures |r| == |xs|
    ensures forall x :: x in r <==> x in xs
  {
    if |xs| == 0 then []
    else
      var r := Insert(xs[0], Sort(xs[1..], le), le);
      assert xs == [xs[0]] + xs[1..];
      assert multiset(r) == multiset(xs);
      assert forall x :: x in r <==> x in multiset(xs);
      r
  }

  /** Lexicographic order on strings by code point, as Python compares `str`
      values and SQLite's BINARY collation compares TEXT. */
  predicate LexLe(a: string, b: string) {
    if |a| == 0 then true
    else if |b| == 0 then false
    else if a[0] != b[0] then a[0] < b[0]
    else LexLe(a[1..], b[1..])
  }

  lemma {:induction false} LexLeTotal(a: string, b: string)
    ensures LexLe(a, b) || LexLe(b, a)
  {
    if |a| != 0 && |b| != 0 && a[0] == b[0] {
      LexLeTotal(a[1..], b[1..]);
    }
  }

  lemma {:induction false} LexLeTransitive(a: string, b: string, c: string)
    requires LexLe(a, b) && LexLe(b, c)
    ensures LexLe(a, c)
  {
    if |a| != 0 && |b| != 0 && |c| != 0 && a[0] == b[0] && b[0] == c[0] {
      LexLeTransitive(a[1..], b[1..], c[1..]);
    }
  }

  lemma {:induction false} LexLeAntisymmetric(a: string, b: string)
    requires LexLe(a, b) && LexLe(b, a)
    ensures a == b
  {
    if |a| != 0 && |b| != 0 {
      LexLeAntisymmetric(a[1..], b[1..]);
      assert a == [a[0]] + a[1..] && b == [b[0]] + b[1..];
    }
  }

  lemma LexLeIsTotalPreorder()
    ensures TotalPreorder(LexLe)
  {
    forall a, b ensures LexLe(a, b) || LexLe(b, a) {
      LexLeTotal(a, b);
    }
    forall a, b, c | LexLe(a, b) && LexLe(b, c) ensures LexLe(a, c) {
      LexLeTransitive(a, b, c);
    }
  }
}

=== FILE: time.dfy ===
/**
 Clock times and shift time windows.

 A shift is stored as a calendar date plus a start and an end clock time
 ("HH:MM"). Its window is measured in integer minutes from a fixed epoch:
 `day * 1440 + hour * 60 + minute`. When the end clock time is not after the
 start clock time the shift crosses midnight and its end moves to the next day.
 */
module Time {

  const MinutesPerDay: int := 1440
  const SecondsPerDay: int := 86400

  type Hour = h: int | 0 <= h < 24
  type Minute = m: int | 0 <= m < 60

  /** A wall-clock time as entered in an "HH:MM" field. */
  datatype ClockTime = ClockTime(hour: Hour, minute: Minute) {

    /** Minutes since midnight. */
    function Minutes(): (r: int)
      ensures 0 <= r < MinutesPerDay
    {
      hour * 60 + minute
    }

    /** Seconds since midnight, as the shift dialog computes them. */
    function Seconds(): (r: int)
      ensures 0 <= r < SecondsPerDay
      ensures r == Minutes() * 60
    {
      hour * 3600 + minute * 60
    }
  }

  /** A half-open time interval [start, end) in some fixed unit. */
  datatype Window = Window(start: int, end: int)

  /** The normalisation every caller applies: an end that is not after the
      start is moved forward by one day of `unitsPerDay`. */
  function Normalize(start: int, end: int, unitsPerDay: int): (w: Window)
    requires 0 < unitsPerDay
    requires start <= end + unitsPerDay
    ensures w.start == start
    ensures w.start < w.end || (start == end + unitsPerDay)
    ensures w.end == end || w.end == end + unitsPerDay
    ensures w.end == end + unitsPerDay <==> end <= start
  {
    if end <= start then Window(start, end + unitsPerDay) else Window(start, end)
  }

  /** The window of a shift on calendar day `day`, in minutes. */
  function ShiftWindow(day: int, start: ClockTime, end: ClockTime): (w: Window)
    ensures w.start == day * MinutesPerDay + start.Minutes()
    ensures w.start < w.end <= w.start + MinutesPerDay
    ensures w.end == day * MinutesPerDay + end.Minutes()
         || w.end == (day + 1) * MinutesPerDay + end.Minutes()
    ensures w.end >= (day + 1) * MinutesPerDay <==> end.Minutes() <= start.Minutes()
  {
    Normalize(day * MinutesPerDay + start.Minutes(), day * MinutesPerDay + end.Minutes(), MinutesPerDay)
  }

  /** Strict overlap of two windows: touching end points do not overlap. */
  predicate Overlaps(a: Window, b: Window) {
    a.start < b.end && a.end > b.start
  }

  /** Back-to-back: one window starts exactly where the other ends. */
  predicate Touches(a: Window, b: Window) {
    a.start == b.end || a.end == b.start
  }

  predicate Proper(w: Window) {
    w.start < w.end
  }

  lemma OverlapsSymmetric(a: Window, b: Window)
    ensures Overlaps(a, b) <==> Overlaps(b, a)
  {
  }

  /** A proper window overlaps itself, so the same shift can never be held twice
      without a conflict. */
  lemma OverlapsReflexive(w: Window)
    requires Proper(w)
    ensures Overlaps(w, w)
  {
  }

  /** Touching and overlapping exclude each other for proper windows. */
  lemma TouchingIsNotOverlap(a: Window, b: Window)
    requires Proper(a) && Proper(b)
    ensures Touches(a, b) ==> !Overlaps(a, b)
  {
  }

  /** Two shifts on the same day whose windows, scaled by a common positive
      factor, overlap, overlap unscaled as well (and conversely). */
  lemma OverlapsScaled(a: Window, b: Window, k: int)
    requires 0 < k
    ensures Overlaps(Window(a.start * k, a.end * k), Window(b.start * k, b.end * k)) <==> Overlaps(a, b)
  {
    ScaleMonotone(a.start, b.end, k);
    ScaleMonotone(b.start, a.end, k);
  }

  lemma ScaleMonotone(x: int, y: int, k: int)
    requires 0 < k
    ensures x < y <==> x * k < y * k
  {
    if x < y {
      assert y * k - x * k == (y - x) * k;
    } else {
      assert x * k - y * k == (x - y) * k;
    }
  }

  /** 10:00-14:00 and 14:00-18:00 on one day only touch; 10:00-14:00 and
      13:00-17:00 overlap. */
  lemma SameDayExamples(day: int)
    ensures var a := ShiftWindow(day, ClockTime(10, 0), ClockTime(14, 0));
            var b := ShiftWindow(day, ClockTime(14, 0), ClockTime(18, 0));
            var c := ShiftWindow(day, ClockTime(13, 0), ClockTime(17, 0));
            !Overlaps(a, b) && Touches(a, b) && Overlaps(a, c)
  {
    var d := day * MinutesPerDay;
    assert ShiftWindow(day, ClockTime(10, 0), ClockTime(14, 0)) == Window(d + 600, d + 840);
    assert ShiftWindow(day, ClockTime(14, 0), ClockTime(18, 0)) == Window(d + 840, d + 1080);
    assert ShiftWindow(day, ClockTime(13, 0), ClockTime(17, 0)) == Window(d + 780, d + 1020);
  }

  /** 22:00-02:00 runs to 02:00 of the next day. A 00:00-04:00 shift dated the
      same day lies before it, one dated the next day overlaps it. */
  lemma MidnightExamples(day: int)
    ensures var x := ShiftWindow(day, ClockTime(22, 0), ClockTime(2, 0));
            x == Window(day * MinutesPerDay + 1320, (day + 1) * MinutesPerDay + 120)
            && !Overlaps(x, ShiftWindow(day, ClockTime(0, 0), ClockTime(4, 0)))
            && Overlaps(x, ShiftWindow(day + 1, ClockTime(0, 0), ClockTime(4, 0)))
            && Overlaps(x, ShiftWindow(day, ClockTime(20, 0), ClockTime(23, 0)))
  {
    var d := day * MinutesPerDay;
    assert (day + 1) * MinutesPerDay == d + 1440;
    assert ShiftWindow(day, ClockTime(22, 0), ClockTime(2, 0)) == Window(d + 1320, d + 1560);
    assert ShiftWindow(day, ClockTime(0, 0), ClockTime(4, 0)) == Window(d, d + 240);
    assert ShiftWindow(day + 1, ClockTime(0, 0), ClockTime(4, 0)) == Window(d + 1440, d + 1680);
    assert ShiftWindow(day, ClockTime(20, 0), ClockTime(23, 0)) == Window(d + 1200, d + 1380);
  }
}

=== FILE: validation.dfy ===
/**
 The plan check `validate_event_plan` and the team-leader check
 `check_team_leader_compliance`. The check lists, in this order: empty and
 understaffed shifts, assignments that break a restriction, per person the
 pairs of overlapping and back-to-back shifts and more than two shifts, and
 shifts without a team leader.
 */
module Validation {
  import opened Time
  import opened Seqs
  import opened Sorting
  import opened Records
  import opened Guards
  import Eligibility

  /** One line of the check. Texts and emoji markers are presentation; the
      model keeps what each line is about. */
  datatype PlanWarning =
    | EmptyShift(shift: ShiftId)
    | Understaffed(shift: ShiftId, count: nat, required: int)
    | RestrictionViolated(person: PersonId, shift: ShiftId)
    | DoubleBooked(person: PersonId, first: ShiftId, second: ShiftId)
    | Consecutive(person: PersonId, first: ShiftId, second: ShiftId)
    | Overloaded(person: PersonId, shifts: nat)
    | MissingTeamLeader(shift: ShiftId)
  {
    /** The lines marked red: the plan is wrong rather than weak. */
    predicate Hard() {
      EmptyShift? || RestrictionViolated? || DoubleBooked?
    }
  }

  /** More shifts than this per person are flagged. */
  const RecommendedMaxShifts: nat := 2

  // ---------------------------------------------------------------------
  // Occupancy

  /** The occupancy line for one shift, if any. */
  function OccupancyOf(db: Db, s: Shift): (r: seq<PlanWarning>)
    ensures |r| <= 1
  {
    var count := RawCount(db, s.id);
    if count == 0 then [EmptyShift(s.id)]
    else if count < s.required then [Understaffed(s.id, count, s.required)]
    else []
  }

  function OccupancyWarnings(db: Db, shifts: seq<Shift>): (r: seq<PlanWarning>)
    ensures forall w :: w in r ==> w.EmptyShift? || w.Understaffed?
    ensures forall id :: EmptyShift(id) in r <==> exists s :: s in shifts && s.id == id && RawCount(db, id) == 0
    ensures forall id, c: nat, q :: Understaffed(id, c, q) in r <==>
              exists s :: s in shifts && s.id == id && s.required == q && c == RawCount(db, id) && 0 < c < q
  {
    if |shifts| == 0 then []
    else
      var rest := OccupancyWarnings(db, shifts[1..]);
      assert forall s :: s in shifts <==> s == shifts[0] || s in shifts[1..];
      OccupancyOf(db, shifts[0]) + rest
  }

  /** No shift is reported both empty and understaffed. */
  lemma EmptyAndUnderstaffedExclusive(db: Db, shifts: seq<Shift>, id: ShiftId, c: nat, q: int)
    ensures !(EmptyShift(id) in OccupancyWarnings(db, shifts) && Understaffed(id, c, q) in OccupancyWarnings(db, shifts))
  {
  }

  // ---------------------------------------------------------------------
  // Assignment rows

  /** One row of the assignment query: the person and the shift with its task. */
  datatype PlanRow = PlanRow(person: Person, info: ShiftInfo)

  /** The row assignment `a` contributes: none unless its shift belongs to
      event `e` and its person exists (inner joins). */
  function RowOf(db: Db, e: EventId, a: Assignment): (r: Option<PlanRow>)
    ensures r.Some? <==> InEvent(db, e, a) && PersonExists(db, a.person)
    ensures r.Some? ==> r.value.person.id == a.person && r.value.person in db.persons
                        && r.value.info == Info(db, a.shift).value && r.value.info.task.event == e
  {
    if !InEvent(db, e, a) then None
    else match FindPerson(db.persons, a.person)
      case None => None
      case Some(p) => Some(PlanRow(p, Info(db, a.shift).value))
  }

  function RowsOf(db: Db, e: EventId, rows: seq<Assignment>): (r: seq<PlanRow>)
    ensures |r| <= |rows|
    ensures forall x :: x in r ==> exists a :: a in rows && RowOf(db, e, a) == Some(x)
  {
    if |rows| == 0 then []
    else
      var rest := RowsOf(db, e, rows[1..]);
      assert forall a :: a in rows[1..] ==> a in rows;
      match RowOf(db, e, rows[0])
      case None => rest
      case Some(x) => [x] + rest
  }

  lemma {:induction false} RowsOfComplete(db: Db, e: EventId, rows: seq<Assignment>, a: Assignment)
    requires a in rows && RowOf(db, e, a).Some?
    ensures RowOf(db, e, a).value in RowsOf(db, e, rows)
  {
    if rows[0] != a {
      RowsOfComplete(db, e, rows[1..], a);
    }
  }

  /** `ORDER BY p.display_name, s.shift_date, s.start_time`. */
  predicate RowOrder(a: PlanRow, b: PlanRow) {
    if a.person.name != b.person.name then LexLe(a.person.name, b.person.name)
    else EarlierShift(a.info.shift, b.info.shift)
  }

  lemma RowOrderIsTotalPreorder()
    ensures TotalPreorder(RowOrder)
  {
    forall a: PlanRow, b: PlanRow ensures RowOrder(a, b) || RowOrder(b, a) {
      LexLeTotal(a.person.name, b.person.name);
    }
    forall a: PlanRow, b: PlanRow, c: PlanRow | RowOrder(a, b) && RowOrder(b, c)
      ensures RowOrder(a, c)
    {
      var x, y, z := a.person.name, b.person.name, c.person.name;
      if x != y && y != z {
        LexLeTransitive(x, y, z);
        if x == z {
          LexLeAntisymmetric(x, y);
        }
      }
    }
  }

  /** The assignment rows of event `e` in query order. */
  function EventRows(db: Db, e: EventId): (r: seq<PlanRow>)
    ensures SortedBy(r, RowOrder)
    ensures multiset(r) == multiset(RowsOf(db, e, db.assignments))
    ensures forall x :: x in r <==> x in RowsOf(db, e, db.assignments)
  {
    RowOrderIsTotalPreorder();
    Sort(RowsOf(db, e, db.assignments), RowOrder)
  }

  // ---------------------------------------------------------------------
  // Restrictions

  function RestrictionWarnings(rows: seq<PlanRow>): (r: seq<PlanWarning>)
    ensures forall w :: w in r ==> w.RestrictionViolated?
    ensures forall w :: w in r <==>
              exists x :: x in rows && x.info.task.dutyType in x.person.restrictions
                          && w == RestrictionViolated(x.person.id, x.info.shift.id)
  {
    if |rows| == 0 then []
    else
      var rest := RestrictionWarnings(rows[1..]);
      assert forall x :: x in rows <==> x == rows[0] || x in rows[1..];
      var x := rows[0];
      if x.info.task.dutyType in x.person.restrictions
      then [RestrictionViolated(x.person.id, x.info.shift.id)] + rest
      else rest
  }

  // ---------------------------------------------------------------------
  // Per-person checks

  /** The persons of `rows` in order of first appearance (the insertion
      order of the grouping dictionary). */
  function PersonOrder(rows: seq<PlanRow>): (r: seq<PersonId>)
    ensures Distinct(r)
    ensures forall pid :: pid in r <==> exists x :: x in rows && x.person.id == pid
  {
    if |rows| == 0 then []
    else
      var init := PersonOrder(rows[..|rows| - 1]);
      var last := rows[|rows| - 1];
      assert forall x :: x in rows <==> x in rows[..|rows| - 1] || x == last;
      if last.person.id in init then init else init + [last.person.id]
  }

  /** A shift of one person: its id and window. */
  datatype Slot = Slot(shift: ShiftId, window: Time.Window)

  function SlotOf(x: PlanRow): Slot {
    Slot(x.info.shift.id, x.info.shift.Window())
  }

  /** The slots of person `pid`, in row order. */
  function SlotsOf(rows: seq<PlanRow>, pid: PersonId): (r: seq<Slot>)
    ensures |r| <= |rows|
    ensures forall t :: t in r <==> exists x :: x in rows && x.person.id == pid && t == SlotOf(x)
  {
    if |rows| == 0 then []
    else
      var rest := SlotsOf(rows[1..], pid);
      assert forall x :: x in rows <==> x == rows[0] || x in rows[1..];
      if rows[0].person.id == pid then [SlotOf(rows[0])] + rest else rest
  }

  /** `shifts.sort(key=lambda x: x['start'])`. */
  predicate StartsNoLater(a: Slot, b: Slot) {
    a.window.start <= b.window.start
  }

  /** The slots of person `pid` sorted by start. */
  function PersonSlots(rows: seq<PlanRow>, pid: PersonId): (r: seq<Slot>)
    ensures SortedBy(r, StartsNoLater)
    ensures multiset(r) == multiset(SlotsOf(rows, pid))
    ensures |r| == |SlotsOf(rows, pid)|
  {
    assert TotalPreorder(StartsNoLater);
    Sort(SlotsOf(rows, pid), StartsNoLater)
  }

  /** The rows of person `pid`. */
  function RowsFor(rows: seq<PlanRow>, pid: PersonId): seq<PlanRow> {
    Filter(rows, (x: PlanRow) => x.person.id == pid)
  }

  lemma {:induction false} SlotsOfCount(rows: seq<PlanRow>, pid: PersonId)
    ensures |SlotsOf(rows, pid)| == |RowsFor(rows, pid)|
  {
    if |rows| != 0 {
      SlotsOfCount(rows[1..], pid);
    }
  }

  lemma {:induction false} RowsOfCount(db: Db, e: EventId, rows: seq<Assignment>, pid: PersonId)
    requires PersonExists(db, pid)
    ensures |RowsFor(RowsOf(db, e, rows), pid)|
         == |Filter(Filter(rows, (a: Assignment) => InEvent(db, e, a)), (a: Assignment) => a.person == pid)|
  {
    if |rows| != 0 {
      RowsOfCount(db, e, rows[1..], pid);
    }
  }

  /** The check counts a person's shifts as the helper picker counts their
      duties in the event: one per assignment of the event, provided the
      person row exists (the query's inner join drops the rest). */
  lemma SlotCountIsDutyCount(db: Db, e: EventId, pid: PersonId)
    ensures |SlotsOf(EventRows(db, e), pid)| == if PersonExists(db, pid) then Eligibility.DutyCount(db, e, pid) else 0
  {
    var rows := EventRows(db, e);
    SlotsOfCount(rows, pid);
    FilterPermutation(rows, RowsOf(db, e, db.assignments), (x: PlanRow) => x.person.id == pid);
    if PersonExists(db, pid) {
      RowsOfCount(db, e, db.assignments, pid);
    } else {
      NoRowsOfMissingPerson(db, e, db.assignments, pid);
    }
  }

  lemma {:induction false} NoRowsOfMissingPerson(db: Db, e: EventId, rows: seq<Assignment>, pid: PersonId)
    requires !PersonExists(db, pid)
    ensures RowsFor(RowsOf(db, e, rows), pid) == []
  {
    if |rows| != 0 {
      NoRowsOfMissingPerson(db, e, rows[1..], pid);
    }
  }

  /** The lines for slot `cur` against each later slot. */
  function PairsWith(pid: PersonId, cur: Slot, others: seq<Slot>): (r: seq<PlanWarning>)
    ensures forall w :: w in r ==> (w.DoubleBooked? || w.Consecutive?) && w.person == pid && w.first == cur.shift
    ensures forall y :: DoubleBooked(pid, cur.shift, y) in r <==>
              exists j :: 0 <= j < |others| && others[j].shift == y && Overlaps(cur.window, others[j].window)
    ensures forall y :: Consecutive(pid, cur.shift, y) in r <==>
              exists j :: 0 <= j < |others| && others[j].shift == y && cur.window.end == others[j].window.start
  {
    if |others| == 0 then []
    else
      var o := others[0];
      var rest := PairsWith(pid, cur, others[1..]);
      assert forall j :: 1 <= j < |others| ==> others[j] == others[1..][j - 1];
      (if Overlaps(cur.window, o.window) then [DoubleBooked(pid, cur.shift, o.shift)] else [])
      + (if cur.window.end == o.window.start then [Consecutive(pid, cur.shift, o.shift)] else [])
      + rest
  }

  /** The pair loop `for i ... for j in range(i + 1, ...)` over one person's slots. */
  function Pairs(pid: PersonId, slots: seq<Slot>): (r: seq<PlanWarning>)
    ensures forall w :: w in r ==> (w.DoubleBooked? || w.Consecutive?) && w.person == pid
  {
    if |slots| == 0 then [] else PairsWith(pid, slots[0], slots[1..]) + Pairs(pid, slots[1..])
  }

  /** Two slots, the first earlier in the list, overlap. */
  predicate OverlappingPair(slots: seq<Slot>, x: ShiftId, y: ShiftId) {
    exists i, j :: 0 <= i < j < |slots| && slots[i].shift == x && slots[j].shift == y
                   && Overlaps(slots[i].window, slots[j].window)
  }

  /** A slot ends exactly where a later one in the list starts. */
  predicate BackToBackPair(slots: seq<Slot>, x: ShiftId, y: ShiftId) {
    exists i, j :: 0 <= i < j < |slots| && slots[i].shift == x && slots[j].shift == y
                   && slots[i].window.end == slots[j].window.start
  }

  /** A pair of shifts is reported as double-booked exactly when the two
      overlap. */
  lemma PairsReportOverlaps(pid: PersonId, slots: seq<Slot>, x: ShiftId, y: ShiftId)
    ensures DoubleBooked(pid, x, y) in Pairs(pid, slots) <==> OverlappingPair(slots, x, y)
  {
    OverlapsFound(pid, slots, x, y);
    OverlapsGenuine(pid, slots, x, y);
  }

  lemma {:induction false} OverlapsFound(pid: PersonId, slots: seq<Slot>, x: ShiftId, y: ShiftId)
    ensures OverlappingPair(slots, x, y) ==> DoubleBooked(pid, x, y) in Pairs(pid, slots)
  {
    if |slots| != 0 && OverlappingPair(slots, x, y) {
      var i, j :| 0 <= i < j < |slots| && slots[i].shift == x && slots[j].shift == y
                  && Overlaps(slots[i].window, slots[j].window);
      if i == 0 {
        assert slots[1..][j - 1] == slots[j];
        assert DoubleBooked(pid, x, y) in PairsWith(pid, slots[0], slots[1..]);
      } else {
        assert slots[1..][i - 1] == slots[i] && slots[1..][j - 1] == slots[j];
        assert OverlappingPair(slots[1..], x, y);
        OverlapsFound(pid, slots[1..], x, y);
      }
    }
  }

  lemma {:induction false} OverlapsGenuine(pid: PersonId, slots: seq<Slot>, x: ShiftId, y: ShiftId)
    ensures DoubleBooked(pid, x, y) in Pairs(pid, slots) ==> OverlappingPair(slots, x, y)
  {
    if |slots| != 0 && DoubleBooked(pid, x, y) in Pairs(pid, slots) {
      if DoubleBooked(pid, x, y) in PairsWith(pid, slots[0], slots[1..]) {
        var j :| 0 <= j < |slots[1..]| && slots[1..][j].shift == y && Overlaps(slots[0].window, slots[1..][j].window);
        assert slots[j + 1] == slots[1..][j];
      } else {
        OverlapsGenuine(pid, slots[1..], x, y);
        var i, j :| 0 <= i < j < |slots[1..]| && slots[1..][i].shift == x && slots[1..][j].shift == y
                    && Overlaps(slots[1..][i].window, slots[1..][j].window);
        assert slots[i + 1] == slots[1..][i] && slots[j + 1] == slots[1..][j];
      }
    }
  }

  /** A pair of shifts is reported as back-to-back exactly when the earlier
      one in the list ends where the later one starts. */
  lemma PairsReportBackToBack(pid: PersonId, slots: seq<Slot>, x: ShiftId, y: ShiftId)
    ensures Consecutive(pid, x, y) in Pairs(pid, slots) <==> BackToBackPair(slots, x, y)
  {
    BackToBackFound(pid, slots, x, y);
    BackToBackGenuine(pid, slots, x, y);
  }

  lemma {:induction false} BackToBackFound(pid: PersonId, slots: seq<Slot>, x: ShiftId, y: ShiftId)
    ensures BackToBackPair(slots, x, y) ==> Consecutive(pid, x, y) in Pairs(pid, slots)
  {
    if |slots| != 0 && BackToBackPair(slots, x, y) {
      var i, j :| 0 <= i < j < |slots| && slots[i].shift == x && slots[j].shift == y
                  && slots[i].window.end == slots[j].window.start;
      if i == 0 {
        assert slots[1..][j - 1] == slots[j];
        assert Consecutive(pid, x, y) in PairsWith(pid, slots[0], slots[1..]);
      } else {
        assert slots[1..][i - 1] == slots[i] && slots[1..][j - 1] == slots[j];
        assert BackToBackPair(slots[1..], x, y);
        BackToBackFound(pid, slots[1..], x, y);
      }
    }
  }

  lemma {:induction false} BackToBackGenuine(pid: PersonId, slots: seq<Slot>, x: ShiftId, y: ShiftId)
    ensures Consecutive(pid, x, y) in Pairs(pid, slots) ==> BackToBackPair(slots, x, y)
  {
    if |slots| != 0 && Consecutive(pid, x, y) in Pairs(pid, slots) {
      if Consecutive(pid, x, y) in PairsWith(pid, slots[0], slots[1..]) {
        var j :| 0 <= j < |slots[1..]| && slots[1..][j].shift == y && slots[0].window.end == slots[1..][j].window.start;
        assert slots[j + 1] == slots[1..][j];
      } else {
        BackToBackGenuine(pid, slots[1..], x, y);
        var i, j :| 0 <= i < j < |slots[1..]| && slots[1..][i].shift == x && slots[1..][j].shift == y
                    && slots[1..][i].window.end == slots[1..][j].window.start;
        assert slots[i + 1] == slots[1..][i] && slots[j + 1] == slots[1..][j];
      }
    }
  }

  /** `a`, the earlier window, ends exactly where `b` starts. */
  predicate Abuts(a: Time.Window, b: Time.Window) {
    a.end == b.start
  }

  /** How many slots of `later` stand in `rel` to the earlier slot `cur`. */
  function After(cur: Slot, later: seq<Slot>, rel: (Time.Window, Time.Window) -> bool): nat {
    if |later| == 0 then 0
    else (if rel(cur.window, later[0].window) then 1 else 0) + After(cur, later[1..], rel)
  }

  /** How many slots of `earlier` stand in `rel` to the later slot `cur`. */
  function Before(earlier: seq<Slot>, cur: Slot, rel: (Time.Window, Time.Window) -> bool): nat {
    if |earlier| == 0 then 0
    else (if rel(earlier[0].window, cur.window) then 1 else 0) + Before(earlier[1..], cur, rel)
  }

  /** The number of index pairs `i < j` of `slots` with `rel(slots[i], slots[j])`,
      counted by the later index. */
  function PairCount(slots: seq<Slot>, rel: (Time.Window, Time.Window) -> bool): nat {
    if |slots| == 0 then 0
    else PairCount(slots[..|slots| - 1], rel) + Before(slots[..|slots| - 1], slots[|slots| - 1], rel)
  }

  /** How many lines of `ws` are of the given kind. */
  function CountLines(ws: seq<PlanWarning>, kind: PlanWarning -> bool): nat {
    if |ws| == 0 then 0 else (if kind(ws[0]) then 1 else 0) + CountLines(ws[1..], kind)
  }

  function DoubleBookedOf(pid: PersonId): PlanWarning -> bool {
    (w: PlanWarning) => w.DoubleBooked? && w.person == pid
  }

  function ConsecutiveOf(pid: PersonId): PlanWarning -> bool {
    (w: PlanWarning) => w.Consecutive? && w.person == pid
  }

  lemma {:induction false} CountLinesAppend(a: seq<PlanWarning>, b: seq<PlanWarning>, kind: PlanWarning -> bool)
    ensures CountLines(a + b, kind) == CountLines(a, kind) + CountLines(b, kind)
  {
    if |a| != 0 {
      assert (a + b)[1..] == a[1..] + b;
      CountLinesAppend(a[1..], b, kind);
    } else {
      assert a + b == b;
    }
  }

  lemma {:induction false} CountLinesNone(ws: seq<PlanWarning>, kind: PlanWarning -> bool)
    requires forall w :: w in ws ==> !kind(w)
    ensures CountLines(ws, kind) == 0
  {
    if |ws| != 0 {
      assert forall w :: w in ws[1..] ==> w in ws;
      CountLinesNone(ws[1..], kind);
    }
  }

  lemma {:induction false} AfterSnoc(cur: Slot, later: seq<Slot>, x: Slot, rel: (Time.Window, Time.Window) -> bool)
    ensures After(cur, later + [x], rel) == After(cur, later, rel) + (if rel(cur.window, x.window) then 1 else 0)
  {
    if |later| != 0 {
      assert (later + [x])[1..] == later[1..] + [x];
      AfterSnoc(cur, later[1..], x, rel);
    } else {
      assert later + [x] == [x];
    }
  }

  /** Counting pairs by the earlier index gives the same number. */
  lemma {:induction false} PairCountByEarlier(slots: seq<Slot>, rel: (Time.Window, Time.Window) -> bool)
    requires |slots| > 0
    ensures PairCount(slots, rel) == After(slots[0], slots[1..], rel) + PairCount(slots[1..], rel)
  {
    var n := |slots| - 1;
    if n != 0 {
      var init, last := slots[..n], slots[n];
      var mid := slots[1..n];
      PairCountByEarlier(init, rel);
      assert init[0] == slots[0] && init[1..] == mid;
      assert slots[1..][..n - 1] == mid && slots[1..][n - 1] == last;
      assert slots[1..] == mid + [last];
      AfterSnoc(slots[0], mid, last, rel);
    }
  }

  /** The pair lines of `cur` against the later slots: one double-booked line
      per overlapping later slot and one back-to-back line per later slot
      starting where `cur` ends. */
  lemma {:induction false} PairsWithCount(pid: PersonId, cur: Slot, others: seq<Slot>)
    ensures CountLines(PairsWith(pid, cur, others), DoubleBookedOf(pid)) == After(cur, others, Overlaps)
    ensures CountLines(PairsWith(pid, cur, others), ConsecutiveOf(pid)) == After(cur, others, Abuts)
  {
    if |others| != 0 {
      var o := others[0];
      var a := if Overlaps(cur.window, o.window) then [DoubleBooked(pid, cur.shift, o.shift)] else [];
      var b := if cur.window.end == o.window.start then [Consecutive(pid, cur.shift, o.shift)] else [];
      var rest := PairsWith(pid, cur, others[1..]);
      PairsWithCount(pid, cur, others[1..]);
      assert PairsWith(pid, cur, others) == (a + b) + rest;
      CountLinesAppend(a + b, rest, DoubleBookedOf(pid));
      CountLinesAppend(a, b, DoubleBookedOf(pid));
      CountLinesAppend(a + b, rest, ConsecutiveOf(pid));
      CountLinesAppend(a, b, ConsecutiveOf(pid));
    }
  }

  /** The pair loop yields one double-booked line per index pair `i < j`
      whose slots overlap and one back-to-back line per pair where the earlier
      ends where the later starts. */
  lemma {:induction false} PairsCount(pid: PersonId, slots: seq<Slot>)
    ensures CountLines(Pairs(pid, slots), DoubleBookedOf(pid)) == PairCount(slots, Overlaps)
    ensures CountLines(Pairs(pid, slots), ConsecutiveOf(pid)) == PairCount(slots, Abuts)
  {
    if |slots| != 0 {
      PairsCount(pid, slots[1..]);
      PairsWithCount(pid, slots[0], slots[1..]);
      CountLinesAppend(PairsWith(pid, slots[0], slots[1..]), Pairs(pid, slots[1..]), DoubleBookedOf(pid));
      CountLinesAppend(PairsWith(pid, slots[0], slots[1..]), Pairs(pid, slots[1..]), ConsecutiveOf(pid));
      PairCountByEarlier(slots, Overlaps);
      PairCountByEarlier(slots, Abuts);
    }
  }

  /** All lines for one person: the pairs, then the shift-count line. */
  function PersonLines(rows: seq<PlanRow>, pid: PersonId): (r: seq<PlanWarning>)
    ensures forall w :: w in r ==> (w.DoubleBooked? || w.Consecutive? || w.Overloaded?) && w.person == pid
    ensures forall n: nat :: Overloaded(pid, n) in r <==> n == |SlotsOf(rows, pid)| && n > RecommendedMaxShifts
  {
    var slots := PersonSlots(rows, pid);
    Pairs(pid, slots) + (if |slots| > RecommendedMaxShifts then [Overloaded(pid, |slots|)] else [])
  }

  function PersonWarnings(rows: seq<PlanRow>, pids: seq<PersonId>): (r: seq<PlanWarning>)
    ensures forall w :: w in r ==> (w.DoubleBooked? || w.Consecutive? || w.Overloaded?) && w.person in pids
    ensures forall w :: w in r <==> exists k :: 0 <= k < |pids| && w in PersonLines(rows, pids[k])
  {
    if |pids| == 0 then []
    else
      var rest := PersonWarnings(rows, pids[1..]);
      assert forall k :: 1 <= k < |pids| ==> pids[k] == pids[1..][k - 1];
      assert forall w :: w in rest ==> exists k :: 1 <= k < |pids| && w in PersonLines(rows, pids[k]) by {
        forall w | w in rest ensures exists k :: 1 <= k < |pids| && w in PersonLines(rows, pids[k]) {
          var k :| 0 <= k < |pids[1..]| && w in PersonLines(rows, pids[1..][k]);
          assert w in PersonLines(rows, pids[k + 1]);
        }
      }
      PersonLines(rows, pids[0]) + rest
  }

  /** A person's lines hold one double-booked line per overlapping pair of
      their slots and one back-to-back line per touching pair. */
  lemma PersonLinesCount(rows: seq<PlanRow>, pid: PersonId)
    ensures CountLines(PersonLines(rows, pid), DoubleBookedOf(pid)) == PairCount(PersonSlots(rows, pid), Overlaps)
    ensures CountLines(PersonLines(rows, pid), ConsecutiveOf(pid)) == PairCount(PersonSlots(rows, pid), Abuts)
  {
    var slots := PersonSlots(rows, pid);
    var tail := if |slots| > RecommendedMaxShifts then [Overloaded(pid, |slots|)] else [];
    assert PersonLines(rows, pid) == Pairs(pid, slots) + tail;
    PairsCount(pid, slots);
    OverloadLineHoldsNoPairs(tail, pid);
    CountLinesAppend(Pairs(pid, slots), tail, DoubleBookedOf(pid));
    CountLinesAppend(Pairs(pid, slots), tail, ConsecutiveOf(pid));
  }

  lemma OverloadLineHoldsNoPairs(tail: seq<PlanWarning>, pid: PersonId)
    requires forall w :: w in tail ==> w.Overloaded?
    ensures CountLines(tail, DoubleBookedOf(pid)) == 0 && CountLines(tail, ConsecutiveOf(pid)) == 0
  {
    CountLinesNone(tail, DoubleBookedOf(pid));
    CountLinesNone(tail, ConsecutiveOf(pid));
  }

  /** With each person listed once, the person part holds `pid`'s pair lines
      once if `pid` is listed and none otherwise. */
  lemma {:induction false} PersonWarningsCount(rows: seq<PlanRow>, pids: seq<PersonId>, pid: PersonId)
    requires Distinct(pids)
    ensures CountLines(PersonWarnings(rows, pids), DoubleBookedOf(pid))
         == if pid in pids then CountLines(PersonLines(rows, pid), DoubleBookedOf(pid)) else 0
    ensures CountLines(PersonWarnings(rows, pids), ConsecutiveOf(pid))
         == if pid in pids then CountLines(PersonLines(rows, pid), ConsecutiveOf(pid)) else 0
  {
    if |pids| != 0 {
      var head := PersonLines(rows, pids[0]);
      var rest := pids[1..];
      assert Distinct(rest) by {
        forall i, j | 0 <= i < j < |rest| ensures rest[i] != rest[j] {
          assert rest[i] == pids[i + 1] && rest[j] == pids[j + 1];
        }
      }
      assert pid in pids <==> pid == pids[0] || pid in rest;
      assert pid == pids[0] ==> pid !in rest by {
        forall j | 0 <= j < |rest| ensures rest[j] != pids[0] {
          assert rest[j] == pids[j + 1];
        }
      }
      PersonWarningsCount(rows, rest, pid);
      CountLinesAppend(head, PersonWarnings(rows, rest), DoubleBookedOf(pid));
      CountLinesAppend(head, PersonWarnings(rows, rest), ConsecutiveOf(pid));
      if pids[0] != pid {
        CountLinesNone(head, DoubleBookedOf(pid));
        CountLinesNone(head, ConsecutiveOf(pid));
      }
    }
  }

  // ---------------------------------------------------------------------
  // Team leaders

  /** Some assignment of shift `id` is held by a person who leads duty type `d`. */
  predicate LeaderOnShift(db: Db, id: ShiftId, d: DutyTypeId) {
    RowsHaveLeader(db.persons, db.assignments, id, d)
  }

  /** The compliance condition: the shift has assignments but none of a team
      leader for the task's duty type. */
  predicate LacksTeamLeader(db: Db, s: Shift, d: DutyTypeId) {
    RawCount(db, s.id) > 0 && !LeaderOnShift(db, s.id, d)
  }

  function LackingOf(db: Db, shifts: seq<Shift>): (r: seq<ShiftId>)
    requires forall s :: s in shifts ==> s.task in db.tasks
    ensures forall id :: id in r <==>
              exists s :: s in shifts && s.id == id && LacksTeamLeader(db, s, db.tasks[s.task].dutyType)
  {
    if |shifts| == 0 then []
    else
      var rest := LackingOf(db, shifts[1..]);
      assert forall s :: s in shifts <==> s == shifts[0] || s in shifts[1..];
      var s := shifts[0];
      if LacksTeamLeader(db, s, db.tasks[s.task].dutyType) then [s.id] + rest else rest
  }

  /** `check_team_leader_compliance(event_id)`: the shifts of the event that
      are staffed but have no team leader. */
  function CheckTeamLeaderCompliance(db: Db, e: EventId): (r: seq<ShiftId>)
    ensures forall id :: id in r <==>
              exists s :: s in EventShiftRows(db, e) && s.id == id && LacksTeamLeader(db, s, db.tasks[s.task].dutyType)
  {
    LackingOf(db, EventShiftRows(db, e))
  }

  /** Some row of shift `id` is held by a leader of duty type `d`. */
  predicate RowsHaveLeader(persons: seq<Person>, rows: seq<Assignment>, id: ShiftId, d: DutyTypeId) {
    exists k :: 0 <= k < |rows| && rows[k].shift == id && LeadsDuty(persons, rows[k].person, d)
  }

  lemma RowsHaveLeaderSnoc(persons: seq<Person>, rows: seq<Assignment>, id: ShiftId, d: DutyTypeId)
    requires |rows| > 0
    ensures var n := |rows| - 1;
            RowsHaveLeader(persons, rows, id, d)
            <==> RowsHaveLeader(persons, rows[..n], id, d) || (rows[n].shift == id && LeadsDuty(persons, rows[n].person, d))
  {
    var n := |rows| - 1;
    var init := rows[..n];
    if RowsHaveLeader(persons, rows, id, d) {
      var k :| 0 <= k < |rows| && rows[k].shift == id && LeadsDuty(persons, rows[k].person, d);
      if k < n {
        assert init[k] == rows[k];
      }
    }
    if RowsHaveLeader(persons, init, id, d) {
      var k :| 0 <= k < |init| && init[k].shift == id && LeadsDuty(persons, init[k].person, d);
      assert rows[k] == init[k];
    }
  }

  lemma ListsLeaderSnoc(xs: seq<Assigned>, x: Assigned)
    ensures ListsLeader(xs + [x]) <==> ListsLeader(xs) || x.isTeamLeader
  {
    var ys := xs + [x];
    if ListsLeader(ys) {
      var i :| 0 <= i < |ys| && ys[i].isTeamLeader;
      if i < |xs| {
        assert xs[i] == ys[i];
      }
    }
    if ListsLeader(xs) {
      var i :| 0 <= i < |xs| && xs[i].isTeamLeader;
      assert ys[i] == xs[i];
    }
    if x.isTeamLeader {
      assert ys[|xs|] == x;
    }
  }

  /** The inner-joined view of the proposal generator sees a team leader on a
      shift exactly when some assignment of the shift is held by one. */
  lemma {:induction false} AssignedOfHasLeader(persons: seq<Person>, rows: seq<Assignment>, id: ShiftId, d: DutyTypeId)
    ensures ListsLeader(AssignedOf(persons, rows, id, d)) <==> RowsHaveLeader(persons, rows, id, d)
  {
    if |rows| != 0 {
      var n := |rows| - 1;
      var last := rows[n];
      AssignedOfHasLeader(persons, rows[..n], id, d);
      RowsHaveLeaderSnoc(persons, rows, id, d);
      var prev := AssignedOf(persons, rows[..n], id, d);
      if last.shift == id && FindPerson(persons, last.person).Some? {
        ListsLeaderSnoc(prev, Assigned(last.person, LeadsDuty(persons, last.person, d)));
      } else {
        assert !LeadsDuty(persons, last.person, d) || last.shift != id;
      }
    }
  }

  /** The compliance check and the proposal's `has_tl` test agree: with
      shift ids unique (they are primary keys), a shift of the event is listed
      exactly when it has assignments and no team leader among its assigned
      persons. */
  lemma ComplianceAgreesWithAssignedPersons(db: Db, e: EventId, s: Shift)
    requires s in EventShiftRows(db, e)
    requires forall t :: t in db.shifts && t.id == s.id ==> t == s
    ensures s.id in CheckTeamLeaderCompliance(db, e) <==> RawCount(db, s.id) > 0 && !HasTeamLeader(db, s.id)
  {
    var d := db.tasks[s.task].dutyType;
    assert Info(db, s.id) == Some(ShiftInfo(s, db.tasks[s.task]));
    AssignedOfHasLeader(db.persons, db.assignments, s.id, d);
    assert AssignedPersons(db, s.id) == AssignedOf(db.persons, db.assignments, s.id, d);
    assert HasTeamLeader(db, s.id) <==> LeaderOnShift(db, s.id, d);
    if s.id in CheckTeamLeaderCompliance(db, e) {
      var t :| t in EventShiftRows(db, e) && t.id == s.id && LacksTeamLeader(db, t, db.tasks[t.task].dutyType);
      assert t == s;
    }
  }

  // ---------------------------------------------------------------------
  // The whole check

  function TeamLeaderWarnings(ids: seq<ShiftId>): (r: seq<PlanWarning>)
    ensures forall w :: w in r ==> w.MissingTeamLeader?
    ensures forall id :: MissingTeamLeader(id) in r <==> id in ids
  {
    if |ids| == 0 then []
    else
      var rest := TeamLeaderWarnings(ids[1..]);
      assert forall id :: id in ids <==> id == ids[0] || id in ids[1..];
      [MissingTeamLeader(ids[0])] + rest
  }

  /** `validate_event_plan(event_id)`. */
  function ValidatePlan(db: Db, e: EventId): seq<PlanWarning> {
    var rows := EventRows(db, e);
    OccupancyWarnings(db, EventShifts(db, e))
    + RestrictionWarnings(rows)
    + PersonWarnings(rows, PersonOrder(rows))
    + TeamLeaderWarnings(CheckTeamLeaderCompliance(db, e))
  }

  /** The part of the report a line belongs to: occupancy, restrictions,
      per-person lines, team leaders. */
  function Section(w: PlanWarning): nat {
    match w
    case EmptyShift(_) => 0
    case Understaffed(_, _, _) => 0
    case RestrictionViolated(_, _) => 1
    case DoubleBooked(_, _, _) => 2
    case Consecutive(_, _, _) => 2
    case Overloaded(_, _) => 2
    case MissingTeamLeader(_) => 3
  }

  /** The report lists its lines part by part: occupancy first, then
      restrictions, then the per-person lines, then missing team leaders. */
  lemma ValidatePlanInSectionOrder(db: Db, e: EventId)
    ensures forall i, j :: 0 <= i < j < |ValidatePlan(db, e)| ==> Section(ValidatePlan(db, e)[i]) <= Section(ValidatePlan(db, e)[j])
  {
    var rows := EventRows(db, e);
    var occ := OccupancyWarnings(db, EventShifts(db, e));
    var restr := RestrictionWarnings(rows);
    var pw := PersonWarnings(rows, PersonOrder(rows));
    var tl := TeamLeaderWarnings(CheckTeamLeaderCompliance(db, e));
    assert ValidatePlan(db, e) == occ + restr + pw + tl;
    PartSections(occ, restr, pw, tl);
    SectionsInOrder(occ, restr, pw, tl);
  }

  lemma PartSections(a: seq<PlanWarning>, b: seq<PlanWarning>, c: seq<PlanWarning>, d: seq<PlanWarning>)
    requires forall w :: w in a ==> w.EmptyShift? || w.Understaffed?
    requires forall w :: w in b ==> w.RestrictionViolated?
    requires forall w :: w in c ==> w.DoubleBooked? || w.Consecutive? || w.Overloaded?
    requires forall w :: w in d ==> w.MissingTeamLeader?
    ensures forall w :: w in a ==> Section(w) == 0
    ensures forall w :: w in b ==> Section(w) == 1
    ensures forall w :: w in c ==> Section(w) == 2
    ensures forall w :: w in d ==> Section(w) == 3
  {
  }

  lemma SectionsInOrder(a: seq<PlanWarning>, b: seq<PlanWarning>, c: seq<PlanWarning>, d: seq<PlanWarning>)
    requires forall w :: w in a ==> Section(w) == 0
    requires forall w :: w in b ==> Section(w) == 1
    requires forall w :: w in c ==> Section(w) == 2
    requires forall w :: w in d ==> Section(w) == 3
    ensures forall i, j :: 0 <= i < j < |a + b + c + d| ==> Section((a + b + c + d)[i]) <= Section((a + b + c + d)[j])
  {
    var r := a + b + c + d;
    var n1, n2, n3 := |a|, |a| + |b|, |a| + |b| + |c|;
    forall k | 0 <= k < |r|
      ensures Section(r[k]) == if k < n1 then 0 else if k < n2 then 1 else if k < n3 then 2 else 3
    {
      if k < n1 {
        assert r[k] == a[k];
      } else if k < n2 {
        assert r[k] == b[k - n1];
      } else if k < n3 {
        assert r[k] == c[k - n2];
      } else {
        assert r[k] == d[k - n3];
      }
    }
  }

  /** Person `pid` holds an assignment of event `e` (with an existing person row). */
  predicate OnPlan(db: Db, e: EventId, pid: PersonId) {
    exists a :: a in db.assignments && a.person == pid && InEvent(db, e, a) && PersonExists(db, pid)
  }

  lemma OnPlanIsListed(db: Db, e: EventId, pid: PersonId)
    ensures pid in PersonOrder(EventRows(db, e)) <==> OnPlan(db, e, pid)
  {
    var rows := EventRows(db, e);
    if OnPlan(db, e, pid) {
      var a :| a in db.assignments && a.person == pid && InEvent(db, e, a) && PersonExists(db, pid);
      RowsOfComplete(db, e, db.assignments, a);
      assert RowOf(db, e, a).value in rows;
    }
  }

  /** Only the person part of the check holds pair and shift-count lines. */
  lemma PersonLinesOfPlan(db: Db, e: EventId, w: PlanWarning)
    requires w.DoubleBooked? || w.Consecutive? || w.Overloaded?
    ensures w in ValidatePlan(db, e) <==> w in PersonWarnings(EventRows(db, e), PersonOrder(EventRows(db, e)))
  {
    var rows := EventRows(db, e);
    var occ := OccupancyWarnings(db, EventShifts(db, e));
    var restr := RestrictionWarnings(rows);
    var pw := PersonWarnings(rows, PersonOrder(rows));
    var tl := TeamLeaderWarnings(CheckTeamLeaderCompliance(db, e));
    assert ValidatePlan(db, e) == occ + restr + pw + tl;
    PartSections(occ, restr, pw, tl);
    ThirdPartOnly(occ, restr, pw, tl, w);
  }

  lemma ThirdPartOnly(a: seq<PlanWarning>, b: seq<PlanWarning>, c: seq<PlanWarning>, d: seq<PlanWarning>, w: PlanWarning)
    requires forall x :: x in a ==> Section(x) == 0
    requires forall x :: x in b ==> Section(x) == 1
    requires forall x :: x in d ==> Section(x) == 3
    requires Section(w) == 2
    ensures w in a + b + c + d <==> w in c
  {
  }

  /** The lines of the person part that mention person `pid`. */
  lemma PersonPart(db: Db, e: EventId, pid: PersonId, w: PlanWarning)
    requires w.DoubleBooked? || w.Consecutive? || w.Overloaded?
    requires w.person == pid
    ensures w in PersonWarnings(EventRows(db, e), PersonOrder(EventRows(db, e)))
        <==> OnPlan(db, e, pid) && w in PersonLines(EventRows(db, e), pid)
  {
    var rows := EventRows(db, e);
    var pids := PersonOrder(rows);
    OnPlanIsListed(db, e, pid);
    if w in PersonWarnings(rows, pids) {
      var k :| 0 <= k < |pids| && w in PersonLines(rows, pids[k]);
      assert pids[k] == pid;
    }
    if OnPlan(db, e, pid) && w in PersonLines(rows, pid) {
      var k :| 0 <= k < |pids| && pids[k] == pid;
    }
  }

  /** Parts made of occupancy, restriction and team-leader lines hold no
      pair lines. */
  lemma OtherPartsHoldNoPairs(front: seq<PlanWarning>, back: seq<PlanWarning>, pid: PersonId)
    requires forall w :: w in front ==> w.EmptyShift? || w.Understaffed? || w.RestrictionViolated?
    requires forall w :: w in back ==> w.MissingTeamLeader?
    ensures CountLines(front, DoubleBookedOf(pid)) == 0 && CountLines(front, ConsecutiveOf(pid)) == 0
    ensures CountLines(back, DoubleBookedOf(pid)) == 0 && CountLines(back, ConsecutiveOf(pid)) == 0
  {
    CountLinesNone(front, DoubleBookedOf(pid));
    CountLinesNone(front, ConsecutiveOf(pid));
    CountLinesNone(back, DoubleBookedOf(pid));
    CountLinesNone(back, ConsecutiveOf(pid));
  }

  /** The check reports a person of the plan once per pair `i < j` of their
      start-ordered slots: one double-booked line per overlapping pair and one
      back-to-back line per pair where the earlier ends as the later starts.
      A person not on the plan gets no such line. */
  lemma ReportsEachPair(db: Db, e: EventId, pid: PersonId)
    ensures CountLines(ValidatePlan(db, e), DoubleBookedOf(pid))
         == if OnPlan(db, e, pid) then PairCount(PersonSlots(EventRows(db, e), pid), Overlaps) else 0
    ensures CountLines(ValidatePlan(db, e), ConsecutiveOf(pid))
         == if OnPlan(db, e, pid) then PairCount(PersonSlots(EventRows(db, e), pid), Abuts) else 0
  {
    var rows := EventRows(db, e);
    var occ := OccupancyWarnings(db, EventShifts(db, e));
    var restr := RestrictionWarnings(rows);
    var pw := PersonWarnings(rows, PersonOrder(rows));
    var tl := TeamLeaderWarnings(CheckTeamLeaderCompliance(db, e));
    assert ValidatePlan(db, e) == occ + restr + pw + tl;
    PersonWarningsCount(rows, PersonOrder(rows), pid);
    PersonLinesCount(rows, pid);
    OnPlanIsListed(db, e, pid);
    OtherPartsHoldNoPairs(occ + restr, tl, pid);
    CountThirdPart(occ + restr, pw, tl, DoubleBookedOf(pid));
    CountThirdPart(occ + restr, pw, tl, ConsecutiveOf(pid));
  }

  lemma CountThirdPart(a: seq<PlanWarning>, c: seq<PlanWarning>, d: seq<PlanWarning>, kind: PlanWarning -> bool)
    requires CountLines(a, kind) == 0 && CountLines(d, kind) == 0
    ensures CountLines(a + c + d, kind) == CountLines(c, kind)
  {
    CountLinesAppend(a, c, kind);
    CountLinesAppend(a + c, d, kind);
  }

  /** A shift of the event is reported empty exactly when nobody is assigned
      to it. */
  lemma ReportsEmptyShifts(db: Db, e: EventId, id: ShiftId)
    ensures EmptyShift(id) in ValidatePlan(db, e)
        <==> exists s :: s in EventShiftRows(db, e) && s.id == id && RawCount(db, id) == 0
  {
    var rows := EventRows(db, e);
    assert EmptyShift(id) !in PersonWarnings(rows, PersonOrder(rows));
  }

  /** A shift of the event is reported understaffed exactly when it has some
      but fewer than the required assignments. */
  lemma ReportsUnderstaffedShifts(db: Db, e: EventId, id: ShiftId, c: nat, q: int)
    ensures Understaffed(id, c, q) in ValidatePlan(db, e)
        <==> exists s :: s in EventShiftRows(db, e) && s.id == id && s.required == q && c == RawCount(db, id) && 0 < c < q
  {
    var rows := EventRows(db, e);
    assert Understaffed(id, c, q) !in PersonWarnings(rows, PersonOrder(rows));
  }

  /** An assignment is reported exactly when its person is restricted from
      the duty type of its task. */
  lemma ReportsRestrictions(db: Db, e: EventId, pid: PersonId, id: ShiftId)
    ensures RestrictionViolated(pid, id) in ValidatePlan(db, e)
        <==> exists x :: x in RowsOf(db, e, db.assignments) && x.person.id == pid && x.info.shift.id == id
                         && x.info.task.dutyType in x.person.restrictions
  {
    var w := RestrictionViolated(pid, id);
    assert w in ValidatePlan(db, e) <==> w in RestrictionWarnings(EventRows(db, e)) by {
      RestrictionLinesOfPlan(db, e, w);
    }
  }

  /** Only the restriction part of the check holds restriction lines. */
  lemma RestrictionLinesOfPlan(db: Db, e: EventId, w: PlanWarning)
    requires w.RestrictionViolated?
    ensures w in ValidatePlan(db, e) <==> w in RestrictionWarnings(EventRows(db, e))
  {
    var rows := EventRows(db, e);
    assert w !in PersonWarnings(rows, PersonOrder(rows));
    assert w !in OccupancyWarnings(db, EventShifts(db, e));
    assert w !in TeamLeaderWarnings(CheckTeamLeaderCompliance(db, e));
  }

  /** A person of the plan is reported double-booked on two shifts exactly
      when, in their start-ordered shift list, the earlier overlaps the later. */
  lemma ReportsDoubleBooking(db: Db, e: EventId, pid: PersonId, x: ShiftId, y: ShiftId)
    ensures DoubleBooked(pid, x, y) in ValidatePlan(db, e)
        <==> OnPlan(db, e, pid) && OverlappingPair(PersonSlots(EventRows(db, e), pid), x, y)
    ensures CountLines(ValidatePlan(db, e), DoubleBookedOf(pid))
         == if OnPlan(db, e, pid) then PairCount(PersonSlots(EventRows(db, e), pid), Overlaps) else 0
  {
    ReportsEachPair(db, e, pid);
    DoubleBookingListed(db, e, pid, x, y);
  }

  lemma DoubleBookingListed(db: Db, e: EventId, pid: PersonId, x: ShiftId, y: ShiftId)
    ensures DoubleBooked(pid, x, y) in ValidatePlan(db, e)
        <==> OnPlan(db, e, pid) && OverlappingPair(PersonSlots(EventRows(db, e), pid), x, y)
  {
    var rows := EventRows(db, e);
    var w := DoubleBooked(pid, x, y);
    PersonLinesOfPlan(db, e, w);
    PersonPart(db, e, pid, w);
    PairsReportOverlaps(pid, PersonSlots(rows, pid), x, y);
  }

  /** A person of the plan is reported working back-to-back exactly when one
      of their shifts ends where a later one in their list starts. */
  lemma ReportsBackToBack(db: Db, e: EventId, pid: PersonId, x: ShiftId, y: ShiftId)
    ensures Consecutive(pid, x, y) in ValidatePlan(db, e)
        <==> OnPlan(db, e, pid) && BackToBackPair(PersonSlots(EventRows(db, e), pid), x, y)
    ensures CountLines(ValidatePlan(db, e), ConsecutiveOf(pid))
         == if OnPlan(db, e, pid) then PairCount(PersonSlots(EventRows(db, e), pid), Abuts) else 0
  {
    ReportsEachPair(db, e, pid);
    BackToBackListed(db, e, pid, x, y);
  }

  lemma BackToBackListed(db: Db, e: EventId, pid: PersonId, x: ShiftId, y: ShiftId)
    ensures Consecutive(pid, x, y) in ValidatePlan(db, e)
        <==> OnPlan(db, e, pid) && BackToBackPair(PersonSlots(EventRows(db, e), pid), x, y)
  {
    var rows := EventRows(db, e);
    var w := Consecutive(pid, x, y);
    PersonLinesOfPlan(db, e, w);
    PersonPart(db, e, pid, w);
    PairsReportBackToBack(pid, PersonSlots(rows, pid), x, y);
  }

  /** A person is reported with `n` shifts exactly when they hold `n` of the
      event's assignments and `n` exceeds two. */
  lemma ReportsOverload(db: Db, e: EventId, pid: PersonId, n: nat)
    ensures Overloaded(pid, n) in ValidatePlan(db, e)
        <==> OnPlan(db, e, pid) && n == Eligibility.DutyCount(db, e, pid) && n > RecommendedMaxShifts
  {
    var rows := EventRows(db, e);
    var w := Overloaded(pid, n);
    PersonLinesOfPlan(db, e, w);
    PersonPart(db, e, pid, w);
    SlotCountIsDutyCount(db, e, pid);
  }

  /** A shift is reported without team leader exactly when the compliance
      check lists it. */
  lemma ReportsMissingTeamLeader(db: Db, e: EventId, id: ShiftId)
    ensures MissingTeamLeader(id) in ValidatePlan(db, e) <==> id in CheckTeamLeaderCompliance(db, e)
  {
    var rows := EventRows(db, e);
    assert MissingTeamLeader(id) !in PersonWarnings(rows, PersonOrder(rows));
  }

  /** Every slot of the check comes from an assignment of the event held by
      that person, with the assignment's shift and window. */
  lemma SlotComesFromAssignment(db: Db, e: EventId, pid: PersonId, t: Slot)
    requires t in SlotsOf(EventRows(db, e), pid)
    ensures exists a :: a in db.assignments && a.person == pid && InEvent(db, e, a)
                        && t.shift == a.shift && t.window == AssignmentWindow(db, a)
  {
    var x :| x in EventRows(db, e) && x.person.id == pid && t == SlotOf(x);
    var a :| a in db.assignments && RowOf(db, e, a) == Some(x);
    assert t.shift == a.shift && t.window == AssignmentWindow(db, a);
  }

  /** A double-booked line names two assignments of the person in the event,
      on the two named shifts, whose windows overlap. */
  lemma DoubleBookedLineIsGenuine(db: Db, e: EventId, pid: PersonId, x: ShiftId, y: ShiftId)
    ensures DoubleBooked(pid, x, y) in ValidatePlan(db, e) ==>
            exists a, b :: a in db.assignments && b in db.assignments
                           && a.person == pid && b.person == pid && a.shift == x && b.shift == y
                           && InEvent(db, e, a) && InEvent(db, e, b)
                           && Overlaps(AssignmentWindow(db, a), AssignmentWindow(db, b))
  {
    if DoubleBooked(pid, x, y) in ValidatePlan(db, e) {
      var rows := EventRows(db, e);
      var slots := PersonSlots(rows, pid);
      ReportsDoubleBooking(db, e, pid, x, y);
      var i, j :| 0 <= i < j < |slots| && slots[i].shift == x && slots[j].shift == y
                  && Overlaps(slots[i].window, slots[j].window);
      assert slots[i] in multiset(SlotsOf(rows, pid)) && slots[j] in multiset(SlotsOf(rows, pid));
      SlotComesFromAssignment(db, e, pid, slots[i]);
      SlotComesFromAssignment(db, e, pid, slots[j]);
    }
  }

  /** A plan without double bookings, such as one the proposal generator
      extends, gets no double-booked line for two different shifts. */
  lemma NoDoubleBookingPassesCheck(db: Db, e: EventId, pid: PersonId, x: ShiftId, y: ShiftId)
    requires NoDoubleBooking(db, e)
    requires x != y
    ensures DoubleBooked(pid, x, y) !in ValidatePlan(db, e)
  {
    DistinctShiftsDoNotOverlap(db, e);
    if DoubleBooked(pid, x, y) in ValidatePlan(db, e) {
      DoubleBookedLineIsGenuine(db, e, pid, x, y);
    }
  }

  /** `NoDoubleBooking` stated over assignment rows rather than positions,
      for rows on different shifts. */
  lemma DistinctShiftsDoNotOverlap(db: Db, e: EventId)
    requires NoDoubleBooking(db, e)
    ensures forall a, b :: a in db.assignments && b in db.assignments && a.person == b.person && a.shift != b.shift
                           && InEvent(db, e, a) && InEvent(db, e, b)
                           ==> !Overlaps(AssignmentWindow(db, a), AssignmentWindow(db, b))
  {
    forall a, b | a in db.assignments && b in db.assignments && a.person == b.person && a.shift != b.shift
                  && InEvent(db, e, a) && InEvent(db, e, b)
      ensures !Overlaps(AssignmentWindow(db, a), AssignmentWindow(db, b))
    {
      var i :| 0 <= i < |db.assignments| && db.assignments[i] == a;
      var j :| 0 <= j < |db.assignments| && db.assignments[j] == b;
    }
  }
}
